=== FILE: README.md ===
# uPlayer core, modelled in Dafny

A model of the core of the Kodi video addon `plugin.video.uplayer`. The addon
turns a pasted string into a typed library entry. A URL is resolved by an
ordered list of site adapters (Boosty, Rutube), with a fallback to the page's
Open Graph / Twitter meta tags. Anything that is not a URL becomes a folder.
The addon then shows the saved entries and each site's content as Kodi
directory listings, which are paged.

Covered here:

- **Entity resolution**: `MediaProvider.get_data`, `create_item` and
  `register_adapter`, the meta-tag collection `find`, and the assembly order of
  `parse_ogg_tags`.
- **Site adapters and clients**:
  - YouTube: host and path branching, ISO 8601 `PT#H#M#S` durations (section
    4.4.3.2 of ISO 8601:2004), the `maxResults` clamp, single-resource lookup
    and thumbnail selection.
  - Rutube: prefix dispatch, id extraction, the page cursor, live-stream
    choice, the HLS variant choice by `RESOLUTION` (section 4.3.4.2 of
    RFC 8216), and the REST client's path-template and query split.
  - Boosty: post and media pattern order, the 0 / 1 / 2-or-more videos
    classification, the quality dialog, and the login and error wrappers.
- **Registries and codecs**:
  - `URLConstructor`;
  - the plugin `Router` (`route`, `url_for`, `dispatch`) with its JSON value
    codec;
  - `settings.get_boolean`, `get_int` and `get_string`;
  - `re_search`, modelled as a small pattern engine that is proved sound and
    complete for the patterns the providers use.
- **Directory pages**: every listing of `pages/items.py`, `pages/playlists.py`,
  `pages/playlist_items.py`, `pages/youtube.py`, `pages/rutube.py` and
  `pages/boosty.py`. Each is modelled as a function from the query
  parameters, settings and fetched data to a list of abstract entries. An
  entry has a kind (shortcut, row or next-page element), a target link, a
  folder flag, a playable flag and a context menu; labels and artwork are
  dropped.
  - The look-ahead paging is proved to show every row exactly once when the
    next-page elements are followed.
  - Each URL constructor is proved to read only `data` keys that the matching
    adapter writes.

Everything the code fetches or asks Kodi for is a parameter:

- HTTP replies, YouTube, Rutube and Boosty API objects, and a parsed page's
  meta tags are record or function-valued parameters. Examples are `Api`,
  `Session`, `Scraper` and `Feeds`.
- `boosty_api.utils.select_best_quality` is an opaque `Selector`.
- The screen size is a pair of integers.
- Settings are the text a lookup returns.
- A dialog's answer is a value.
- A saved row's key (`id`) is an argument.
- The saved items, playlists and playlist items are sequences in the order
  the store's `select` returns them.

Python exceptions are the `Err` side of `Wrappers.Result`, named after the
exception class.

Modules follow the source files:

| module | file | what it holds |
|---|---|---|
| `Utils` | `utils.dfy` | `URLConstructor` |
| `Settings` | `settings.dfy` | `settings` |
| `ProvidersBase` | `providers_base.dfy` | `providers/base.py` |
| `Parsers` | `parsers.dfy` | `parsers.py` |
| `Providers` | `providers_registry.dfy` | `providers/__init__.py` |
| `ProvidersYouTube` | `providers_youtube.dfy` | `providers/youtube.py` |
| `ProvidersRutube` | `providers_rutube.dfy` | `providers/rutube.py` |
| `ProvidersBoosty` | `providers_boosty.dfy` | `providers/boosty.py` |
| `RutubeClient` | `rutube_client.dfy` | `rutube.py` |
| `MainRouter` | `main_router.dfy` | `main.py` |
| `PagesItems` | `pages_items.dfy` | `pages/items.py` |
| `PagesPlaylists` | `pages_playlists.dfy` | `pages/playlists.py` |
| `PagesPlaylistItems` | `pages_playlist_items.dfy` | `pages/playlist_items.py` |
| `PagesYouTube` | `pages_youtube.dfy` | `pages/youtube.py` |
| `PagesRutube` | `pages_rutube.dfy` | `pages/rutube.py` |
| `PagesBoosty` | `pages_boosty.dfy` | `pages/boosty.py` |

Shared helpers:

- `Wrappers`: Option, Result and the error kinds.
- `Text`: prefixes and decimal digits.
- `Regex`: `re_search`.
- `PyJson`: Python values and `json.dumps`/`json.loads`.
- `Directory`: links, entries and page layout.
- `Paging`: `LIMIT`/`OFFSET` windows and look-ahead.
- `Storage`: the record types the pages read.
- `UrlRegistry`: the URL constructor after every page module has registered
  its types.

## Model

| member | source | states |
|---|---|---|
| `Utils.Register` | resources/lib/utils.py:10-14 | registering adds the type name, binds it to the given function and leaves every other name's binding as it was |
| `Utils.Call` | resources/lib/utils.py:5-8 | an unregistered type name raises ValueError; a registered one returns what its function returns for the argument |
| `Utils.ReRegisterReplaces` | resources/lib/utils.py:10-14 | after two registrations under one name, calls reach only the second function |
| `Utils.RegisterKeepsOthers` | resources/lib/utils.py:10-14 | registering one name does not change calls under any other name |
| `Settings.GetString` | resources/lib/settings.py:17-21 | with `addon_id` None the current addon's setting is read, otherwise the named addon's; an unknown key reads as '' and an addon that is not installed is an error |
| `Settings.TextToBoolTable` | resources/lib/settings.py:6-10 | the text is true exactly when it is one of '1', 'yes', 'true', 'on', or a non-empty text outside the eight-entry table; so 'False' and 'No' are true and '' is false |
| `Settings.GetBoolean` | resources/lib/settings.py:6-10 | succeeds exactly when `get_string` does, and then gives the table-or-truthiness reading of the setting text |
| `Settings.ParseDigits` | resources/lib/settings.py:13-14 | `int()` of a plain decimal numeral is the value of its digits |
| `Settings.ParseNegative` | resources/lib/settings.py:13-14 | `int()` of a minus sign followed by a numeral is the negated value |
| `Settings.ParseShowInt` | resources/lib/settings.py:13-14 | `int(str(i)) == i` for every integer |
| `Settings.ParseBlank` | resources/lib/settings.py:13-14 | blank text raises ValueError |
| `Settings.ParseRejects` | resources/lib/settings.py:13-14 | text holding a character other than a digit, an underscore or a leading sign raises ValueError |
| `Settings.ParseInt` | resources/lib/settings.py:13-14 | every failure of `int()` is a ValueError |
| `Settings.ParseStripsUnicodeSpaces` | resources/lib/settings.py:13-14 | a no-break space before and an ideographic space after a numeral are stripped, as `int()` strips the non-ASCII whitespace characters |
| `Settings.ParseKeepsSeparators` | resources/lib/settings.py:13-14 | a separator 0x1c-0x1f before a numeral is not stripped, so `int()` raises ValueError |
| `Settings.GetInt` | resources/lib/settings.py:13-14 | a failed setting lookup propagates unchanged; otherwise the result is `int()` of the setting text |
| `ProvidersBase.FirstHit` | resources/lib/providers/base.py:22-30 | adapters are asked in registration order: a hit is the first adapter that answered, with every earlier one declining; no answer means every adapter declined; an error comes from an adapter all of whose predecessors declined |
| `ProvidersBase.Backfill` | resources/lib/providers/base.py:25-30 | truthy adapter fields are kept and falsy ones filled from the page's tags (the title finally from the URL, the url from the input); `cover`, type, folder flag and `data` stay as the adapter set them |
| `ProvidersBase.GetData` | resources/lib/providers/base.py:11-40 | text that does not start with `http://` or `https://` becomes a folder titled with it and nothing is fetched; otherwise a failed page fetch aborts, an adapter hit is backfilled, and no hit gives the tag-described video |
| `ProvidersBase.CreateItem` | resources/lib/providers/base.py:42-44 | the item exists exactly when `get_data` succeeds, and carries the given parent and the resolved entity |
| `ProvidersBase.RegisterAdapter` | resources/lib/providers/base.py:46-48 | the adapter is appended after the existing ones, which keep their places |
| `ProvidersBase.RegisteredLastIsAskedLast` | resources/lib/providers/base.py:22-30 | an appended adapter changes the outcome only when every earlier adapter declined, and then its answer is the outcome |
| `ProvidersBase.ResolvedTitleIsTruthy` | resources/lib/providers/base.py:26 | a resolved URL always gets a non-empty title |
| `ProvidersBase.UnclaimedUrlIsVideo` | resources/lib/providers/base.py:31-40 | with no adapter match the item is a non-folder VIDEO at the input URL whose thumbnail and cover are the same image tag |
| `Parsers.Find` | resources/lib/parsers.py:8-12 | the result is the value of the first tag, in collection order, whose name is a key and whose value is truthy; the default when there is none |
| `Parsers.FindIgnoresKeyOrder` | resources/lib/parsers.py:8-11 | reordering or repeating the keys does not change the result |
| `Parsers.FindResult` | resources/lib/parsers.py:8-12 | the result is the default or a truthy value of a tag named by a key |
| `Parsers.PropertyTags` | resources/lib/parsers.py:29-33 | exactly the head meta elements with a truthy `property` contribute a `(property, content)` pair |
| `Parsers.PropertyTagsAppend` | resources/lib/parsers.py:29-33 | the pairs keep document order |
| `Parsers.FindAppend` | resources/lib/parsers.py:8-12 | in a concatenation the first part wins whenever it has a qualifying tag |
| `Parsers.TitleNeverShadowsProperties` | resources/lib/parsers.py:29-41 | `<title>` and the description are appended after the property pairs, so a usable `og:title` or `twitter:title` always beats `<title>` |
| `Parsers.ParseOggTags` | resources/lib/parsers.py:15-43 | a 4xx or 5xx status raises ValidationError; any other status yields the assembled tag list |
| `Providers.Registry` | resources/lib/providers/__init__.py:7-10 | the registry holds exactly the Boosty adapter, then the Rutube adapter |
| `Providers.BoostyAnswersFirst` | resources/lib/providers/__init__.py:7-10 | a boosty.to link is answered by the Boosty adapter and Rutube is not asked |
| `Providers.RutubeAnswersSecond` | resources/lib/providers/__init__.py:7-10 | a rutube.ru link is answered by the Rutube adapter after Boosty declined |
| `Providers.YouTubeLinkIsPlainVideo` | resources/lib/providers/__init__.py:7-10 | the YouTube adapter is never registered, so a YouTube watch link becomes a plain non-folder VIDEO at the link |
| `ProvidersYouTube.GetResource` | resources/lib/providers/youtube.py:262-273 | exactly one result is returned; more raises MultipleObjectsFound, fewer ObjectNotFound, and a failed request becomes YouTubeApiError |
| `ProvidersYouTube.CollectionParams` | resources/lib/providers/youtube.py:258-259 | `maxResults` is `min(limit, 50)` and the page token is passed unchanged |
| `ProvidersYouTube.GetChannelByUsername` | resources/lib/providers/youtube.py:279-283 | a leading `@` asks by handle, anything else by username |
| `ProvidersYouTube.ThumbnailUrl` | resources/lib/providers/youtube.py:149-156 | the URL of the entry keyed exactly `size`, else '' |
| `ProvidersYouTube.ThumbnailOrderIrrelevant` | resources/lib/providers/youtube.py:150-152 | the height sort does not change the selected URL, since dictionary keys are unique |
| `ProvidersYouTube.ChannelCover` | resources/lib/providers/youtube.py:168-178 | no banner gives ''; otherwise the banner URL with `=s<screen width>` |
| `ProvidersYouTube.Duration` | resources/lib/providers/youtube.py:196-208 | a duration read is below one day, text not starting with `PT` reads as 0, and the only error is the OverflowError of a `timedelta` too long to build |
| `ProvidersYouTube.DurationOfIsoTime` | resources/lib/providers/youtube.py:196-208 | `PT[nH][nM][nS]` reads as `(3600h + 60m + s) mod 86400`, an omitted designator counting as zero, when it spans at most 999999999 days; a longer one raises OverflowError |
| `ProvidersYouTube.DurationOverflows` | resources/lib/providers/youtube.py:206-208 | `PT24000000000H`, a billion days, raises OverflowError |
| `ProvidersYouTube.DayPartReadsZero` | resources/lib/providers/youtube.py:198-204 | a duration with a day part does not match and reads as 0 |
| `ProvidersYouTube.QueryValue` | resources/lib/providers/youtube.py:27-30 | an absent query key reads as absent and a single value as itself |
| `ProvidersYouTube.ChannelEntity` | resources/lib/providers/youtube.py:56-72 | a channel is a folder YOUTUBE_CHANNEL canonicalised to `/channel/<id>` whose data holds exactly `channel_id` and `upload_playlist_id` |
| `ProvidersYouTube.Adapter` | resources/lib/providers/youtube.py:25-85 | another host, or a path that is none of watch, playlist, channel or handle, gives None; otherwise the entity's type and folder flag follow the branch, with each branch's data keys, ids and canonical URL; a playlist without `list` raises KeyError |
| `ProvidersYouTube.WatchAdapter` | resources/lib/providers/youtube.py:35-45 | a non-folder video whose id is the `v` value, else the first path segment, at `https://www.youtube.com/watch?v=<id>`, with a duration below one day; a duration too long for `timedelta` fails the adapter with OverflowError, and then a publication date `fromisoformat` cannot parse fails it with ValueError |
| `ProvidersYouTube.WatchVideo` | resources/lib/providers/youtube.py:37-45 | once the id is chosen: a non-folder video whose `video_id` is that id, at `https://www.youtube.com/watch?v=<id>`, with a duration below one day; a fetched video whose duration is too long for `timedelta` fails with OverflowError, and one whose date does not parse fails with ValueError |
| `ProvidersYouTube.PlaylistAdapter` | resources/lib/providers/youtube.py:46-54 | a folder playlist whose id is the `list` value; without `list` it raises KeyError |
| `ProvidersYouTube.ChannelAdapter` | resources/lib/providers/youtube.py:55-72 | `/channel/<id>` and `/@handle` give a channel folder at `/channel/<id>`; any other path gives None |
| `ProvidersRutube.PlaylistId` | resources/lib/providers/rutube.py:84-91 | the digits after `/plst/` (no slash needed after them) are the id; without them it raises ValueError |
| `ProvidersRutube.ChannelIdPrefersUrl` | resources/lib/providers/rutube.py:70-81 | digits after `/channel/` in the URL win and the page is never consulted; when neither the URL nor the page body has an id it raises ValueError |
| `ProvidersRutube.CeilSeconds` | resources/lib/providers/rutube.py:37 | `math.ceil(ms / 1000)`: the least whole number of seconds covering the milliseconds |
| `ProvidersRutube.NextPage` | resources/lib/providers/rutube.py:96-103 | `page + 1` while there is a next page; otherwise 1 when `page > 1` and None on a single page |
| `ProvidersRutube.NextPageCycles` | resources/lib/providers/rutube.py:96-103 | the cursor never points at its own page, and following it through a run of pages returns to page 1 |
| `ProvidersRutube.FirstAv` | resources/lib/providers/rutube.py:196-199 | the first stream, in order, that carries both video and audio; None when there is none |
| `ProvidersRutube.Flatten` | resources/lib/providers/rutube.py:196-197 | every stream of every stream type is scanned |
| `ProvidersRutube.VideoUrl` | resources/lib/providers/rutube.py:194-204 | a live stream with video and audio comes first; then the balancer's `m3u8`, whose fallback `default` is evaluated eagerly so a balancer without `default` raises KeyError; an `m3u8` present as `null` gives None rather than `default`, and a missing `m3u8` gives `default`, None when that is `null`; no balancer gives None |
| `ProvidersRutube.BestIndex` | resources/lib/providers/rutube.py:216-220 | the chosen variant fits the screen, is at least as large as every fitting variant, and is the first of its size (the sort is stable) |
| `ProvidersRutube.BestVariant` | resources/lib/providers/rutube.py:212-225 | the largest fitting variant, the first of equal ones; the first manifest variant when none fits; TypeError for a variant without RESOLUTION and IndexError for an empty manifest |
| `ProvidersRutube.FallbackIsFirstNotLargest` | resources/lib/providers/rutube.py:222-225 | when no variant fits, the first variant is chosen even though a larger one exists |
| `ProvidersRutube.BestQualityUrl` | resources/lib/providers/rutube.py:206-225 | None without a stream URL, a stream-URL error propagates, else the variant chosen from the loaded master playlist |
| `ProvidersRutube.Adapter` | resources/lib/providers/rutube.py:23-67 | None exactly for URLs outside `https://rutube.ru/`, and the adapter never sets `url` |
| `ProvidersRutube.AdapterVideo` | resources/lib/providers/rutube.py:24-39 | a `/video/` URL is a non-folder video titled `author - title`, with `video_id` and the duration rounded up to whole seconds |
| `ProvidersRutube.AdapterPlaylist` | resources/lib/providers/rutube.py:41-53 | a `/plst/` URL is a folder playlist with `playlist_id`; without digits it raises ValueError |
| `ProvidersRutube.AdapterChannel` | resources/lib/providers/rutube.py:55-67 | any other rutube.ru URL is a folder channel of the user `get_channel_id` finds, with `channel_id`, the avatar as thumbnail and the cover image as cover |
| `ProvidersRutube.PrefixesNest` | resources/lib/providers/rutube.py:24-55 | the video and playlist prefixes extend the site prefix and exclude each other, so the order of the tests decides |
| `RutubeClient.ChannelId` | resources/lib/rutube.py:36-48 | the digits after `/channel/` when the URL has them; otherwise the first digit run after `"channel_id":` in the fetched page; else ValueError |
| `RutubeClient.ChannelIdWithoutFetch` | resources/lib/rutube.py:38-41 | a URL naming its channel needs no fetch: any two page fetchers give the same id |
| `RutubeClient.PlaylistId` | resources/lib/rutube.py:51-58 | `/plst/<digits>/` with the trailing slash gives the id; anything else raises ValueError |
| `RutubeClient.RenderAgrees` | resources/lib/rutube.py:73-77 | the filled path depends only on the template's fields |
| `RutubeClient.Fill` | resources/lib/rutube.py:71-77 | succeeds exactly when every template field is present and named once; the path is the template with the fields substituted and the fields are removed from the keyword arguments; a failure is KeyError |
| `RutubeClient.Request` | resources/lib/rutube.py:70-78 | the parameters are `page` plus the keyword arguments the path did not consume; no template field is sent as a parameter |
| `RutubeClient.List` | resources/lib/rutube.py:70-83 | a missing field raises KeyError; a 4xx or 5xx status raises before the body is looked at; otherwise the reply body is the collection |
| `RutubeClient.ErrorStatusIgnoresBody` | resources/lib/rutube.py:80-81 | two error replies with the same status give the same failure, whatever their bodies |
| `RutubeClient.CollectionRequests` | resources/lib/rutube.py:90-103 | each collection is listed by the id its template names, which lands in the path while only `page` is sent; leaving the id out raises KeyError |
| `RutubeClient.Iterate` | resources/lib/rutube.py:85-87 | one model per element of `results`, in order; a reply without `results` raises AttributeError |
| `RutubeClient.HasNext` | resources/lib/rutube.py:61-66 | `has_next` as the reply gave it; a reply without it raises AttributeError |
| `RutubeClient.Attr` | resources/lib/rutube.py:61-62 | a model attribute is the reply field of that name; a missing one raises AttributeError |
| `ProvidersBoosty.BoostyPatternShapes` | resources/lib/providers/boosty.py:63-65 | the post pattern captures username and post id, the media pattern username, post id and media id, and neither uses a lazy skip |
| `ProvidersBoosty.ParseRef` | resources/lib/providers/boosty.py:62-73 | the post pattern is tried first and its match is used whenever there is one; the media pattern is consulted only when the post pattern fails, and then supplies the media id; no reference exactly when neither matches |
| `ProvidersBoosty.MediaEntity` | resources/lib/providers/boosty.py:24-60 | a folder exactly when there is no media id; then a BOOSTY_POST with `post_id` and `username` only, else a BOOSTY_VIDEO that also has `media_id` and `duration`; thumbnail and cover are both the media preview |
| `ProvidersBoosty.GetData` | resources/lib/providers/boosty.py:23-60 | a given media id is fetched directly; without one the post is fetched and no video raises ValueError, one video is that video under its own id, two or more make the post a folder; fetch errors propagate; `media_id` and `duration` are present exactly for non-folders |
| `ProvidersBoosty.ProfileEntity` | resources/lib/providers/boosty.py:75-88 | a profile is a folder BOOSTY_PROFILE at `https://boosty.to/<blogUrl>/` whose data is exactly the username |
| `ProvidersBoosty.Adapter` | resources/lib/providers/boosty.py:19-88 | None exactly for URLs outside `https://boosty.to`; a post or media reference in `url + '/'` goes through `get_data`, anything else is looked up as a profile; errors propagate |
| `ProvidersBoosty.AdapterIdentityKeys` | resources/lib/providers/boosty.py:26-49 | every resolved entity is of a Boosty type and has a string `username`, a string `post_id` unless it is a profile, and `media_id` exactly when it is a single video |
| `ProvidersBoosty.Offered` | resources/lib/providers/boosty.py:95-105 | one dialog choice per allowed file, in order, each the mapped download quality; a quality outside the eight-entry map raises KeyError |
| `ProvidersBoosty.SelectFileUrl` | resources/lib/providers/boosty.py:91-113 | a cancelled dialog gives None and a chosen index gives that file's URL; the candidates never include DASH or HLS; an unmapped quality raises KeyError |
| `ProvidersBoosty.CatchApiError` | resources/lib/providers/boosty.py:116-136 | a Boosty API error or Boosty library error ends the directory as failed with its description or message; success and any other error pass through unchanged |
| `ProvidersBoosty.BoostyLogin` | resources/lib/providers/boosty.py:139-157 | disabled, or enabled with a successful `auth`, the handler runs; an AuthError ends the directory as failed with its message; any other auth error propagates |
| `ProvidersBoosty.LoginFailureSkipsHandler` | resources/lib/providers/boosty.py:149-154 | after an AuthError the outcome is a failed directory and does not depend on the handler |
| `Regex.RunEnd` | resources/lib/rutube.py:38 | a one-or-more run ends at the first character outside its class, or at the end of the text |
| `Regex.SearchFrom` | resources/lib/rutube.py:43 | a match is found exactly when the pattern matches at some position, and it is the match at the leftmost such position |
| `Regex.ReSearch` | resources/lib/providers/rutube.py:73-75 | the result is group 1 of the leftmost match, and None when the pattern matches nowhere |
| `Regex.Sound` | resources/lib/rutube.py:53 | every match the engine reports is accepted by the pattern's matching relation |
| `Regex.Complete` | resources/lib/providers/rutube.py:86 | for a well-formed pattern (each run last or followed by a literal starting outside its class) any accepted match is found by the engine, so greedy runs lose nothing against backtracking |
| `Regex.ProviderPatternsWellFormed` | resources/lib/providers/youtube.py:60-63 | every pattern the providers use is well formed |
| `Regex.SearchLitRunGroup` | resources/lib/providers/rutube.py:25 | a found group of `<literal>(<run>)` is a non-empty run of the class |
| `Regex.ChannelIdInBodyDigits` | resources/lib/rutube.py:43-46 | the digits found after `"channel_id":` are a non-empty decimal numeral, so `int()` on them succeeds |
| `Regex.ChannelDigitsDigits` | resources/lib/rutube.py:38-41 | the group of `/channel/(\d+)` is a non-empty decimal numeral |
| `Regex.PlaylistDigitsDigits` | resources/lib/rutube.py:53-56 | the groups of `/plst/(\d+)` and `/plst/(\d+)/` are non-empty decimal numerals |
| `Regex.GroupCount` | resources/lib/providers/boosty.py:63 | a match of a pattern without a lazy skip has one group per capturing run |
| `Regex.SearchGroupCount` | resources/lib/providers/boosty.py:65 | `re.search` of such a pattern yields one group per capturing run |
| `Text.NatDigits` | resources/lib/main.py:134 | the decimal spelling `%d` and `str()` give: non-empty, all digits, no leading zero, and denoting the number |
| `PyJson.LoadsDumps` | resources/lib/main.py:48-51 | `json.loads` of what `json.dumps` produced for None, a boolean or an integer gives that value back |
| `PyJson.LoadsInt` | resources/lib/main.py:78-81 | an integer argument's JSON text decodes back to the same integer |
| `MainRouter.NewRouter` | resources/lib/main.py:32-45 | a new router has no routes and keeps the given index route and route parameter name |
| `MainRouter.Route` | resources/lib/main.py:63-68 | the handler is stored under its name, or under the index route when the name is empty, and the stamped route name is that key; every other route keeps its handler |
| `MainRouter.RouteReplaces` | resources/lib/main.py:65-66 | a second registration under a taken name replaces the first handler, and an unnamed route collides with one named after the index route |
| `MainRouter.Encode` | resources/lib/main.py:78-81 | strings are sent verbatim; any other value is sent as JSON text that decodes back to it |
| `MainRouter.SetKey` | resources/lib/main.py:83 | assigning a keyword keeps an existing key in its place with the new value and appends a new key last; distinct keys stay distinct |
| `MainRouter.EncodeAll` | resources/lib/main.py:85-87 | one query pair per keyword argument, in order, with the value encoded |
| `MainRouter.UrlFor` | resources/lib/main.py:70-87 | the URL is on the plugin URL, carries the route parameter set to the handler's route name, and carries every other keyword argument at its own position with its value encoded; no key repeats |
| `MainRouter.RouteParamEncoded` | resources/lib/main.py:83-87 | the route name reaches the query unchanged under the route parameter |
| `MainRouter.Decode` | resources/lib/main.py:48-51 | text that `json.loads` reads as null, a boolean, an integer or an escape-free string becomes that value; text it cannot read stays the string it was (other JSON texts are listed under Left out) |
| `MainRouter.ParseQuery` | resources/lib/main.py:53 | a key is present exactly when some pair with that key has a non-empty value |
| `MainRouter.ParseQueryLastWins` | resources/lib/main.py:52-53 | a key's value is its last non-empty pair's value, decoded |
| `MainRouter.UniqueQueryValue` | resources/lib/main.py:53-53 | in a query with distinct keys a pair with an empty value is dropped and any other pair gives its key its decoded value |
| `MainRouter.Dispatch` | resources/lib/main.py:47-61 | the route name is the popped route parameter, or the index route when absent; dispatch succeeds exactly when that name is a registered string, and then calls its handler with every other parsed key; otherwise KeyError |
| `MainRouter.RoundTrip` | resources/lib/main.py:47-87 | dispatching a URL built by `url_for` reaches the same handler with no unexpected keys: non-string arguments come back equal, empty strings are dropped, and other strings come back as their reading by the modelled part of `json.loads` |
| `MainRouter.JsonStringArrivesDecoded` | resources/lib/main.py:78-80 | a string argument '42' is sent verbatim and arrives as the integer 42 |
| `MainRouter.FloorDiv` | resources/lib/main.py:134 | Python's `//`: the quotient rounds toward negative infinity for either sign of divisor |
| `MainRouter.NextPage` | resources/lib/main.py:129-134 | after `offset += limit` a next element exists exactly when the total exceeds the new offset, and points at it; a zero limit then raises ZeroDivisionError |
| `MainRouter.NextPageLabel` | resources/lib/main.py:204-209 | paging by a positive limit from offset 0, the element under page k opens offset (k+1)·limit and is labelled k+1 |
| `Paging.Window` | resources/lib/pages/items.py:74 | `LIMIT l OFFSET o`: at most `l` rows, exactly `min(l, n - o)` when the offset is inside the store, none past it, each the store row at `o + n` |
| `Paging.LookAhead` | resources/lib/pages/items.py:74-77 | the shown rows are the page window; a next offset exists exactly when rows remain past the page, and is `offset + per_page` |
| `Paging.WalkCoversStore` | resources/lib/pages/items.py:74-116 | following next elements from an offset shows every remaining row exactly once, in store order |
| `Paging.ZeroPageSizeStalls` | resources/lib/pages/items.py:114-116 | with a page size of 0 nothing is shown and the next element points back at the same offset |
| `PagesItems.BaseConstructors` | resources/lib/pages/items.py:22-34 | the page registers exactly FOLDER and VIDEO: a folder links to its own listing with its id and title, a video to the player with its page URL |
| `PagesItems.Children` | resources/lib/pages/items.py:74 | the folder's items are exactly the saved items whose parent is that folder |
| `PagesItems.ItemRow` | resources/lib/pages/items.py:78 | an item's row exists exactly when the constructor registered for its type succeeds on it |
| `PagesItems.Rows` | resources/lib/pages/items.py:77-112 | the rows exist exactly when every shown item's constructor succeeds, and are then one row per shown item, in order |
| `PagesItems.ListItems` | resources/lib/pages/items.py:49-116 | the listing fails exactly when some shown item's constructor fails |
| `PagesItems.ListItemsLayout` | resources/lib/pages/items.py:55-116 | a page is its shortcuts, then its rows, then at most one next-page element |
| `PagesItems.ListItemsRowKind` | resources/lib/pages/items.py:77-78 | the rows of a page are exactly the shown items' rows |
| `PagesItems.ListItemsNextKind` | resources/lib/pages/items.py:75 | the next-page element depends only on the look-ahead |
| `PagesItems.ListItemsShortcutKind` | resources/lib/pages/items.py:55-72 | the shortcuts of a page come only from the head and the "Add item" action |
| `PagesItems.ListItemsShortcuts` | resources/lib/pages/items.py:55-66 | Channels and Boosty head only the root folder's first page, Boosty only when enabled; "Add item" is on every page, not a folder, with the current folder as parent |
| `PagesItems.ListItemsRows` | resources/lib/pages/items.py:77-112 | at most a page of the folder's items, in order, each linked by its type's constructor, with the item's folder flag, playable exactly when not a folder, and "Add item" heading the menu of exactly the FOLDER items |
| `PagesItems.ListItemsNext` | resources/lib/pages/items.py:114-116 | a next-page element exactly when the folder holds more items than the page reaches, reopening the same folder `per_page` items further on |
| `PagesItems.ItemsQuery` | resources/lib/pages/items.py:49-53 | only a `list_items` link is read as a folder and offset |
| `PagesItems.ItemsLinkReadsBack` | resources/lib/pages/items.py:52-53 | the folder and offset a listing link carries read back as given |
| `PagesItems.PageNextQuery` | resources/lib/pages/items.py:114-115 | following the next-page element reopens the same folder `per_page` items further on, exactly when more items remain |
| `PagesItems.FollowRowsCoversFolder` | resources/lib/pages/items.py:74-116 | opening a folder and following next-page elements shows every item of the folder exactly once, in table order |
| `PagesPlaylists.PlaylistConstructors` | resources/lib/pages/playlists.py:20-30 | the page registers exactly MANUAL, which links to the playlist-item listing of that playlist |
| `PagesPlaylists.PlaylistRow` | resources/lib/pages/playlists.py:68 | a playlist's row exists exactly when its type is MANUAL; any other type raises ValueError |
| `PagesPlaylists.Rows` | resources/lib/pages/playlists.py:67-94 | the rows exist exactly when every shown playlist is MANUAL, and are then one row per playlist, in order |
| `PagesPlaylists.ListPlaylists` | resources/lib/pages/playlists.py:39-98 | the listing fails, with ValueError, exactly when some shown playlist is not MANUAL |
| `PagesPlaylists.ListPlaylistsLayout` | resources/lib/pages/playlists.py:44-98 | a page is its shortcuts, then its rows, then at most one next-page element |
| `PagesPlaylists.HeadShortcuts` | resources/lib/pages/playlists.py:44-62 | the head holds "Create playlist" on the first page only, Boosty when enabled and "Added" always |
| `PagesPlaylists.ListPlaylistsShortcuts` | resources/lib/pages/playlists.py:44-63 | "Create playlist" only on the first page; Boosty on every page when enabled; "Added" on every page |
| `PagesPlaylists.ListPlaylistsRows` | resources/lib/pages/playlists.py:64-94 | at most a page of playlists, in table order, each a non-playable folder opening that playlist's items, with Add source, Edit and Delete all naming it |
| `PagesPlaylists.PlaylistRowNamesPlaylist` | resources/lib/pages/playlists.py:77-94 | a MANUAL playlist's row opens its items and names it in all three menu actions |
| `PagesPlaylists.UnregisteredTypeFails` | resources/lib/pages/playlists.py:67-68 | a page showing a playlist of another type fails with ValueError |
| `PagesPlaylists.PlaylistsQuery` | resources/lib/pages/playlists.py:39-43 | only a `list_playlists` link is read as an offset |
| `PagesPlaylists.PlaylistsLinkReadsBack` | resources/lib/pages/playlists.py:97-98 | the offset a next-page link carries reads back as given |
| `PagesPlaylists.ListPlaylistsNext` | resources/lib/pages/playlists.py:96-98 | a next-page element exactly when more playlists exist than the page reaches, linking to the listing `per_page` further on |
| `PagesPlaylistItems.Members` | resources/lib/pages/playlist_items.py:34-38 | the playlist's items are exactly the saved items of that playlist |
| `PagesPlaylistItems.RowsOf` | resources/lib/pages/playlist_items.py:41-48 | one row per shown item, in order |
| `PagesPlaylistItems.LayoutOfPage` | resources/lib/pages/playlist_items.py:28-52 | a page is "Add new item" on the first page, then its rows, then at most one next-page element |
| `PagesPlaylistItems.ListPlaylistItemsShortcuts` | resources/lib/pages/playlist_items.py:28-32 | "Add new item" appears only on the first page, is not a folder and carries the playlist |
| `PagesPlaylistItems.ListPlaylistItemsRows` | resources/lib/pages/playlist_items.py:34-48 | at most a page of the playlist's items, in order, each playable, not a folder and played from the item's URL |
| `PagesPlaylistItems.ItemsQuery` | resources/lib/pages/playlist_items.py:22-26 | only a `list_playlist_items` link is read as a playlist and offset |
| `PagesPlaylistItems.AsWrittenLinkReadsBack` | resources/lib/pages/playlist_items.py:52 | the next-page link as written reads back with no playlist |
| `PagesPlaylistItems.ForwardingLinkReadsBack` | resources/lib/pages/playlist_items.py:50-52 | a next-page link that forwards the playlist reads back as the playlist and offset given |
| `PagesPlaylistItems.AsWrittenNextDropsPlaylist` | resources/lib/pages/playlist_items.py:50-51 | as written, the next-page element exists exactly when more items remain, and reads back with no playlist |
| `PagesPlaylistItems.AsWrittenRows` | resources/lib/pages/playlist_items.py:41-52 | as written, the rows are still the page window's rows |
| `PagesPlaylistItems.AsWrittenLosesSecondItem` | resources/lib/pages/playlist_items.py:50-52 | two items of one playlist shown one per page: the next-page element opens an empty listing, so the second item is never shown |
| `PagesPlaylistItems.PageNextQuery` | resources/lib/pages/playlist_items.py:39-52 | with the playlist forwarded, the next-page element reopens the same playlist `per_page` items further on, exactly when more items exist |
| `PagesPlaylistItems.FollowRowsCoversPlaylist` | resources/lib/pages/playlist_items.py:34-52 | with the playlist forwarded, following next-page elements plays every item of the playlist exactly once, in table order |
| `PagesPlaylistItems.AddPlaylistItem` | resources/lib/pages/playlist_items.py:56-67 | an item is saved exactly when the prompt returned a URL, with the given playlist and that URL |
| `PagesPlaylistItems.AddedItemIsListedLast` | resources/lib/pages/playlist_items.py:65-66 | a saved item becomes the last item of its playlist and the playlist's other items stay as they were |
| `PagesYouTube.ChannelUrl` | resources/lib/pages/youtube.py:35-43 | the channel menu link carries the item's `channel_id` and `upload_playlist_id`; an item missing `channel_id` raises KeyError |
| `PagesYouTube.PlaylistUrl` | resources/lib/pages/youtube.py:46-49 | the playlist link carries the item's `playlist_id`; without it the constructor raises KeyError |
| `PagesYouTube.VideoUrl` | resources/lib/pages/youtube.py:52-55 | the player link carries the item's `video_id`; without it the constructor raises KeyError |
| `PagesYouTube.AdapterItemsAreLinkable` | resources/lib/pages/youtube.py:38-55 | every entity the YouTube adapter resolves is linked by its type's constructor, and the link carries the ids the adapter stored |
| `PagesYouTube.CatchApiError` | resources/lib/pages/youtube.py:23-32 | a YouTubeApiError ends the directory as failed with its message; success passes through and any other error propagates |
| `PagesYouTube.VideoRow` | resources/lib/pages/youtube.py:59-72 | a playable non-folder row that plays the video, exactly when its duration fits a `timedelta` and its date parses; reading `duration` first raises OverflowError, then `published` raises ValueError |
| `PagesYouTube.VideoRows` | resources/lib/pages/youtube.py:58-72 | one row per video, in order, exactly when every video's duration and date can be read; otherwise the error of the first video that cannot be read, OverflowError or ValueError |
| `PagesYouTube.ChannelBody` | resources/lib/pages/youtube.py:81-116 | the channel page succeeds exactly when fetching the uploads playlist succeeds and every fetched video can be listed; a fetch error is returned as is, and otherwise the error is OverflowError or ValueError from a row |
| `PagesYouTube.ListChannel` | resources/lib/pages/youtube.py:75-80 | wrapped in `catch_api_error`: completes exactly when the fetch succeeds and every video can be listed; a fetch YouTubeApiError becomes a failed directory with its message, any other fetch error propagates, and a video that cannot be listed raises an error the wrapper does not catch |
| `PagesYouTube.OverflowEscapes` | resources/lib/pages/youtube.py:58-80 | a video whose duration overflows `timedelta`, after only listable videos, ends `list_channel` with OverflowError rather than a failed directory |
| `PagesYouTube.ChannelQuery` | resources/lib/pages/youtube.py:81-88 | only a `list_channel` link is read as channel, uploads playlist, page token and title |
| `PagesYouTube.ChannelLinkReadsBack` | resources/lib/pages/youtube.py:107-116 | the channel's next-page link reads back as the same channel, uploads playlist and title at the given token |
| `PagesYouTube.ChannelLayout` | resources/lib/pages/youtube.py:89-106 | a channel page that succeeds is "Playlists" when there is no token, then one row per fetched video, then at most one next-page element |
| `PagesYouTube.ListChannelEntries` | resources/lib/pages/youtube.py:89-116 | on a page that succeeds: "Playlists" only without a token; one playable non-folder row per fetched video carrying its id; a next-page element exactly when the fetched page has a token, reopening the same channel at that token |
| `PagesYouTube.PlaylistRows` | resources/lib/pages/youtube.py:132-143 | one row per playlist, in order, exactly when every playlist's date parses; otherwise ValueError |
| `PagesYouTube.PlaylistRow` | resources/lib/pages/youtube.py:133-143 | a folder that opens the playlist's videos by id, exactly when its date parses; otherwise `published` raises ValueError |
| `PagesYouTube.ListPlaylists` | resources/lib/pages/youtube.py:124-130 | the playlists page succeeds exactly when fetching them succeeds and every playlist's date parses; a fetch error propagates uncaught, and otherwise the error is the ValueError of the date |
| `PagesYouTube.PlaylistsLayout` | resources/lib/pages/youtube.py:130-148 | a playlists page that succeeds is its rows followed by at most one next-page element |
| `PagesYouTube.PlaylistsQuery` | resources/lib/pages/youtube.py:124-129 | only a `list_playlists` link is read as a channel and page token |
| `PagesYouTube.PlaylistsLinkReadsBack` | resources/lib/pages/youtube.py:147 | the playlists next-page link reads back as the same channel at the given token |
| `PagesYouTube.ListPlaylistsEntries` | resources/lib/pages/youtube.py:130-148 | on a page that succeeds: one folder per fetched playlist opening its videos by id, and a next-page element exactly when the page has a token, at that token |
| `PagesYouTube.ListPlaylistItems` | resources/lib/pages/youtube.py:156-165 | the playlist page succeeds exactly when fetching its videos succeeds and every video can be listed; a fetch error propagates uncaught, and otherwise the error is OverflowError or ValueError from a row |
| `PagesYouTube.PlaylistItemsLayout` | resources/lib/pages/youtube.py:163-178 | a playlist page that succeeds is its rows followed by at most one next-page element |
| `PagesYouTube.PlaylistItemsQuery` | resources/lib/pages/youtube.py:156-161 | only a `list_playlist_items` link is read as a playlist, page token and title |
| `PagesYouTube.PlaylistItemsLinkReadsBack` | resources/lib/pages/youtube.py:170-178 | the playlist's next-page link reads back as the same playlist and title at the given token |
| `PagesYouTube.ListPlaylistItemsEntries` | resources/lib/pages/youtube.py:163-178 | on a page that succeeds: one playable non-folder row per fetched video, and a next-page element exactly when the page has a token, reopening the same playlist at that token |
| `PagesYouTube.PlayVideo` | resources/lib/pages/youtube.py:186 | the opened link is `https://youtu.be/` followed by the video id |
| `PagesYouTube.PlayVideoInjective` | resources/lib/pages/youtube.py:181-186 | different video ids open different links |
| `PagesRutube.Require` | resources/lib/pages/rutube.py:20-29 | the listed attributes are read in order, and the first missing one raises AttributeError |
| `PagesRutube.VideoRow` | resources/lib/pages/rutube.py:18-31 | a video row exists exactly when every attribute the page reads is present, and is a playable non-folder played by its page URL; otherwise AttributeError |
| `PagesRutube.PlaylistRow` | resources/lib/pages/rutube.py:74-80 | a playlist row exists exactly when its attributes are present, and is a folder opening the playlist by its id; otherwise AttributeError |
| `PagesRutube.Listing` | resources/lib/pages/rutube.py:54-59 | a listing succeeds exactly when the reply has results and `has_next` and every element makes a row; it is then the rows followed by a next-page element when there is a next page |
| `PagesRutube.ListingParts` | resources/lib/pages/rutube.py:100-105 | the rows are one per element, in order, and the next-page element appears exactly when the reply has a next page |
| `PagesRutube.Channel` | resources/lib/pages/rutube.py:39-59 | a failed fetch of the channel's videos fails the page with the same error |
| `PagesRutube.ListPlaylists` | resources/lib/pages/rutube.py:67-85 | the playlists page succeeds only when its fetch does |
| `PagesRutube.ListPlaylistItems` | resources/lib/pages/rutube.py:93-105 | the playlist page succeeds only when its fetch does |
| `PagesRutube.ListShorts` | resources/lib/pages/rutube.py:113-125 | the shorts page succeeds only when its fetch does |
| `PagesRutube.PageQuery` | resources/lib/pages/rutube.py:39-43 | only a link to the named route is read as an id and page |
| `PagesRutube.PageLinkReadsBack` | resources/lib/pages/rutube.py:57 | a next-page link reads back as the same id at the given page |
| `PagesRutube.ChannelShortcuts` | resources/lib/pages/rutube.py:44-51 | Playlists and Shorts folders of the same channel head exactly the pages numbered below 2 |
| `PagesRutube.ChannelLayout` | resources/lib/pages/rutube.py:44-59 | a channel page is its shortcuts, then its rows, then at most one next-page element |
| `PagesRutube.ChannelRowsAndNext` | resources/lib/pages/rutube.py:53-59 | the channel's rows are that page's videos, in order, each played by its page URL; a next-page element exactly when the reply has a next page, reopening the channel one page further |
| `PagesRutube.ListPlaylistsRowsAndNext` | resources/lib/pages/rutube.py:72-85 | playlist rows open each playlist of the page by id; the next-page element reopens the channel's playlists one page further |
| `PagesRutube.ListPlaylistItemsRowsAndNext` | resources/lib/pages/rutube.py:98-105 | a playlist's rows are its videos of the page; the next-page element reopens the same playlist one page further |
| `PagesRutube.ListShortsRowsAndNext` | resources/lib/pages/rutube.py:118-125 | shorts list like videos, and the next-page element reopens the channel's shorts one page further |
| `PagesRutube.ChannelAsksOnce` | resources/lib/pages/rutube.py:53 | the channel page depends only on the one request for the channel's videos at that page |
| `PagesRutube.MissingAttributeFails` | resources/lib/pages/rutube.py:20-25 | a video missing one of the attributes the page reads fails the whole listing with AttributeError |
| `PagesBoosty.ProfileUrl` | resources/lib/pages/boosty.py:25-28 | the profile link opens `index` with the item's `username` and no post; without `username` it raises KeyError |
| `PagesBoosty.PostUrl` | resources/lib/pages/boosty.py:31-34 | the post link opens `index` with the item's `username` and `post_id`; a missing key raises KeyError |
| `PagesBoosty.MediaUrl` | resources/lib/pages/boosty.py:37-45 | the media link opens `play_video_by_id` with the item's `username`, `post_id` and `media_id`; a missing key raises KeyError |
| `PagesBoosty.AdapterItemsAreLinkable` | resources/lib/pages/boosty.py:25-45 | every entity the Boosty adapter resolves is linked by its type's constructor, and the link carries the ids the adapter stored |
| `PagesBoosty.MediaRow` | resources/lib/pages/boosty.py:97-149 | without access the row leads to the access-denied notification, is not playable and offers only "Play saved file"; with access it plays the best non-DASH quality and adds "Download"; a failing quality choice fails the row |
| `PagesBoosty.Index` | resources/lib/pages/boosty.py:77-157 | without a post a failed media-page request, and with one a failed post request, fails the page with the same error; a listed page means that request succeeded |
| `PagesBoosty.IndexPage` | resources/lib/pages/boosty.py:73-76 | behind the login and error wrappers: a refused login ends as failed; otherwise a successful page completes and a Boosty API or library error becomes a failed directory |
| `PagesBoosty.IndexLayout` | resources/lib/pages/boosty.py:97-157 | the page is one row per media, then at most one next-page element |
| `PagesBoosty.IndexListsRequestedMedia` | resources/lib/pages/boosty.py:85-101 | the rows show the profile's media page for the cursor when no post is given and that post's media when one is, one row per media in order |
| `PagesBoosty.IndexRows` | resources/lib/pages/boosty.py:97-147 | the rows are the listed media in order, playable exactly with access, always offering "Play saved file", and offering "Download" and the best non-DASH quality only with access |
| `PagesBoosty.IndexQuery` | resources/lib/pages/boosty.py:77-84 | only an `index` link is read as a user and cursor |
| `PagesBoosty.IndexNextLinkReadsBack` | resources/lib/pages/boosty.py:152-157 | the next-page link reads back as the same user at the given cursor, and names no post |
| `PagesBoosty.IndexNext` | resources/lib/pages/boosty.py:151-157 | a next-page element exactly when the page is not the last, reopening the same user's media from the returned cursor without the post |
| `PagesBoosty.IndexAsksOnce` | resources/lib/pages/boosty.py:85-96 | the page depends only on the one request it makes: the media page without a post, the post with one |
| `PagesBoosty.IndexLoginFailure` | resources/lib/pages/boosty.py:74-76 | with Boosty enabled and the login refused, `index` ends as failed whatever the session would answer |
| `PagesBoosty.SubscriptionRows` | resources/lib/pages/boosty.py:185-204 | one folder per subscription, opening that blog's `index` and offering to add it to the home page |
| `PagesBoosty.ListSubscriptions` | resources/lib/pages/boosty.py:178-183 | the undecorated body: a failed subscriptions request returns the same error; a successful one gives a page |
| `PagesBoosty.ListSubscriptionsPage` | resources/lib/pages/boosty.py:174-211 | behind the login and error wrappers: a refused login ends as failed without asking for subscriptions; otherwise a successful request completes with the body's page, a Boosty API or library error from it ends as failed with its message, and any other error propagates |
| `PagesBoosty.SubscriptionsQuery` | resources/lib/pages/boosty.py:178-182 | only a `list_subscriptions` link is read as an offset |
| `PagesBoosty.SubscriptionsLinkReadsBack` | resources/lib/pages/boosty.py:207-211 | the next-page link reads back as the given offset |
| `PagesBoosty.ListSubscriptionsLayout` | resources/lib/pages/boosty.py:183-211 | the page is one row per subscription, then at most one next-page element |
| `PagesBoosty.ListSubscriptionsRows` | resources/lib/pages/boosty.py:185-203 | the rows are the subscriptions in order, each a folder opening its blog and offering "add to homepage" for it |
| `PagesBoosty.ListSubscriptionsNext` | resources/lib/pages/boosty.py:206-211 | a next-page element exactly when the page is not the last, reopening the listing `items_per_page` further on |
| `PagesBoosty.PlayVideo` | resources/lib/pages/boosty.py:222-242 | the path is the URL with the session's user agent as a header; DASH plays as an adaptive `mpd` stream, HLS as adaptive `hls`, anything else plainly |
| `PagesBoosty.PlayQuery` | resources/lib/pages/boosty.py:222-226 | only a `play_video` link is read as a quality and URL |
| `PagesBoosty.PlayLinkPlays` | resources/lib/pages/boosty.py:227-240 | following a media row's link plays the chosen file with the user agent, adaptively exactly for DASH and HLS |
| `PagesBoosty.PlayVideoById` | resources/lib/pages/boosty.py:244-256 | the media fetched by its ids plays at the chosen quality with the user agent; behind `catch_api_error`, a Boosty API or Boosty library error from either the fetch or the quality choice ends the directory as failed with its message, and other errors propagate |
| `Storage.DataValue` | resources/lib/pages/boosty.py:28 | `item.data[key]` is the stored value, and a missing key raises KeyError |
| `Directory.Arg` | resources/lib/pages/items.py:28 | a link carries a value for a key exactly when it names that key, and the value is one it was given for it |
| `Directory.OfKindAppend` | resources/lib/pages/items.py:55-116 | filtering a page by kind distributes over concatenation |
| `Directory.MapAll` | resources/lib/pages/rutube.py:19-31 | the rows exist exactly when every element makes one, and are then one per element in order; otherwise the error is the first failing element's |
| `UrlRegistry.Constructors` | resources/lib/pages/items.py:22 | after every page module registers, the constructor holds exactly FOLDER, VIDEO, the three YouTube and the three Boosty types, each bound to its page's function |
| `UrlRegistry.RutubeTypesUnregistered` | resources/lib/utils.py:5-8 | asking for a constructor of a Rutube type raises ValueError |
| `UrlRegistry.ResolvedByAdapter` | resources/lib/providers/base.py:22-30 | an entity resolved by an adapter keeps that adapter's type, folder flag and data |
| `UrlRegistry.BoostyItemsAreListable` | resources/lib/providers/__init__.py:7-10 | every item created from a boosty.to link has a constructor that succeeds on it |
| `UrlRegistry.RutubeItemsBreakListing` | resources/lib/pages/items.py:77-78 | an item created from a rutube.ru link has no constructor, so a folder page showing it fails with ValueError |

## Left out

- HTTP, the remote APIs, `m3u8.load`, the HTML parser and `boosty_api` are not modelled. Their results are parameters; the model does not describe how they are produced.
- `resources/lib/storage.py` (sqlite) is not part of this model. The store is a sequence of records in `select` order. `Item`, `ItemType`, `PlaylistType` and `PlaylistItem` are declared with only the fields the modelled code reads. The page's `id` is passed in.
- `webserver.py`, `service.py`, `log.py` and the JavaScript/Vue front ends are browser UI, server plumbing or logging.
- Kodi rendering is not modelled:
  - labels, artwork, info tags, `localize` (taken as the identity on names);
  - notifications, `endOfDirectory` (an `Outcome` records only completed or failed), `open_browser` and the player.
- These handlers only write to the store or to disk: the create, rename, delete and edit handlers of items and playlists, `download`/`download_video`, `extract_info`, `play_saved`, `logout` and `add_to_homepage`.
- The handlers of `main.py` other than the `Router` and the next-page arithmetic of its two listings are not modelled. Their Kodi calls and store queries duplicate those of the page modules.
- `urlparse`, `parse_qs`, percent-encoding and `qs.strip('?')` are not modelled:
  - the router's query string is the list of `(key, value)` pairs that `urlencode` receives and `parse_qsl` returns;
  - the YouTube adapter takes the parsed URL parts.
- `ProvidersYouTube.QueryValue`: a YouTube query key that is repeated, which `parse_qs` turns into a list, is reported as an unsupported case. The source passes the list on.
- `ProvidersYouTube.Adapter`, `ProvidersYouTube.WatchVideo`, `PagesYouTube.VideoRow`, `PagesYouTube.PlaylistRow`: the grammar of `datetime.fromisoformat` is not modelled. Each video and playlist carries the outcome of reading `publishedAt`: the text `strftime` produces, or no date, which raises ValueError. Which `publishedAt` texts parse depends on the Python version; before 3.11 the `Z` suffix that YouTube sends is rejected.
- `PagesYouTube.ChannelQuery`: the `items_per_page` that a next-page link carries is not read back. The handlers take `items_per_page` from the settings scope.
- `PagesRutube.VideoRow`: requires `category` to be present but does not model `v.category['name']`.
- `PagesBoosty.QualityTag`: a quality travels in a link as its enum member's name. How `kodi_useful`'s `url_for` encodes an enum is not visible in this source.
- `PagesBoosty.PlayVideo`, `PagesBoosty.PlayLinkPlays`: `play_video` compares its `str` query value with `boosty_api.Quality.DASH` and `.HLS`. The model assumes that this comparison holds exactly when the text is the member's tag. A plain `Enum` member never equals a `str`, and a `str`-mixin member compares by its value. `boosty_api` is not part of this model, so which of these holds is not decided here.
- `Settings.ParseInt`: `int()` also accepts non-ASCII decimal digits. The model keeps to ASCII `0`-`9`, with a sign and single underscores between digits. It strips the six ASCII whitespace characters and the non-ASCII characters `str.isspace()` accepts: U+0085, U+00A0, U+1680, U+2000-U+200A, U+2028, U+2029, U+202F, U+205F and U+3000.
- `Regex.ReSearch`: the pattern language covers only the literals, `[^/]+`, `\d+` and `.*?` that the providers use. It is not a general regular-expression engine. Its `\d` matches ASCII `0`-`9` only. In a `str` pattern Python's `\d` matches every Unicode decimal digit.
- The Channels shortcut of `pages/items.py` links to `resources.lib.pages.rutube.list_tv_channels`, which `pages/rutube.py` does not define. The model keeps the link as a route name.
- `MainRouter.Decode`, `MainRouter.RoundTrip`: the modelled `json.loads` reads only `null`, `true`, `false`, integers and strings without escape sequences, with surrounding JSON whitespace. `PyVal` has no float, list or dict. The texts `json.loads` reads as other values stay strings in the model: numbers with a fraction or exponent (`1.5`, `1e3`), `NaN`, `Infinity` and `-Infinity`, arrays, objects, and strings with escapes. The handler receives, for example, the float 1.5 or the list `[1]` where the model delivers the string.
- `PagesItems.ListItems`, `PagesPlaylists.ListPlaylists`, `PagesPlaylistItems.ListPlaylistItems`: the offset and page size of these store-backed pages are `nat`, so negative values are not modelled. The Python handlers accept any `int`, and SQLite reads a negative LIMIT as no limit. The addon's own links never carry a negative value.
- `ProvidersRutube.BestQualityUrl`: the screen resolution that `get_screen_resolution` reads from Kodi is a parameter.

## Findings

| source | as written | input that shows it | evidently intended | confidence | as-written member | corrected member |
|---|---|---|---|---|---|---|
| resources/lib/pages/playlist_items.py:50-52 | the next-page element carries only `offset`, so `playlist_id` falls back to None | a playlist `p` with two items shown one per page: the next-page element opens the items with no playlist at offset 1, which is empty, so the second item of `p` is never shown | the next-page element forwards `playlist_id`, so following it shows every item of the playlist once, in order | not executed | `PagesPlaylistItems.AsWrittenLosesSecondItem` | `PagesPlaylistItems.FollowRowsCoversPlaylist` |

=== FILE: directory.dfy ===
/** What a directory page hands to Kodi, without labels and artwork: every
    `yield url, item, is_folder` of the page generators becomes an `Entry`
    whose target is the route and arguments `addon.url_for` encodes. */
module Directory {
  import opened Wrappers
  import opened PyJson

  /** `addon.url_for(route, **kwargs)`: the route's dotted name and its query
      arguments in keyword order. */
  datatype Link = Link(route: string, args: seq<(string, PyVal)>)

  /** Which yield produced an entry: a fixed shortcut or action (named by its
      label), one row of the listed data, or the next-page element. */
  datatype Kind = Shortcut(name: string) | Row | Next

  /** `(url, item, is_folder)`, with `playable` for the item's `IsPlayable`
      property and `menu` for the context-menu actions in order. */
  datatype Entry = Entry(kind: Kind, target: Link, isFolder: bool, playable: bool, menu: seq<Link>)

  /** The value a link carries for `key`: what the handler receives for that
      query parameter, or None when the link leaves it to the default. */
  function Arg(l: Link, key: string): (r: Option<PyVal>)
    ensures r.Some? <==> exists n :: 0 <= n < |l.args| && l.args[n].0 == key
    ensures r.Some? ==> exists n :: 0 <= n < |l.args| && l.args[n] == (key, r.value)
    decreases |l.args|
  {
    if l.args == [] then None
    else if l.args[0].0 == key then Some(l.args[0].1)
    else
      var rest := Arg(Link(l.route, l.args[1..]), key);
      assert forall n :: 0 < n < |l.args| ==> l.args[n] == l.args[1..][n - 1];
      rest
  }

  /** Reading a key from a link whose first argument is known. */
  lemma ArgFirst(route: string, k: string, v: PyVal, rest: seq<(string, PyVal)>, key: string)
    ensures Arg(Link(route, [(k, v)] + rest), key) == if k == key then Some(v) else Arg(Link(route, rest), key)
  {
    assert ([(k, v)] + rest)[1..] == rest;
  }

  /** The first argument named `key` is the one a link carries for it. */
  lemma {:induction false} ArgAt(l: Link, n: nat, key: string)
    requires n < |l.args| && l.args[n].0 == key
    requires forall m :: 0 <= m < n ==> l.args[m].0 != key
    ensures Arg(l, key) == Some(l.args[n].1)
    decreases n
  {
    if n > 0 {
      var t := Link(l.route, l.args[1..]);
      assert forall m :: 0 <= m < n - 1 ==> t.args[m] == l.args[m + 1];
      ArgAt(t, n - 1, key);
    }
  }

  /** No two arguments of the link share a name. */
  predicate DistinctKeys(l: Link) {
    forall i, j :: 0 <= i < j < |l.args| ==> l.args[i].0 != l.args[j].0
  }

  /** In a link whose argument names are distinct, each name reads back as
      the value it was given. */
  lemma ArgOfDistinct(l: Link, n: nat)
    requires DistinctKeys(l) && n < |l.args|
    ensures Arg(l, l.args[n].0) == Some(l.args[n].1)
  {
    ArgAt(l, n, l.args[n].0);
  }

  /** A string parameter with a default: absent reads as the default, a
      string as itself, anything else as unusable. */
  function StrOr(v: Option<PyVal>, default: string): Option<string> {
    match v
    case None => Some(default)
    case Some(PyStr(s)) => Some(s)
    case Some(_) => None
  }

  /** A required string parameter. */
  function Str(v: Option<PyVal>): Option<string> {
    match v
    case Some(PyStr(s)) => Some(s)
    case _ => None
  }

  /** How a wrapped handler ended: normally, or with an alert and a failed
      `endOfDirectory` (the value the handler returns is then None). */
  datatype Outcome<+T> = Completed(value: T) | Failed(alert: string)

  function ShortcutEntry(name: string, target: Link, isFolder: bool): Entry {
    Entry(Shortcut(name), target, isFolder, false, [])
  }

  /** `create_next_element(route, **kwargs)` / `create_next_item(url)`. */
  function NextEntry(target: Link): Entry {
    Entry(Next, target, true, false, [])
  }

  /** The entries of one kind, in page order. */
  function OfKind(es: seq<Entry>, k: Kind): (r: seq<Entry>)
    ensures |r| <= |es|
    ensures forall e :: e in r <==> e in es && e.kind == k
  {
    if es == [] then []
    else
      var rest := OfKind(es[1..], k);
      assert forall e :: e in es <==> e == es[0] || e in es[1..];
      (if es[0].kind == k then [es[0]] else []) + rest
  }

  lemma {:induction false} OfKindAppend(a: seq<Entry>, b: seq<Entry>, k: Kind)
    ensures OfKind(a + b, k) == OfKind(a, k) + OfKind(b, k)
  {
    if a == [] {
      assert a + b == b;
    } else {
      assert (a + b)[0] == a[0];
      assert (a + b)[1..] == a[1..] + b;
      OfKindAppend(a[1..], b, k);
    }
  }

  /** Filtering an element that may or may not be there. */
  lemma OfKindOptional(present: bool, e: Entry, k: Kind)
    ensures OfKind(if present then [e] else [], k) == if present && e.kind == k then [e] else []
  {
    if present {
      assert [e][1..] == [];
    }
  }

  /** Rows all carry the kind `Row`, so filtering them out keeps them all. */
  lemma {:induction false} OfKindAll(es: seq<Entry>, k: Kind)
    requires forall n :: 0 <= n < |es| ==> es[n].kind == k
    ensures OfKind(es, k) == es
  {
    if es != [] {
      OfKindAll(es[1..], k);
    }
  }

  lemma {:induction false} OfKindNone(es: seq<Entry>, k: Kind)
    requires forall n :: 0 <= n < |es| ==> es[n].kind != k
    ensures OfKind(es, k) == []
  {
    if es != [] {
      OfKindNone(es[1..], k);
    }
  }

  /** A page laid out as fixed shortcuts, then rows, then next-page
      elements. */
  predicate Layout(head: seq<Entry>, rows: seq<Entry>, tail: seq<Entry>) {
    (forall n :: 0 <= n < |head| ==> head[n].kind.Shortcut?) &&
    (forall n :: 0 <= n < |rows| ==> rows[n].kind == Row) &&
    (forall n :: 0 <= n < |tail| ==> tail[n].kind == Next)
  }

  lemma LayoutSplit(head: seq<Entry>, rows: seq<Entry>, tail: seq<Entry>, k: Kind)
    ensures OfKind(head + rows + tail, k) == OfKind(head, k) + OfKind(rows, k) + OfKind(tail, k)
  {
    OfKindAppend(head + rows, tail, k);
    OfKindAppend(head, rows, k);
  }

  /** The rows of such a page are exactly its middle part. */
  lemma LayoutRows(head: seq<Entry>, rows: seq<Entry>, tail: seq<Entry>)
    requires Layout(head, rows, tail)
    ensures OfKind(head + rows + tail, Row) == rows
  {
    LayoutSplit(head, rows, tail, Row);
    OfKindNone(head, Row);
    OfKindAll(rows, Row);
    OfKindNone(tail, Row);
  }

  /** The next-page elements of such a page are exactly its last part. */
  lemma LayoutNext(head: seq<Entry>, rows: seq<Entry>, tail: seq<Entry>)
    requires Layout(head, rows, tail)
    ensures OfKind(head + rows + tail, Next) == tail
  {
    LayoutSplit(head, rows, tail, Next);
    OfKindNone(head, Next);
    OfKindNone(rows, Next);
    OfKindAll(tail, Next);
  }

  /** The shortcuts of such a page all come from its head. */
  lemma LayoutShortcut(head: seq<Entry>, rows: seq<Entry>, tail: seq<Entry>, name: string)
    requires Layout(head, rows, tail)
    ensures OfKind(head + rows + tail, Shortcut(name)) == OfKind(head, Shortcut(name))
  {
    LayoutSplit(head, rows, tail, Shortcut(name));
    OfKindNone(rows, Shortcut(name));
    OfKindNone(tail, Shortcut(name));
  }

  /** Builds one entry per element, stopping at the first element that fails
      (an exception raised while the generator runs ends the listing). */
  function MapAll<T>(xs: seq<T>, f: T -> Result<Entry>): (r: Result<seq<Entry>>)
    ensures r.Ok? <==> forall n :: 0 <= n < |xs| ==> f(xs[n]).Ok?
    ensures r.Ok? ==> |r.value| == |xs| && forall n :: 0 <= n < |xs| ==> r.value[n] == f(xs[n]).value
    ensures r.Err? ==> exists n :: 0 <= n < |xs| && f(xs[n]) == Err(r.error) && forall m :: 0 <= m < n ==> f(xs[m]).Ok?
  {
    if xs == [] then Ok([])
    else
      match f(xs[0])
      case Err(e) => Err(e)
      case Ok(e0) =>
        var rest := MapAll(xs[1..], f);
        assert forall n :: 0 < n < |xs| ==> xs[n] == xs[1..][n - 1];
        match rest
        case Err(e) => Err(e)
        case Ok(es) => Ok([e0] + es)
  }
}

=== FILE: main_router.dfy ===
/** The plugin router of resources/lib/main.py. Handlers are registered under
    a route name; `url_for` encodes a call as the plugin URL's query string and
    `dispatch` decodes a query string back into a handler and its keyword
    arguments. The query string is modelled as the list of pairs `urlencode`
    receives and `parse_qsl` hands back, so percent-encoding is not modelled.

    The module also holds the next-page arithmetic of main.py's two listings. */
module MainRouter {
  import opened Wrappers
  import opened PyJson
  import Text

  /** `key=value` pairs of a query string, in order. */
  type Query = seq<(string, string)>

  /** Keyword arguments in call order. */
  type Kwargs = seq<(string, PyVal)>

  /** Keyword arguments of a Python call name each parameter once. */
  predicate UniqueKeys<V>(kw: seq<(string, V)>) {
    forall i, j :: 0 <= i < j < |kw| ==> kw[i].0 != kw[j].0
  }

  datatype Router<H> = Router(pluginUrl: string, indexRoute: string, paramName: string, routes: map<string, H>)

  /** `Router(plugin_url, index_route, route_param_name)`. */
  function NewRouter<H>(pluginUrl: string, indexRoute: string, paramName: string): (r: Router<H>)
    ensures r.routes == map[] && r.paramName == paramName && r.indexRoute == indexRoute
  {
    Router(pluginUrl, indexRoute, paramName, map[])
  }

  // ---------------------------------------------------------------------------
  // Registering routes

  /** `@router.route(name)` applied to handler `h`: the router after the
      registration, and the route name stamped on the handler. */
  function Route<H>(r: Router<H>, name: string, h: H): (res: (Router<H>, string))
    ensures res.1 == (if name != "" then name else r.indexRoute)
    ensures res.1 in res.0.routes && res.0.routes[res.1] == h
    ensures res.0.routes.Keys == r.routes.Keys + {res.1}
    ensures forall n :: n in r.routes && n != res.1 ==> res.0.routes[n] == r.routes[n]
    ensures res.0.pluginUrl == r.pluginUrl && res.0.indexRoute == r.indexRoute && res.0.paramName == r.paramName
  {
    var routeName := if name != "" then name else r.indexRoute;
    (r.(routes := r.routes[routeName := h]), routeName)
  }

  /** Registering a second handler under a name already taken replaces the
      first; an unnamed route and a route named after the index route collide. */
  lemma RouteReplaces<H>(r: Router<H>, name: string, h1: H, h2: H)
    ensures var first := Route(r, name, h1);
            var second := Route(first.0, name, h2);
            second.1 == first.1 && second.0.routes[second.1] == h2 &&
            second.0.routes.Keys == first.0.routes.Keys
    ensures Route(r, "", h1).1 == Route(r, r.indexRoute, h2).1
  {
  }

  // ---------------------------------------------------------------------------
  // Encoding a call

  /** `dumps` inside `url_for`: strings verbatim, everything else as JSON. */
  function Encode(v: PyVal): (t: string)
    ensures v.PyStr? ==> t == v.s
    ensures !v.PyStr? ==> |t| > 0 && Loads(t) == Some(v)
  {
    if v.PyStr? then v.s
    else
      LoadsDumps(v);
      Dumps(v)
  }

  /** `kwargs[key] = value`: a present key keeps its place, a new one goes last. */
  function SetKey(kw: Kwargs, k: string, v: PyVal): (r: Kwargs)
    ensures |r| == |kw| || |r| == |kw| + 1
    ensures forall i :: 0 <= i < |kw| ==> r[i] == (if kw[i].0 == k then (k, v) else kw[i])
    ensures |r| == |kw| <==> exists i :: 0 <= i < |kw| && kw[i].0 == k
    ensures |r| == |kw| + 1 ==> r[|kw|] == (k, v)
    ensures UniqueKeys(kw) ==> UniqueKeys(r)
  {
    if exists i :: 0 <= i < |kw| && kw[i].0 == k then
      seq(|kw|, i requires 0 <= i < |kw| => if kw[i].0 == k then (k, v) else kw[i])
    else kw + [(k, v)]
  }

  function EncodeAll(kw: Kwargs): (q: Query)
    ensures |q| == |kw| && forall i :: 0 <= i < |kw| ==> q[i] == (kw[i].0, Encode(kw[i].1))
  {
    seq(|kw|, i requires 0 <= i < |kw| => (kw[i].0, Encode(kw[i].1)))
  }

  /** A plugin URL: the plugin's base and its query pairs. */
  datatype Url = Url(base: string, query: Query)

  /** `url_for(func, **kwargs)` for a handler whose route name is `routeName`. */
  function UrlFor<H>(r: Router<H>, routeName: string, kw: Kwargs): (u: Url)
    requires UniqueKeys(kw)
    ensures u.base == r.pluginUrl && UniqueKeys(u.query)
    ensures exists i :: 0 <= i < |u.query| && u.query[i] == (r.paramName, routeName)
    ensures forall i :: 0 <= i < |kw| && kw[i].0 != r.paramName ==>
              i < |u.query| && u.query[i] == (kw[i].0, Encode(kw[i].1))
    ensures forall j :: 0 <= j < |u.query| && u.query[j].0 != r.paramName ==>
              j < |kw| && u.query[j] == (kw[j].0, Encode(kw[j].1))
  {
    var full := SetKey(kw, r.paramName, PyStr(routeName));
    RouteParamEncoded(kw, r.paramName, routeName);
    Url(r.pluginUrl, EncodeAll(full))
  }

  lemma RouteParamEncoded(kw: Kwargs, k: string, routeName: string)
    ensures var q := EncodeAll(SetKey(kw, k, PyStr(routeName)));
            exists i :: 0 <= i < |q| && q[i] == (k, routeName)
  {
    var full := SetKey(kw, k, PyStr(routeName));
    var q := EncodeAll(full);
    if |full| == |kw| {
      var i :| 0 <= i < |kw| && kw[i].0 == k;
      assert q[i] == (k, routeName);
    } else {
      assert q[|kw|] == (k, routeName);
    }
  }

  // ---------------------------------------------------------------------------
  // Decoding a call

  /** `loads` inside `dispatch`: the value when `Loads` reads the text, the
      text itself otherwise. Floats, arrays, objects and escaped strings are
      outside `Loads`, so they stay text here. */
  function Decode(t: string): (v: PyVal)
    ensures Loads(t).Some? ==> v == Loads(t).value
    ensures Loads(t).None? ==> v == PyStr(t)
  {
    match Loads(t)
    case Some(x) => x
    case None => PyStr(t)
  }

  /** `{k: loads(v) for k, v in parse_qsl(qs)}`: `parse_qsl` drops pairs with
      an empty value, and for a repeated key the last pair wins. */
  function ParseQuery(q: Query): (d: map<string, PyVal>)
    ensures forall k :: k in d <==> exists i :: 0 <= i < |q| && q[i].0 == k && q[i].1 != ""
  {
    if q == [] then map[]
    else
      var init := q[..|q| - 1];
      var last := q[|q| - 1];
      var d := ParseQuery(init);
      assert forall i :: 0 <= i < |q| - 1 ==> q[i] == init[i];
      if last.1 == "" then d else d[last.0 := Decode(last.1)]
  }

  /** The value a key gets is its last non-empty pair's, decoded. */
  lemma {:induction false} ParseQueryLastWins(q: Query, i: nat)
    requires i < |q| && q[i].1 != ""
    requires forall j :: i < j < |q| ==> q[j].0 != q[i].0 || q[j].1 == ""
    ensures q[i].0 in ParseQuery(q) && ParseQuery(q)[q[i].0] == Decode(q[i].1)
  {
    var init := q[..|q| - 1];
    if i < |q| - 1 {
      assert init[i] == q[i];
      assert forall j :: i < j < |init| ==> init[j] == q[j];
      ParseQueryLastWins(init, i);
    }
  }

  /** `dispatch(qs)`: the route parameter is popped (the index route when it is
      absent), the handler is looked up and the remaining pairs become its
      keyword arguments. A route name that is not registered, or that decoded
      to a non-string, raises KeyError. */
  function Dispatch<H>(r: Router<H>, q: Query): (res: Result<(H, map<string, PyVal>)>)
    ensures var d := ParseQuery(q);
            var name := if r.paramName in d then d[r.paramName] else PyStr(r.indexRoute);
            (res.Ok? <==> name.PyStr? && name.s in r.routes) &&
            (res.Ok? ==> res.value.0 == r.routes[name.s] && r.paramName !in res.value.1 &&
                         forall k :: k in res.value.1 <==> k in d && k != r.paramName) &&
            (res.Err? ==> res.error.KeyError?)
  {
    var d := ParseQuery(q);
    var name := if r.paramName in d then d[r.paramName] else PyStr(r.indexRoute);
    if !name.PyStr? then Err(KeyError(Show(name)))
    else if name.s !in r.routes then Err(KeyError(name.s))
    else Ok((r.routes[name.s], d - {r.paramName}))
  }

  /** `dispatch` of `url_for(f, **kw)` reaches `f`. Non-string arguments come
      back equal, empty strings are dropped, and other strings come back
      JSON-decoded when they are JSON text ('42' arrives as 42).

      The route name must survive the trip itself: a non-empty name that is
      JSON text would decode to something else, and the empty name only comes
      back when it is the index route (which is how `route()` stores it). */
  lemma {:induction false} RoundTrip<H>(r: Router<H>, routeName: string, kw: Kwargs)
    requires UniqueKeys(kw) && routeName in r.routes
    requires routeName == "" ==> r.indexRoute == ""
    requires routeName != "" ==> Loads(routeName).None?
    ensures var res := Dispatch(r, UrlFor(r, routeName, kw).query);
            res.Ok? && res.value.0 == r.routes[routeName] &&
            (forall k :: k in res.value.1 ==> exists i :: 0 <= i < |kw| && kw[i].0 == k) &&
            forall i :: 0 <= i < |kw| && kw[i].0 != r.paramName ==>
              (!kw[i].1.PyStr? ==> kw[i].0 in res.value.1 && res.value.1[kw[i].0] == kw[i].1) &&
              (kw[i].1 == PyStr("") ==> kw[i].0 !in res.value.1) &&
              (kw[i].1.PyStr? && kw[i].1.s != "" ==>
                 kw[i].0 in res.value.1 && res.value.1[kw[i].0] == Decode(kw[i].1.s))
  {
    var q := UrlFor(r, routeName, kw).query;
    var d := ParseQuery(q);
    var p :| 0 <= p < |q| && q[p] == (r.paramName, routeName);
    UniqueQueryValue(q, p);
    var res := Dispatch(r, q);
    assert res.Ok? && res.value.0 == r.routes[routeName];
    forall k | k in res.value.1
      ensures exists i :: 0 <= i < |kw| && kw[i].0 == k
    {
      var j :| 0 <= j < |q| && q[j].0 == k && q[j].1 != "";
      assert j < |kw| && kw[j].0 == k;
    }
    forall i | 0 <= i < |kw| && kw[i].0 != r.paramName
      ensures kw[i].1 == PyStr("") ==> kw[i].0 !in res.value.1
      ensures kw[i].1 != PyStr("") ==> kw[i].0 in res.value.1 && res.value.1[kw[i].0] == Decode(Encode(kw[i].1))
    {
      assert q[i] == (kw[i].0, Encode(kw[i].1));
      UniqueQueryValue(q, i);
    }
  }

  /** In a query whose keys are distinct, each pair decides its key alone. */
  lemma UniqueQueryValue(q: Query, i: nat)
    requires UniqueKeys(q) && i < |q|
    ensures q[i].1 == "" ==> q[i].0 !in ParseQuery(q)
    ensures q[i].1 != "" ==> q[i].0 in ParseQuery(q) && ParseQuery(q)[q[i].0] == Decode(q[i].1)
  {
    if q[i].1 != "" {
      ParseQueryLastWins(q, i);
    }
  }

  /** A string argument that is JSON text changes type on the way: '42' is
      sent and 42 arrives. */
  lemma JsonStringArrivesDecoded()
    ensures Decode("42") == PyInt(42)
  {
    LoadsDumps(PyInt(42));
    assert Dumps(PyInt(42)) == "42";
  }

  // ---------------------------------------------------------------------------
  // Next-page arithmetic of `list_playlists` and `list_playlist_items`

  /** Python's `a // b`, which rounds toward negative infinity for either sign
      of divisor; Dafny's `/` does so only for a positive one. */
  function FloorDiv(a: int, b: int): (q: int)
    requires b != 0
    ensures b > 0 ==> b * q <= a < b * q + b
    ensures b < 0 ==> b * q >= a > b * q + b
  {
    if b > 0 then a / b else (-a) / (-b)
  }

  /** The next-page element: the offset it links to and its page number. */
  datatype NextLink = NextLink(offset: int, number: int)

  /** `offset += limit`, then an element iff `total > offset`, labelled
      `offset // limit`; a zero `limit` raises ZeroDivisionError only when
      the element is built. */
  function NextPage(offset: int, limit: int, total: int): (r: Result<Option<NextLink>>)
    ensures r == Ok(None) <==> total <= offset + limit
    ensures r.Err? <==> total > offset + limit && limit == 0
    ensures r.Err? ==> r.error == ZeroDivisionError
    ensures r.Ok? && r.value.Some? ==> r.value.value.offset == offset + limit
  {
    var next := offset + limit;
    if total > next then
      if limit == 0 then Err(ZeroDivisionError)
      else Ok(Some(NextLink(next, FloorDiv(next, limit))))
    else Ok(None)
  }

  /** Paging from offset 0 by a positive `limit`: the element under page `k`
      (counting from 0) links to the start of page `k + 1` and is labelled
      `k + 1`, the 0-based number of the page it opens. */
  lemma NextPageLabel(k: nat, limit: int, total: int)
    requires limit > 0 && total > (k + 1) * limit
    ensures NextPage(k * limit, limit, total) == Ok(Some(NextLink((k + 1) * limit, k + 1)))
  {
    var q := FloorDiv(k * limit + limit, limit);
    assert limit * q <= (k + 1) * limit < limit * q + limit;
    SandwichedQuotient(limit, q, k + 1);
  }

  /** `b * q <= b * m < b * q + b` pins `q` down to `m`. */
  lemma SandwichedQuotient(b: int, q: int, m: int)
    requires b > 0 && b * q <= b * m < b * q + b
    ensures q == m
  {
    var x := m - q;
    assert b * x == b * m - b * q;
    assert 0 <= b * x < b * 1;
  }
}

=== FILE: pages_boosty.dfy ===
/** The Boosty pages of resources/lib/pages/boosty.py: the URL constructors
    for the three Boosty item types, the media listing `index` (a profile's
    videos, or one post's), the subscriptions listing, and the player.

    The Boosty session is a parameter: its answers to the media, post,
    subscription and single-media requests, and its user agent. The
    library's best-quality choice is a parameter too. */
module PagesBoosty {
  import opened Wrappers
  import opened PyJson
  import opened Storage
  import opened Directory
  import ProvidersBoosty

  const IndexRoute := "resources.lib.pages.boosty.index"
  const PlaySavedRoute := "resources.lib.pages.boosty.play_saved"
  const DownloadVideoRoute := "resources.lib.pages.boosty.download_video"
  const PlayVideoRoute := "resources.lib.pages.boosty.play_video"
  const PlayVideoByIdRoute := "resources.lib.pages.boosty.play_video_by_id"
  const SubscriptionsRoute := "resources.lib.pages.boosty.list_subscriptions"
  const AddToHomepageRoute := "resources.lib.pages.boosty.add_to_homepage"
  const NotificationRoute := "resources.lib.main.notification"

  // ---------------------------------------------------------------------------
  // URL constructors

  /** `get_url_for_profile`: the profile's media. */
  function ProfileUrl(item: Item): (r: Result<Link>)
    ensures r.Ok? <==> "username" in item.entity.data
    ensures r.Ok? ==> r.value.route == IndexRoute &&
                      Arg(r.value, "username") == Some(item.entity.data["username"]) &&
                      Arg(r.value, "post_id").None?
    ensures r.Err? ==> r.error == KeyError("username")
  {
    var username :- DataValue(item, "username");
    var l := Link(IndexRoute, [("username", username)]);
    assert l.args[0] == ("username", username);
    Ok(l)
  }

  /** `get_url_for_post`: one post's media. */
  function PostUrl(item: Item): (r: Result<Link>)
    ensures r.Ok? <==> "username" in item.entity.data && "post_id" in item.entity.data
    ensures r.Ok? ==> r.value.route == IndexRoute &&
                      Arg(r.value, "username") == Some(item.entity.data["username"]) &&
                      Arg(r.value, "post_id") == Some(item.entity.data["post_id"])
    ensures "username" !in item.entity.data ==> r == Err(KeyError("username"))
  {
    var username :- DataValue(item, "username");
    var postId :- DataValue(item, "post_id");
    var l := Link(IndexRoute, [("username", username), ("post_id", postId)]);
    ArgAt(l, 0, "username");
    ArgAt(l, 1, "post_id");
    Ok(l)
  }

  /** `get_url_for_media`: the player for one media of a post. */
  function MediaUrl(item: Item): (r: Result<Link>)
    ensures r.Ok? <==> "username" in item.entity.data && "post_id" in item.entity.data && "media_id" in item.entity.data
    ensures r.Ok? ==> r.value.route == PlayVideoByIdRoute &&
                      Arg(r.value, "username") == Some(item.entity.data["username"]) &&
                      Arg(r.value, "post_id") == Some(item.entity.data["post_id"]) &&
                      Arg(r.value, "media_id") == Some(item.entity.data["media_id"])
    ensures "username" !in item.entity.data ==> r == Err(KeyError("username"))
  {
    var username :- DataValue(item, "username");
    var postId :- DataValue(item, "post_id");
    var mediaId :- DataValue(item, "media_id");
    var l := Link(PlayVideoByIdRoute, [("username", username), ("post_id", postId), ("media_id", mediaId)]);
    ArgAt(l, 0, "username");
    ArgAt(l, 1, "post_id");
    ArgAt(l, 2, "media_id");
    Ok(l)
  }

  /** Every item the Boosty adapter describes can be linked by the
      constructor of its type, and the link carries the ids the adapter
      stored: the constructors read only keys the adapter writes. */
  lemma AdapterItemsAreLinkable(url: string, api: ProvidersBoosty.Api, id: int, parentId: Option<int>)
    requires ProvidersBoosty.Adapter(url, api).Ok? && ProvidersBoosty.Adapter(url, api).value.Some?
    ensures var e := ProvidersBoosty.Adapter(url, api).value.value;
            var item := Item(id, parentId, e);
            (e.itemType == BoostyProfile ==>
              ProfileUrl(item).Ok? && Arg(ProfileUrl(item).value, "username") == Some(e.data["username"])) &&
            (e.itemType == BoostyPost ==>
              PostUrl(item).Ok? && Arg(PostUrl(item).value, "post_id") == Some(e.data["post_id"])) &&
            (e.itemType == BoostyVideo ==>
              MediaUrl(item).Ok? && Arg(MediaUrl(item).value, "media_id") == Some(e.data["media_id"]))
  {
    ProvidersBoosty.AdapterIdentityKeys(url, api);
  }

  // ---------------------------------------------------------------------------
  // The session

  /** One video media of a listing: its id, the author's username, its post's
      id and access flag, and the player URLs by quality. */
  datatype ListedMedia = ListedMedia(id: string, username: string, postId: string, hasAccess: bool,
                                     playerUrls: seq<(ProvidersBoosty.Quality, string)>)

  /** A page of media and the cursor of the page after it. */
  datatype MediaPage = MediaPage(media: seq<ListedMedia>, isLast: bool, offset: Option<string>)

  /** A subscription: the blog's address name and its owner's name. */
  datatype Subscription = Subscription(blogUrl: string, ownerName: string)

  datatype SubscriptionPage = SubscriptionPage(people: seq<Subscription>, isLast: bool)

  /** `boosty_session`: `get_media(username, limit, offset, only_allowed)`,
      `get_post(username, post_id).get_media(VIDEO)`,
      `get_subscriptions(limit, offset)`,
      `get_media_by_id(username, post_id, media_id)` and `user_agent`. */
  datatype Session = Session(
    getMedia: (string, int, Option<string>, bool) -> Result<MediaPage>,
    getPost: (string, string) -> Result<MediaPage>,
    getSubscriptions: (int, int) -> Result<SubscriptionPage>,
    mediaById: (string, string, string) -> Result<ListedMedia>,
    userAgent: string)

  /** `select_best_quality(player_urls, skip_dash)`: the library's choice. */
  type Selector = (seq<(ProvidersBoosty.Quality, string)>, bool) -> Result<(ProvidersBoosty.Quality, string)>

  /** The quality a link carries, as the enum member's name. */
  function QualityTag(q: ProvidersBoosty.Quality): string {
    match q
    case Sd144 => "SD_144"
    case Sd240 => "SD_240"
    case Sd360 => "SD_360"
    case Sd480 => "SD_480"
    case Hd => "HD"
    case Fhd => "FHD"
    case Qhd => "QHD"
    case Uhd => "UHD"
    case Dash => "DASH"
    case Hls => "HLS"
    case OtherQuality(name) => name
  }

  // ---------------------------------------------------------------------------
  // index

  /** The context-menu action on one media, naming it by author, post and id. */
  function MediaAction(route: string, m: ListedMedia): Link {
    Link(route, [("username", PyStr(m.username)), ("post_id", PyStr(m.postId)), ("media_id", PyStr(m.id))])
  }

  /** Where a media the user may not watch leads: an error notification. */
  function DeniedLink(): Link {
    Link(NotificationRoute, [("title", PyStr("Access denied")), ("message", PyStr("Subscription is required")),
                             ("level", PyStr("error"))])
  }

  function PlayLink(q: ProvidersBoosty.Quality, url: string): Link {
    Link(PlayVideoRoute, [("quality", PyStr(QualityTag(q))), ("url", PyStr(url))])
  }

  /** One media row. Without access: the notification, not playable, only
      "Play saved file". With access: the best quality with DASH skipped,
      playable, with "Download" after "Play saved file". */
  function MediaRow(select: Selector, m: ListedMedia): (r: Result<Entry>)
    ensures !m.hasAccess ==> r.Ok?
    ensures m.hasAccess ==> (r.Ok? <==> select(m.playerUrls, true).Ok?)
    ensures m.hasAccess && r.Err? ==> r.error == select(m.playerUrls, true).error
    ensures r.Ok? ==> r.value.kind == Row && !r.value.isFolder &&
                      (r.value.playable <==> m.hasAccess) &&
                      |r.value.menu| >= 1 && r.value.menu[0] == MediaAction(PlaySavedRoute, m)
    ensures r.Ok? && !m.hasAccess ==> r.value.target == DeniedLink() && |r.value.menu| == 1
    ensures r.Ok? && m.hasAccess ==>
              var choice := select(m.playerUrls, true).value;
              r.value.target == PlayLink(choice.0, choice.1) &&
              r.value.menu == [MediaAction(PlaySavedRoute, m), MediaAction(DownloadVideoRoute, m)]
  {
    var saved := MediaAction(PlaySavedRoute, m);
    if !m.hasAccess then
      Ok(Entry(Row, DeniedLink(), false, false, [saved]))
    else
      var choice :- select(m.playerUrls, true);
      Ok(Entry(Row, PlayLink(choice.0, choice.1), false, true, [saved, MediaAction(DownloadVideoRoute, m)]))
  }

  /** The page's own link to the media after `cursor`. */
  function IndexNextLink(username: string, perPage: int, cursor: Option<string>): Link {
    Link(IndexRoute, [("username", PyStr(username)), ("items_per_page", PyInt(perPage)), ("offset", OptVal(cursor))])
  }

  /** The media `index` lists: the profile's videos page when no post is
      given, otherwise the post's videos. */
  function MediaOf(session: Session, username: string, perPage: int, onlyAllowed: bool,
                   offset: Option<string>, postId: Option<string>): Result<MediaPage>
  {
    match postId
    case None => session.getMedia(username, perPage, offset, onlyAllowed)
    case Some(p) => session.getPost(username, p)
  }

  /** The body of `index`: one row per media, then a next-page element unless
      the page is the last. */
  function Index(session: Session, select: Selector, username: string, perPage: int, onlyAllowed: bool,
                 offset: Option<string>, postId: Option<string>): (r: Result<seq<Entry>>)
    ensures postId.None? && session.getMedia(username, perPage, offset, onlyAllowed).Err? ==>
              r == Err(session.getMedia(username, perPage, offset, onlyAllowed).error)
    ensures postId.Some? && session.getPost(username, postId.value).Err? ==>
              r == Err(session.getPost(username, postId.value).error)
    ensures r.Ok? && postId.None? ==> session.getMedia(username, perPage, offset, onlyAllowed).Ok?
    ensures r.Ok? && postId.Some? ==> session.getPost(username, postId.value).Ok?
  {
    var page :- MediaOf(session, username, perPage, onlyAllowed, offset, postId);
    var rows :- MapAll(page.media, m => MediaRow(select, m));
    Ok(rows + (if !page.isLast then [NextEntry(IndexNextLink(username, perPage, page.offset))] else []))
  }

  /** `index` as routed: Boosty login first, then the Boosty error wrapper. */
  function IndexPage(enabled: bool, auth: Result<()>, session: Session, select: Selector, username: string,
                     perPage: int, onlyAllowed: bool, offset: Option<string>, postId: Option<string>): (r: Result<Outcome<seq<Entry>>>)
    ensures enabled && auth.Err? && auth.error.AuthError? ==> r == Ok(Failed(auth.error.msg))
    ensures (!enabled || auth.Ok?) &&
            Index(session, select, username, perPage, onlyAllowed, offset, postId).Ok? ==>
              r == Ok(Completed(Index(session, select, username, perPage, onlyAllowed, offset, postId).value))
    ensures (!enabled || auth.Ok?) &&
            Index(session, select, username, perPage, onlyAllowed, offset, postId).Err? ==>
              var e := Index(session, select, username, perPage, onlyAllowed, offset, postId).error;
              (e.BoostyApiError? ==> r == Ok(Failed(e.description))) &&
              (e.BoostyError? ==> r == Ok(Failed(e.msg))) &&
              (!e.BoostyApiError? && !e.BoostyError? ==> r == Err(e))
  {
    ProvidersBoosty.CatchApiError(
      ProvidersBoosty.BoostyLogin(enabled, auth, Index(session, select, username, perPage, onlyAllowed, offset, postId)))
  }

  lemma IndexLayout(session: Session, select: Selector, username: string, perPage: int, onlyAllowed: bool,
                    offset: Option<string>, postId: Option<string>)
    requires Index(session, select, username, perPage, onlyAllowed, offset, postId).Ok?
    ensures var page := MediaOf(session, username, perPage, onlyAllowed, offset, postId).value;
            var rows := MapAll(page.media, m => MediaRow(select, m));
            var tail := if !page.isLast then [NextEntry(IndexNextLink(username, perPage, page.offset))] else [];
            rows.Ok? &&
            Index(session, select, username, perPage, onlyAllowed, offset, postId).value == [] + rows.value + tail &&
            Layout([], rows.value, tail)
  {
    var page := MediaOf(session, username, perPage, onlyAllowed, offset, postId).value;
    var rows := MapAll(page.media, m => MediaRow(select, m));
    var tail := if !page.isLast then [NextEntry(IndexNextLink(username, perPage, page.offset))] else [];
    assert Index(session, select, username, perPage, onlyAllowed, offset, postId).value == rows.value + tail;
    assert [] + rows.value + tail == rows.value + tail;
  }

  /** The rows are the listed media in order: playable exactly when the user
      has access, always offering "Play saved file" for that media, and
      offering "Download" and the best non-DASH quality only with access. */
  lemma IndexRows(session: Session, select: Selector, username: string, perPage: int, onlyAllowed: bool,
                  offset: Option<string>, postId: Option<string>)
    requires Index(session, select, username, perPage, onlyAllowed, offset, postId).Ok?
    ensures var ms := MediaOf(session, username, perPage, onlyAllowed, offset, postId).value.media;
            var rows := OfKind(Index(session, select, username, perPage, onlyAllowed, offset, postId).value, Row);
            |rows| == |ms| &&
            forall n :: 0 <= n < |ms| ==>
              !rows[n].isFolder && (rows[n].playable <==> ms[n].hasAccess) &&
              rows[n].menu[0] == MediaAction(PlaySavedRoute, ms[n]) &&
              (!ms[n].hasAccess ==> rows[n].target == DeniedLink() && |rows[n].menu| == 1) &&
              (ms[n].hasAccess ==> select(ms[n].playerUrls, true).Ok? &&
                                   rows[n].target == PlayLink(select(ms[n].playerUrls, true).value.0,
                                                              select(ms[n].playerUrls, true).value.1) &&
                                   rows[n].menu == [MediaAction(PlaySavedRoute, ms[n]), MediaAction(DownloadVideoRoute, ms[n])])
  {
    var page := MediaOf(session, username, perPage, onlyAllowed, offset, postId).value;
    var tail := if !page.isLast then [NextEntry(IndexNextLink(username, perPage, page.offset))] else [];
    IndexLayout(session, select, username, perPage, onlyAllowed, offset, postId);
    LayoutRows([], MapAll(page.media, m => MediaRow(select, m)).value, tail);
  }

  /** Which request's media the rows show: without a post, the profile's
      media page for the cursor; with one, that post's media. Each row offers
      "Play saved file" for the media at its position. */
  lemma IndexListsRequestedMedia(session: Session, select: Selector, username: string, perPage: int, onlyAllowed: bool,
                                 offset: Option<string>, postId: Option<string>)
    requires Index(session, select, username, perPage, onlyAllowed, offset, postId).Ok?
    ensures var rows := OfKind(Index(session, select, username, perPage, onlyAllowed, offset, postId).value, Row);
            var page := if postId.None? then session.getMedia(username, perPage, offset, onlyAllowed)
                        else session.getPost(username, postId.value);
            page.Ok? && |rows| == |page.value.media| &&
            forall n :: 0 <= n < |rows| ==> rows[n].menu[0] == MediaAction(PlaySavedRoute, page.value.media[n])
  {
    IndexRows(session, select, username, perPage, onlyAllowed, offset, postId);
  }

  /** The cursor and user `index` reads from a link. */
  function IndexQuery(l: Link): (r: Option<(string, Option<string>)>)
    ensures r.Some? ==> l.route == IndexRoute
  {
    if l.route != IndexRoute then None
    else
      match (Str(Arg(l, "username")), Arg(l, "offset"))
      case (None, _) => None
      case (Some(u), None) => Some((u, None))
      case (Some(u), Some(PyNone)) => Some((u, None))
      case (Some(u), Some(PyStr(c))) => Some((u, Some(c)))
      case (Some(u), Some(_)) => None
  }

  lemma IndexNextLinkReadsBack(username: string, perPage: int, cursor: Option<string>)
    ensures IndexQuery(IndexNextLink(username, perPage, cursor)) == Some((username, cursor))
    ensures Arg(IndexNextLink(username, perPage, cursor), "post_id").None?
  {
    var l := IndexNextLink(username, perPage, cursor);
    ArgAt(l, 0, "username");
    ArgAt(l, 2, "offset");
    assert Str(Arg(l, "username")) == Some(username);
  }

  /** A next-page element appears exactly when the page is not the last; it
      reopens the same user's media from the cursor the page returned. It
      names no post, so it always continues the profile's media listing. */
  lemma IndexNext(session: Session, select: Selector, username: string, perPage: int, onlyAllowed: bool,
                  offset: Option<string>, postId: Option<string>)
    requires Index(session, select, username, perPage, onlyAllowed, offset, postId).Ok?
    ensures var page := MediaOf(session, username, perPage, onlyAllowed, offset, postId).value;
            var nx := OfKind(Index(session, select, username, perPage, onlyAllowed, offset, postId).value, Next);
            (nx != [] <==> !page.isLast) &&
            (nx != [] ==> |nx| == 1 && nx[0].isFolder &&
                          IndexQuery(nx[0].target) == Some((username, page.offset)) &&
                          Arg(nx[0].target, "post_id").None?)
  {
    var page := MediaOf(session, username, perPage, onlyAllowed, offset, postId).value;
    var tail := if !page.isLast then [NextEntry(IndexNextLink(username, perPage, page.offset))] else [];
    IndexLayout(session, select, username, perPage, onlyAllowed, offset, postId);
    LayoutNext([], MapAll(page.media, m => MediaRow(select, m)).value, tail);
    IndexNextLinkReadsBack(username, perPage, page.offset);
  }

  /** Without a post, only the profile's media request is made; with one,
      only that post is fetched. Sessions that agree on that one answer give
      the same listing. */
  lemma IndexAsksOnce(s1: Session, s2: Session, select: Selector, username: string, perPage: int,
                      onlyAllowed: bool, offset: Option<string>, postId: Option<string>)
    requires postId.None? ==> s1.getMedia(username, perPage, offset, onlyAllowed) == s2.getMedia(username, perPage, offset, onlyAllowed)
    requires postId.Some? ==> s1.getPost(username, postId.value) == s2.getPost(username, postId.value)
    ensures Index(s1, select, username, perPage, onlyAllowed, offset, postId) ==
            Index(s2, select, username, perPage, onlyAllowed, offset, postId)
  {
    assert MediaOf(s1, username, perPage, onlyAllowed, offset, postId) == MediaOf(s2, username, perPage, onlyAllowed, offset, postId);
  }

  /** With Boosty enabled and the login refused, `index` ends as failed
      whatever the session would answer. */
  lemma IndexLoginFailure(auth: Result<()>, s1: Session, s2: Session, select: Selector, username: string,
                          perPage: int, onlyAllowed: bool, offset: Option<string>, postId: Option<string>)
    requires auth.Err? && auth.error.AuthError?
    ensures IndexPage(true, auth, s1, select, username, perPage, onlyAllowed, offset, postId) ==
            IndexPage(true, auth, s2, select, username, perPage, onlyAllowed, offset, postId) ==
            Ok(Failed(auth.error.msg))
  {
  }

  // ---------------------------------------------------------------------------
  // list_subscriptions

  function SubscriptionRow(p: Subscription): Entry {
    Entry(Row, Link(IndexRoute, [("username", PyStr(p.blogUrl)), ("title", PyStr(p.ownerName))]), true, false,
          [Link(AddToHomepageRoute, [("username", PyStr(p.blogUrl))])])
  }

  function SubscriptionsLink(perPage: int, offset: int): Link {
    Link(SubscriptionsRoute, [("items_per_page", PyInt(perPage)), ("offset", PyInt(offset))])
  }

  function SubscriptionRows(people: seq<Subscription>): (r: seq<Entry>)
    ensures |r| == |people|
    ensures forall n :: 0 <= n < |r| ==>
              r[n].kind == Row && r[n].isFolder && r[n].target.route == IndexRoute &&
              Arg(r[n].target, "username") == Some(PyStr(people[n].blogUrl)) &&
              r[n].menu == [Link(AddToHomepageRoute, [("username", PyStr(people[n].blogUrl))])]
  {
    var r := seq(|people|, n requires 0 <= n < |people| => SubscriptionRow(people[n]));
    assert forall n :: 0 <= n < |r| ==> Arg(r[n].target, "username") == Some(PyStr(people[n].blogUrl)) by {
      forall n | 0 <= n < |r| {
        ArgAt(r[n].target, 0, "username");
      }
    }
    r
  }

  /** The body of `list_subscriptions(items_per_page, offset)`. */
  function ListSubscriptions(session: Session, perPage: int, offset: int): (r: Result<seq<Entry>>)
    ensures session.getSubscriptions(perPage, offset).Err? ==> r == Err(session.getSubscriptions(perPage, offset).error)
    ensures session.getSubscriptions(perPage, offset).Ok? ==> r.Ok?
  {
    var page :- session.getSubscriptions(perPage, offset);
    var rows := SubscriptionRows(page.people);
    Ok(rows + (if !page.isLast then [NextEntry(SubscriptionsLink(perPage, offset + perPage))] else []))
  }

  /** `list_subscriptions` as routed: Boosty login first, then the Boosty
      error wrapper. */
  function ListSubscriptionsPage(enabled: bool, auth: Result<()>, session: Session, perPage: int, offset: int): (r: Result<Outcome<seq<Entry>>>)
    ensures enabled && auth.Err? && auth.error.AuthError? ==> r == Ok(Failed(auth.error.msg))
    ensures (!enabled || auth.Ok?) && session.getSubscriptions(perPage, offset).Ok? ==>
              r.Ok? && r.value.Completed? && r.value.value == ListSubscriptions(session, perPage, offset).value
    ensures (!enabled || auth.Ok?) && session.getSubscriptions(perPage, offset).Err? ==>
              var e := session.getSubscriptions(perPage, offset).error;
              (e.BoostyApiError? ==> r == Ok(Failed(e.description))) &&
              (e.BoostyError? ==> r == Ok(Failed(e.msg))) &&
              (!e.BoostyApiError? && !e.BoostyError? ==> r == Err(e))
  {
    ProvidersBoosty.CatchApiError(
      ProvidersBoosty.BoostyLogin(enabled, auth, ListSubscriptions(session, perPage, offset)))
  }

  /** The offset `list_subscriptions` reads: 0 when absent. */
  function SubscriptionsQuery(l: Link): (r: Option<int>)
    ensures r.Some? ==> l.route == SubscriptionsRoute
  {
    if l.route != SubscriptionsRoute then None
    else
      match Arg(l, "offset")
      case None => Some(0)
      case Some(PyInt(i)) => Some(i)
      case Some(_) => None
  }

  lemma SubscriptionsLinkReadsBack(perPage: int, offset: int)
    ensures SubscriptionsQuery(SubscriptionsLink(perPage, offset)) == Some(offset)
  {
    ArgAt(SubscriptionsLink(perPage, offset), 1, "offset");
  }

  lemma ListSubscriptionsLayout(session: Session, perPage: int, offset: int)
    requires session.getSubscriptions(perPage, offset).Ok?
    ensures var page := session.getSubscriptions(perPage, offset).value;
            var rows := SubscriptionRows(page.people);
            var tail := if !page.isLast then [NextEntry(SubscriptionsLink(perPage, offset + perPage))] else [];
            ListSubscriptions(session, perPage, offset).value == [] + rows + tail &&
            Layout([], rows, tail)
  {
    var page := session.getSubscriptions(perPage, offset).value;
    var rows := SubscriptionRows(page.people);
    var tail := if !page.isLast then [NextEntry(SubscriptionsLink(perPage, offset + perPage))] else [];
    assert ListSubscriptions(session, perPage, offset).value == rows + tail;
    assert [] + rows + tail == rows + tail;
  }

  /** One folder per subscription, opening that blog's media and offering to
      add it to the home page. */
  lemma ListSubscriptionsRows(session: Session, perPage: int, offset: int)
    requires session.getSubscriptions(perPage, offset).Ok?
    ensures var page := session.getSubscriptions(perPage, offset).value;
            var rows := OfKind(ListSubscriptions(session, perPage, offset).value, Row);
            |rows| == |page.people| &&
            forall n :: 0 <= n < |rows| ==>
              rows[n].isFolder && rows[n].target.route == IndexRoute &&
              Arg(rows[n].target, "username") == Some(PyStr(page.people[n].blogUrl)) &&
              rows[n].menu == [Link(AddToHomepageRoute, [("username", PyStr(page.people[n].blogUrl))])]
  {
    var page := session.getSubscriptions(perPage, offset).value;
    var tail := if !page.isLast then [NextEntry(SubscriptionsLink(perPage, offset + perPage))] else [];
    ListSubscriptionsLayout(session, perPage, offset);
    LayoutRows([], SubscriptionRows(page.people), tail);
  }

  /** A next-page element exactly when the page is not the last, reopening
      the listing `perPage` further on (see SubscriptionsLinkReadsBack). */
  lemma ListSubscriptionsNext(session: Session, perPage: int, offset: int)
    requires session.getSubscriptions(perPage, offset).Ok?
    ensures var page := session.getSubscriptions(perPage, offset).value;
            var nx := OfKind(ListSubscriptions(session, perPage, offset).value, Next);
            (nx != [] <==> !page.isLast) &&
            (nx != [] ==> nx == [NextEntry(SubscriptionsLink(perPage, offset + perPage))])
  {
    var page := session.getSubscriptions(perPage, offset).value;
    var tail := if !page.isLast then [NextEntry(SubscriptionsLink(perPage, offset + perPage))] else [];
    ListSubscriptionsLayout(session, perPage, offset);
    LayoutNext([], SubscriptionRows(page.people), tail);
  }

  // ---------------------------------------------------------------------------
  // Playing

  /** What `setResolvedUrl` receives: the path and the item's properties. */
  datatype Resolved = Resolved(path: string, properties: seq<(string, string)>)

  function Adaptive(manifest: string): seq<(string, string)> {
    [("inputstream", "inputstream.adaptive"), ("inputstream.adaptive.manifest_type", manifest)]
  }

  /** `play_video(quality, url)`: the URL with the session's user agent as a
      header, and an adaptive stream for DASH and HLS. */
  function PlayVideo(quality: string, url: string, userAgent: string): (r: Resolved)
    ensures r.path == url + "|User-Agent=" + userAgent
    ensures quality == QualityTag(ProvidersBoosty.Dash) ==> r.properties == Adaptive("mpd")
    ensures quality == QualityTag(ProvidersBoosty.Hls) ==> r.properties == Adaptive("hls")
    ensures quality != QualityTag(ProvidersBoosty.Dash) && quality != QualityTag(ProvidersBoosty.Hls) ==> r.properties == []
  {
    var headers := [("User-Agent", userAgent)];
    var path := url + "|" + headers[0].0 + "=" + headers[0].1;
    if quality == QualityTag(ProvidersBoosty.Dash) then Resolved(path, Adaptive("mpd"))
    else if quality == QualityTag(ProvidersBoosty.Hls) then Resolved(path, Adaptive("hls"))
    else Resolved(path, [])
  }

  /** The quality and URL `play_video` reads from a link. */
  function PlayQuery(l: Link): (r: Option<(string, string)>)
    ensures r.Some? ==> l.route == PlayVideoRoute
  {
    if l.route != PlayVideoRoute then None
    else
      match (Str(Arg(l, "quality")), Str(Arg(l, "url")))
      case (Some(q), Some(u)) => Some((q, u))
      case _ => None
  }

  /** Following a media row's link plays the chosen file with the session's
      user agent; the stream is adaptive exactly for DASH and HLS. */
  lemma PlayLinkPlays(q: ProvidersBoosty.Quality, url: string, userAgent: string)
    ensures PlayQuery(PlayLink(q, url)) == Some((QualityTag(q), url))
    ensures var r := PlayVideo(QualityTag(q), url, userAgent);
            r.path == url + "|User-Agent=" + userAgent &&
            (q == ProvidersBoosty.Dash ==> r.properties == Adaptive("mpd")) &&
            (q == ProvidersBoosty.Hls ==> r.properties == Adaptive("hls")) &&
            (q.Sd144? || q.Sd240? || q.Sd360? || q.Sd480? || q.Hd? || q.Fhd? || q.Qhd? || q.Uhd? ==> r.properties == [])
  {
    var l := PlayLink(q, url);
    ArgAt(l, 0, "quality");
    ArgAt(l, 1, "url");
    assert Str(Arg(l, "quality")) == Some(QualityTag(q));
    assert Str(Arg(l, "url")) == Some(url);
  }

  /** The body of `play_video_by_id`: the media fetched by its ids, played at
      the best quality with DASH skipped. */
  function PlayMediaById(session: Session, select: Selector, username: string, postId: string, mediaId: string): Result<Resolved> {
    var media :- session.mediaById(username, postId, mediaId);
    var choice :- select(media.playerUrls, true);
    Ok(PlayVideo(QualityTag(choice.0), choice.1, session.userAgent))
  }

  /** `play_video_by_id` as decorated with `catch_api_error`: the chosen file
      plays with the session's user agent; a Boosty API error from the fetch
      or a Boosty library error from the quality choice ends the directory as
      failed with its message, and any other error propagates. */
  function PlayVideoById(session: Session, select: Selector, username: string, postId: string, mediaId: string): (r: Result<Outcome<Resolved>>)
    ensures var fetched := session.mediaById(username, postId, mediaId);
            fetched.Err? ==>
              (fetched.error.BoostyApiError? ==> r == Ok(Failed(fetched.error.description))) &&
              (fetched.error.BoostyError? ==> r == Ok(Failed(fetched.error.msg))) &&
              (!fetched.error.BoostyApiError? && !fetched.error.BoostyError? ==> r == Err(fetched.error))
    ensures var fetched := session.mediaById(username, postId, mediaId);
            fetched.Ok? ==>
              var choice := select(fetched.value.playerUrls, true);
              (choice.Err? && choice.error.BoostyApiError? ==> r == Ok(Failed(choice.error.description))) &&
              (choice.Err? && choice.error.BoostyError? ==> r == Ok(Failed(choice.error.msg))) &&
              (choice.Err? && !choice.error.BoostyApiError? && !choice.error.BoostyError? ==> r == Err(choice.error)) &&
              (choice.Ok? ==> r.Ok? && r.value.Completed? &&
                              r.value.value.path == choice.value.1 + "|User-Agent=" + session.userAgent &&
                              r.value.value == PlayVideo(QualityTag(choice.value.0), choice.value.1, session.userAgent))
    ensures r.Ok? && r.value.Failed? ==> PlayMediaById(session, select, username, postId, mediaId).Err?
  {
    ProvidersBoosty.CatchApiError(ProvidersBoosty.Run(PlayMediaById(session, select, username, postId, mediaId)))
  }
}

=== FILE: pages_items.dfy ===
/** The library listing of resources/lib/pages/items.py and the URL
    constructors for FOLDER and VIDEO items.

    `list_items` shows, in order: the Channels and Boosty shortcuts (root
    folder, first page only), the "Add item" action, one page of the folder's
    items, and a next-page element. The saved items are a table; the items of
    a folder are the rows whose parent is that folder, in table order. */
module PagesItems {
  import opened Wrappers
  import opened PyJson
  import opened Storage
  import opened Directory
  import Utils
  import Paging

  const ListItemsRoute := "resources.lib.pages.items.list_items"
  const PlayVideoRoute := "resources.lib.pages.items.play_video"
  const CreateItemRoute := "resources.lib.pages.items.create_item"
  const RenameItemRoute := "resources.lib.pages.items.rename_item"
  const DeleteItemRoute := "resources.lib.pages.items.delete_item"
  const TvChannelsRoute := "resources.lib.pages.rutube.list_tv_channels"
  const SubscriptionsRoute := "resources.lib.pages.boosty.list_subscriptions"

  /** `url_construct`: item type to the function building the item's link. */
  type Constructors = Utils.UrlConstructor<ItemType, Item, Link>

  /** An optional integer as the Python value it is. */
  function OptInt(o: Option<int>): PyVal {
    match o
    case None => PyNone
    case Some(i) => PyInt(i)
  }

  // ---------------------------------------------------------------------------
  // URL constructors

  /** `get_url_for_folder_item`: the folder's own listing. */
  function FolderUrl(item: Item): Result<Link> {
    Ok(Link(ListItemsRoute, [("folder_id", PyInt(item.id)), ("title", OptVal(item.entity.title))]))
  }

  /** `get_url_for_video_item`: the player for the item's page URL. */
  function VideoUrl(item: Item): Result<Link> {
    Ok(Link(PlayVideoRoute, [("url", OptVal(item.entity.url))]))
  }

  /** The registry as this page leaves it: FOLDER and VIDEO registered. */
  function BaseConstructors(): (c: Constructors)
    ensures c.table.Keys == {Folder, Video}
    ensures c.table[Folder] == FolderUrl && c.table[Video] == VideoUrl
    ensures forall i: Item :: Utils.Call(c, Folder, i) == FolderUrl(i) && Utils.Call(c, Video, i) == VideoUrl(i)
  {
    Utils.Register(Utils.Register(Utils.Empty(), Folder, FolderUrl), Video, VideoUrl)
  }

  // ---------------------------------------------------------------------------
  // The listing

  /** `Item.select(parent_id=folder_id)`: the folder's items in table order. */
  function Children(table: seq<Item>, folderId: Option<int>): (r: seq<Item>)
    ensures |r| <= |table|
    ensures forall i :: i in r <==> i in table && i.parentId == folderId
  {
    if table == [] then []
    else
      assert forall i :: i in table <==> i == table[0] || i in table[1..];
      (if table[0].parentId == folderId then [table[0]] else []) + Children(table[1..], folderId)
  }

  function ChannelsEntry(): Entry {
    ShortcutEntry("Channels", Link(TvChannelsRoute, []), true)
  }

  function BoostyEntry(): Entry {
    ShortcutEntry("Boosty", Link(SubscriptionsRoute, []), true)
  }

  /** "Add item": creates an item under the folder being shown. */
  function AddItemEntry(folderId: Option<int>): Entry {
    ShortcutEntry("Add item", Link(CreateItemRoute, [("parent_id", OptInt(folderId))]), false)
  }

  /** The link of `list_items` for a folder and an offset. */
  function ItemsLink(folderId: Option<int>, offset: int): Link {
    Link(ListItemsRoute, [("folder_id", OptInt(folderId)), ("offset", PyInt(offset))])
  }

  /** The shortcuts heading the root folder's first page. */
  function Head(folderId: Option<int>, offset: int, boostyEnabled: bool): seq<Entry> {
    if folderId.None? && offset < 1 then [ChannelsEntry()] + (if boostyEnabled then [BoostyEntry()] else [])
    else []
  }

  /** The context menu of one row: "Add item" first for a FOLDER, then
      Rename and Delete. */
  function RowMenu(i: Item): seq<Link> {
    (if i.entity.itemType == Folder then [Link(CreateItemRoute, [("parent_id", PyInt(i.id))])] else []) +
    [Link(RenameItemRoute, [("item_id", PyInt(i.id))]), Link(DeleteItemRoute, [("item_id", PyInt(i.id))])]
  }

  /** One item's row: the link its type's constructor builds, playable unless
      it is a folder. */
  function ItemRow(c: Constructors, i: Item): (r: Result<Entry>)
    ensures r.Ok? <==> Utils.Call(c, i.entity.itemType, i).Ok?
    ensures r.Ok? ==> r.value.kind == Row
  {
    var url :- Utils.Call(c, i.entity.itemType, i);
    Ok(Entry(Row, url, i.entity.isFolder, !i.entity.isFolder, RowMenu(i)))
  }

  function NextOf(folderId: Option<int>, next: Option<nat>): seq<Entry> {
    match next
    case None => []
    case Some(o) => [NextEntry(ItemsLink(folderId, o))]
  }

  /** Every item has a constructor that succeeds. */
  predicate AllConstructible(c: Constructors, items: seq<Item>) {
    forall n :: 0 <= n < |items| ==> ItemRow(c, items[n]).Ok?
  }

  /** The rows of the shown items; the first failing constructor ends the listing. */
  function Rows(c: Constructors, items: seq<Item>): (r: Result<seq<Entry>>)
    ensures r.Ok? <==> AllConstructible(c, items)
    ensures r.Ok? ==> |r.value| == |items| && forall n :: 0 <= n < |items| ==> r.value[n] == ItemRow(c, items[n]).value
  {
    MapAll(items, i => ItemRow(c, i))
  }

  /** The items one page fetches: `select(limit=items_per_page + 1, offset=offset)`. */
  function PageOf(table: seq<Item>, folderId: Option<int>, offset: nat, perPage: nat): Paging.Page<Item> {
    Paging.LookAhead(Children(table, folderId), perPage, offset)
  }

  /** `list_items(items_per_page, offset, folder_id)` over the saved items. */
  function ListItems(c: Constructors, table: seq<Item>, folderId: Option<int>, offset: nat,
                     perPage: nat, boostyEnabled: bool): (r: Result<seq<Entry>>)
    ensures r.Ok? <==> AllConstructible(c, Paging.Window(Children(table, folderId), perPage, offset))
  {
    var page := PageOf(table, folderId, offset, perPage);
    var rows :- Rows(c, page.shown);
    Ok(Head(folderId, offset, boostyEnabled) + [AddItemEntry(folderId)] + rows + NextOf(folderId, page.next))
  }

  // ---------------------------------------------------------------------------
  // What a page shows

  /** A page is its shortcuts (the head, then "Add item"), its rows, then
      the next-page element. */
  lemma ListItemsLayout(c: Constructors, table: seq<Item>, folderId: Option<int>, offset: nat,
                        perPage: nat, boostyEnabled: bool)
    requires ListItems(c, table, folderId, offset, perPage, boostyEnabled).Ok?
    ensures var page := PageOf(table, folderId, offset, perPage);
            var h := Head(folderId, offset, boostyEnabled) + [AddItemEntry(folderId)];
            var rows := Rows(c, page.shown).value;
            ListItems(c, table, folderId, offset, perPage, boostyEnabled).value == h + rows + NextOf(folderId, page.next) &&
            Layout(h, rows, NextOf(folderId, page.next))
  {
    var page := PageOf(table, folderId, offset, perPage);
    var h := Head(folderId, offset, boostyEnabled) + [AddItemEntry(folderId)];
    var rows := Rows(c, page.shown).value;
    var tail := NextOf(folderId, page.next);
    assert ListItems(c, table, folderId, offset, perPage, boostyEnabled).value == h + rows + tail;
    assert forall n :: 0 <= n < |h| ==> h[n].kind.Shortcut?;
    assert forall n :: 0 <= n < |rows| ==> rows[n].kind == Row by {
      forall n | 0 <= n < |rows|
        ensures rows[n].kind == Row
      {
        assert rows[n] == ItemRow(c, page.shown[n]).value;
      }
    }
    assert forall n :: 0 <= n < |tail| ==> tail[n].kind == Next;
  }

  /** The rows of a page are the shown items' rows. */
  lemma ListItemsRowKind(c: Constructors, table: seq<Item>, folderId: Option<int>, offset: nat,
                         perPage: nat, boostyEnabled: bool)
    requires ListItems(c, table, folderId, offset, perPage, boostyEnabled).Ok?
    ensures OfKind(ListItems(c, table, folderId, offset, perPage, boostyEnabled).value, Row) ==
              Rows(c, PageOf(table, folderId, offset, perPage).shown).value
  {
    var page := PageOf(table, folderId, offset, perPage);
    ListItemsLayout(c, table, folderId, offset, perPage, boostyEnabled);
    LayoutRows(Head(folderId, offset, boostyEnabled) + [AddItemEntry(folderId)], Rows(c, page.shown).value,
               NextOf(folderId, page.next));
  }

  /** The next-page element of a page comes from the look-ahead alone. */
  lemma ListItemsNextKind(c: Constructors, table: seq<Item>, folderId: Option<int>, offset: nat,
                          perPage: nat, boostyEnabled: bool)
    requires ListItems(c, table, folderId, offset, perPage, boostyEnabled).Ok?
    ensures OfKind(ListItems(c, table, folderId, offset, perPage, boostyEnabled).value, Next) ==
              NextOf(folderId, PageOf(table, folderId, offset, perPage).next)
  {
    var page := PageOf(table, folderId, offset, perPage);
    ListItemsLayout(c, table, folderId, offset, perPage, boostyEnabled);
    LayoutNext(Head(folderId, offset, boostyEnabled) + [AddItemEntry(folderId)], Rows(c, page.shown).value,
               NextOf(folderId, page.next));
  }

  /** The shortcuts of a page come from the head and the "Add item" action. */
  lemma ListItemsShortcutKind(c: Constructors, table: seq<Item>, folderId: Option<int>, offset: nat,
                              perPage: nat, boostyEnabled: bool, name: string)
    requires ListItems(c, table, folderId, offset, perPage, boostyEnabled).Ok?
    ensures OfKind(ListItems(c, table, folderId, offset, perPage, boostyEnabled).value, Shortcut(name)) ==
              OfKind(Head(folderId, offset, boostyEnabled), Shortcut(name)) +
              OfKind([AddItemEntry(folderId)], Shortcut(name))
  {
    var page := PageOf(table, folderId, offset, perPage);
    ListItemsLayout(c, table, folderId, offset, perPage, boostyEnabled);
    LayoutShortcut(Head(folderId, offset, boostyEnabled) + [AddItemEntry(folderId)], Rows(c, page.shown).value,
                   NextOf(folderId, page.next), name);
    OfKindAppend(Head(folderId, offset, boostyEnabled), [AddItemEntry(folderId)], Shortcut(name));
  }

  /** Channels and Boosty appear only on the root folder's first page, Boosty
      only when enabled; "Add item" appears on every page, as a non-folder
      carrying the current folder as parent. */
  lemma ListItemsShortcuts(c: Constructors, table: seq<Item>, folderId: Option<int>, offset: nat,
                           perPage: nat, boostyEnabled: bool)
    requires ListItems(c, table, folderId, offset, perPage, boostyEnabled).Ok?
    ensures var es := ListItems(c, table, folderId, offset, perPage, boostyEnabled).value;
            OfKind(es, Shortcut("Channels")) == (if folderId.None? && offset < 1 then [ChannelsEntry()] else []) &&
            OfKind(es, Shortcut("Boosty")) == (if folderId.None? && offset < 1 && boostyEnabled then [BoostyEntry()] else []) &&
            OfKind(es, Shortcut("Add item")) == [AddItemEntry(folderId)] &&
            !AddItemEntry(folderId).isFolder && Arg(AddItemEntry(folderId).target, "parent_id") == Some(OptInt(folderId))
  {
    ListItemsShortcutKind(c, table, folderId, offset, perPage, boostyEnabled, "Channels");
    ListItemsShortcutKind(c, table, folderId, offset, perPage, boostyEnabled, "Boosty");
    ListItemsShortcutKind(c, table, folderId, offset, perPage, boostyEnabled, "Add item");
    var h := Head(folderId, offset, boostyEnabled);
    if folderId.None? && offset < 1 && boostyEnabled {
      assert h == [ChannelsEntry()] + [BoostyEntry()];
      OfKindAppend([ChannelsEntry()], [BoostyEntry()], Shortcut("Channels"));
      OfKindAppend([ChannelsEntry()], [BoostyEntry()], Shortcut("Boosty"));
      OfKindAppend([ChannelsEntry()], [BoostyEntry()], Shortcut("Add item"));
    }
  }

  /** Rows: at most a page of the folder's items, in order, each with the
      link its type's constructor builds, folder flag as the item's,
      playable exactly when not a folder, and "Add item" heading the menu of
      exactly the FOLDER items. */
  lemma ListItemsRows(c: Constructors, table: seq<Item>, folderId: Option<int>, offset: nat,
                      perPage: nat, boostyEnabled: bool)
    requires ListItems(c, table, folderId, offset, perPage, boostyEnabled).Ok?
    ensures var rows := OfKind(ListItems(c, table, folderId, offset, perPage, boostyEnabled).value, Row);
            var w := Paging.Window(Children(table, folderId), perPage, offset);
            |rows| == |w| <= perPage &&
            forall n :: 0 <= n < |w| ==>
              w[n].parentId == folderId &&
              rows[n].target == Utils.Call(c, w[n].entity.itemType, w[n]).value &&
              rows[n].isFolder == w[n].entity.isFolder && rows[n].playable == !w[n].entity.isFolder &&
              (w[n].entity.itemType == Folder <==> |rows[n].menu| == 3) &&
              (w[n].entity.itemType == Folder ==> rows[n].menu[0] == Link(CreateItemRoute, [("parent_id", PyInt(w[n].id))]))
  {
    ListItemsRowKind(c, table, folderId, offset, perPage, boostyEnabled);
    var w := Paging.Window(Children(table, folderId), perPage, offset);
    forall n | 0 <= n < |w|
      ensures w[n].parentId == folderId
    {
      assert w[n] in Children(table, folderId);
    }
  }

  /** A next-page element exactly when the folder holds more items than this
      page reaches; it reopens the same folder `perPage` items further on. */
  lemma ListItemsNext(c: Constructors, table: seq<Item>, folderId: Option<int>, offset: nat,
                      perPage: nat, boostyEnabled: bool)
    requires ListItems(c, table, folderId, offset, perPage, boostyEnabled).Ok?
    ensures OfKind(ListItems(c, table, folderId, offset, perPage, boostyEnabled).value, Next) ==
              if |Children(table, folderId)| > offset + perPage
              then [NextEntry(ItemsLink(folderId, offset + perPage))] else []
  {
    ListItemsNextKind(c, table, folderId, offset, perPage, boostyEnabled);
  }

  // ---------------------------------------------------------------------------
  // Following next-page elements

  /** The folder and offset `list_items` reads from a link's arguments
      (None and 0 when absent), or None when the link does not carry them as
      the handler's types require. */
  function ItemsQuery(l: Link): (r: Option<(Option<int>, nat)>)
    ensures r.Some? ==> l.route == ListItemsRoute
  {
    if l.route != ListItemsRoute then None
    else
      var f := match Arg(l, "folder_id")
               case None => Some(None)
               case Some(PyNone) => Some(None)
               case Some(PyInt(i)) => Some(Some(i))
               case Some(_) => None;
      var o := match Arg(l, "offset")
               case None => Some(0)
               case Some(PyInt(i)) => if i >= 0 then Some(i) else None
               case Some(_) => None;
      if f.Some? && o.Some? then Some((f.value, o.value as nat)) else None
  }

  /** The link `ItemsLink` builds reads back as the folder and offset it was given. */
  lemma ItemsLinkReadsBack(folderId: Option<int>, offset: nat)
    ensures ItemsQuery(ItemsLink(folderId, offset)) == Some((folderId, offset))
  {
    var l := ItemsLink(folderId, offset);
    assert Arg(l, "folder_id") == Some(OptInt(folderId));
    assert l.args[1..] == [("offset", PyInt(offset))];
    assert Arg(l, "offset") == Some(PyInt(offset));
  }

  lemma WindowConstructible(c: Constructors, items: seq<Item>, perPage: nat, offset: nat)
    requires AllConstructible(c, items)
    ensures AllConstructible(c, Paging.Window(items, perPage, offset))
  {
    var w := Paging.Window(items, perPage, offset);
    forall n | 0 <= n < |w|
      ensures ItemRow(c, w[n]).Ok?
    {
      assert w[n] == items[offset + n];
    }
  }

  /** The folder and offset the next-page element of a listing reads back
      as, or None when the listing has no next-page element. */
  function NextQuery(es: seq<Entry>): Option<(Option<int>, nat)> {
    var nx := OfKind(es, Next);
    if nx == [] then None else ItemsQuery(nx[0].target)
  }

  /** Following a page's next-page element reopens the same folder `perPage`
      items further on, exactly when the folder holds more items than the
      page reaches. */
  lemma PageNextQuery(c: Constructors, table: seq<Item>, folderId: Option<int>, offset: nat,
                      perPage: nat, boostyEnabled: bool)
    requires ListItems(c, table, folderId, offset, perPage, boostyEnabled).Ok?
    ensures NextQuery(ListItems(c, table, folderId, offset, perPage, boostyEnabled).value) ==
              if |Children(table, folderId)| > offset + perPage then Some((folderId, offset + perPage)) else None
  {
    var es := ListItems(c, table, folderId, offset, perPage, boostyEnabled).value;
    var n := |Children(table, folderId)|;
    ListItemsNext(c, table, folderId, offset, perPage, boostyEnabled);
    NextQueryOfLink(es, n, folderId, offset, perPage);
  }

  /** A listing of a folder of `n` items whose next-page element, present
      exactly when `n` exceeds `offset + perPage`, links `perPage` further on
      reads back as that folder and offset. */
  lemma NextQueryOfLink(es: seq<Entry>, n: nat, folderId: Option<int>, offset: nat, perPage: nat)
    requires OfKind(es, Next) == if n > offset + perPage then [NextEntry(ItemsLink(folderId, offset + perPage))] else []
    ensures NextQuery(es) == if n > offset + perPage then Some((folderId, offset + perPage)) else None
  {
    if n > offset + perPage {
      assert OfKind(es, Next)[0].target == ItemsLink(folderId, offset + perPage);
      ItemsLinkReadsBack(folderId, offset + perPage);
    }
  }

  /** The rows a user sees opening the listing at `offset` and then following
      each page's next-page element, read back from its link, until a page
      has none. */
  ghost function FollowRows(c: Constructors, table: seq<Item>, folderId: Option<int>, offset: nat,
                            perPage: nat, boostyEnabled: bool): seq<Entry>
    requires perPage > 0 && AllConstructible(c, Children(table, folderId))
    decreases |Children(table, folderId)| - offset
  {
    WindowConstructible(c, Children(table, folderId), perPage, offset);
    var es := ListItems(c, table, folderId, offset, perPage, boostyEnabled).value;
    PageNextQuery(c, table, folderId, offset, perPage, boostyEnabled);
    OfKind(es, Row) +
      match NextQuery(es)
      case None => []
      case Some(q) => FollowRows(c, table, q.0, q.1, perPage, boostyEnabled)
  }

  /** One row per item, in order. */
  function RowsOf(c: Constructors, items: seq<Item>): (r: seq<Entry>)
    requires AllConstructible(c, items)
    ensures |r| == |items| && forall n :: 0 <= n < |items| ==> r[n] == ItemRow(c, items[n]).value
  {
    seq(|items|, n requires 0 <= n < |items| && AllConstructible(c, items) => ItemRow(c, items[n]).value)
  }

  /** One step of following: this page's rows, then the rest from the offset
      the next-page element carries. */
  lemma FollowRowsStep(c: Constructors, table: seq<Item>, folderId: Option<int>,
                       offset: nat, perPage: nat, boostyEnabled: bool)
    requires perPage > 0 && AllConstructible(c, Children(table, folderId))
    ensures AllConstructible(c, Paging.Window(Children(table, folderId), perPage, offset))
    ensures |Children(table, folderId)| > offset + perPage ==>
              FollowRows(c, table, folderId, offset, perPage, boostyEnabled) ==
              Rows(c, Paging.Window(Children(table, folderId), perPage, offset)).value +
              FollowRows(c, table, folderId, offset + perPage, perPage, boostyEnabled)
    ensures |Children(table, folderId)| <= offset + perPage ==>
              FollowRows(c, table, folderId, offset, perPage, boostyEnabled) ==
              Rows(c, Paging.Window(Children(table, folderId), perPage, offset)).value
  {
    var all := Children(table, folderId);
    WindowConstructible(c, all, perPage, offset);
    var es := ListItems(c, table, folderId, offset, perPage, boostyEnabled).value;
    assert OfKind(es, Row) == Rows(c, Paging.Window(all, perPage, offset)).value by {
      ListItemsRowKind(c, table, folderId, offset, perPage, boostyEnabled);
    }
    if |all| > offset + perPage {
      assert NextQuery(es) == Some((folderId, offset + perPage)) by {
        PageNextQuery(c, table, folderId, offset, perPage, boostyEnabled);
      }
      assert FollowRows(c, table, folderId, offset, perPage, boostyEnabled) ==
             OfKind(es, Row) + FollowRows(c, table, folderId, offset + perPage, perPage, boostyEnabled);
    } else {
      assert NextQuery(es) == None by {
        PageNextQuery(c, table, folderId, offset, perPage, boostyEnabled);
      }
      assert FollowRows(c, table, folderId, offset, perPage, boostyEnabled) == OfKind(es, Row) + [];
      assert OfKind(es, Row) + [] == OfKind(es, Row);
    }
  }

  /** A page that has a next-page element shows a full page of the folder's
      rows, and following it continues `perPage` items further on. */
  lemma FollowRowsMore(c: Constructors, table: seq<Item>, folderId: Option<int>,
                       offset: nat, perPage: nat, boostyEnabled: bool)
    requires perPage > 0 && AllConstructible(c, Children(table, folderId))
    requires |Children(table, folderId)| > offset + perPage
    ensures FollowRows(c, table, folderId, offset, perPage, boostyEnabled) ==
              RowsOf(c, Children(table, folderId))[offset..offset + perPage] +
              FollowRows(c, table, folderId, offset + perPage, perPage, boostyEnabled)
  {
    var all := Children(table, folderId);
    assert Paging.Min(perPage, |all| - offset) == perPage;
    RowsOfWindow(c, all, perPage, offset);
    assert Rows(c, Paging.Window(all, perPage, offset)).value == RowsOf(c, all)[offset..offset + perPage];
    FollowRowsStep(c, table, folderId, offset, perPage, boostyEnabled);
  }

  /** A page without a next-page element shows the rest of the folder. */
  lemma FollowRowsLast(c: Constructors, table: seq<Item>, folderId: Option<int>,
                       offset: nat, perPage: nat, boostyEnabled: bool)
    requires perPage > 0 && AllConstructible(c, Children(table, folderId))
    requires offset <= |Children(table, folderId)| <= offset + perPage
    ensures FollowRows(c, table, folderId, offset, perPage, boostyEnabled) ==
              RowsOf(c, Children(table, folderId))[offset..]
  {
    FollowRowsStep(c, table, folderId, offset, perPage, boostyEnabled);
    RowsOfLastWindow(c, Children(table, folderId), perPage, offset);
  }

  /** Opening a folder and following next-page elements shows every item of
      the folder exactly once, in table order. */
  lemma {:induction false} FollowRowsCoversFolder(c: Constructors, table: seq<Item>, folderId: Option<int>,
                                                  offset: nat, perPage: nat, boostyEnabled: bool)
    requires perPage > 0 && AllConstructible(c, Children(table, folderId))
    requires offset <= |Children(table, folderId)|
    ensures FollowRows(c, table, folderId, offset, perPage, boostyEnabled) ==
              RowsOf(c, Children(table, folderId))[offset..]
    decreases |Children(table, folderId)| - offset
  {
    if |Children(table, folderId)| > offset + perPage {
      FollowRowsMore(c, table, folderId, offset, perPage, boostyEnabled);
      FollowRowsCoversFolder(c, table, folderId, offset + perPage, perPage, boostyEnabled);
      Paging.SliceSplit(RowsOf(c, Children(table, folderId)), offset, offset + perPage);
    } else {
      FollowRowsLast(c, table, folderId, offset, perPage, boostyEnabled);
    }
  }

  /** The last window of a folder holds the rows of the rest of it. */
  lemma RowsOfLastWindow(c: Constructors, all: seq<Item>, perPage: nat, offset: nat)
    requires AllConstructible(c, all) && offset <= |all| <= offset + perPage
    ensures AllConstructible(c, Paging.Window(all, perPage, offset))
    ensures Rows(c, Paging.Window(all, perPage, offset)).value == RowsOf(c, all)[offset..]
  {
    RowsOfWindow(c, all, perPage, offset);
    assert Paging.Min(perPage, |all| - offset) == |all| - offset;
  }

  lemma RowsOfWindow(c: Constructors, all: seq<Item>, perPage: nat, offset: nat)
    requires AllConstructible(c, all) && offset <= |all|
    ensures AllConstructible(c, Paging.Window(all, perPage, offset))
    ensures Rows(c, Paging.Window(all, perPage, offset)).value ==
              RowsOf(c, all)[offset..offset + Paging.Min(perPage, |all| - offset)]
  {
    WindowConstructible(c, all, perPage, offset);
    var w := Paging.Window(all, perPage, offset);
    assert forall n :: 0 <= n < |w| ==> w[n] == all[offset + n];
  }
}

=== FILE: pages_playlist_items.dfy ===
/** The playlist-item listing of resources/lib/pages/playlist_items.py and
    its `add_playlist_item` action.

    `list_playlist_items` shows, in order: "Add new item" (first page only),
    one page of the playlist's items, each played through the main player
    route, and a next-page element. With no playlist given it lists the items
    that belong to no playlist ("Added").

    The next-page element as written carries only the new offset, so the
    page it opens lists the items of no playlist instead of continuing the
    playlist. `ListPlaylistItemsAsWritten` models that code;
    `ListPlaylistItems` forwards the playlist and is the one the rest of the
    model uses. */
module PagesPlaylistItems {
  import opened Wrappers
  import opened PyJson
  import opened Storage
  import opened Directory
  import Paging

  const ListPlaylistItemsRoute := "resources.lib.pages.playlist_items.list_playlist_items"
  const AddPlaylistItemRoute := "resources.lib.pages.playlist_items.add_playlist_item"
  const DeletePlaylistItemRoute := "resources.lib.pages.playlist_items.delete_playlist_item"
  const PlayVideoRoute := "resources.lib.main.play_video"

  /** `PlaylistItem.select(playlist_id=playlist_id)`: the playlist's items in
      table order. */
  function Members(table: seq<PlaylistItem>, playlistId: Option<string>): (r: seq<PlaylistItem>)
    ensures |r| <= |table|
    ensures forall i :: i in r <==> i in table && i.playlistId == playlistId
  {
    if table == [] then []
    else
      assert forall i :: i in table <==> i == table[0] || i in table[1..];
      (if table[0].playlistId == playlistId then [table[0]] else []) + Members(table[1..], playlistId)
  }

  /** "Add new item" for the playlist being shown. */
  function AddEntry(playlistId: Option<string>): Entry {
    ShortcutEntry("Add new item", Link(AddPlaylistItemRoute, [("playlist_id", OptVal(playlistId))]), false)
  }

  function Head(playlistId: Option<string>, offset: int): seq<Entry> {
    if offset < 1 then [AddEntry(playlistId)] else []
  }

  /** One item's row: played from its page URL, with Delete in its menu. */
  function ItemRow(i: PlaylistItem): Entry {
    Entry(Row, Link(PlayVideoRoute, [("page_url", PyStr(i.url))]), false, true,
          [Link(DeletePlaylistItemRoute, [("item_id", PyStr(i.id))])])
  }

  function RowsOf(items: seq<PlaylistItem>): (r: seq<Entry>)
    ensures |r| == |items|
    ensures forall n :: 0 <= n < |items| ==> r[n] == ItemRow(items[n])
  {
    seq(|items|, n requires 0 <= n < |items| => ItemRow(items[n]))
  }

  function PageOf(table: seq<PlaylistItem>, playlistId: Option<string>, offset: nat, perPage: nat): Paging.Page<PlaylistItem> {
    Paging.LookAhead(Members(table, playlistId), perPage, offset)
  }

  /** `create_next_element(list_playlist_items, offset=offset)`. */
  function AsWrittenLink(offset: int): Link {
    Link(ListPlaylistItemsRoute, [("offset", PyInt(offset))])
  }

  /** The same element with the playlist passed along. */
  function ForwardingLink(playlistId: Option<string>, offset: int): Link {
    Link(ListPlaylistItemsRoute, [("offset", PyInt(offset)), ("playlist_id", OptVal(playlistId))])
  }

  /** `list_playlist_items(items_per_page, offset, playlist_id)` as written. */
  function ListPlaylistItemsAsWritten(table: seq<PlaylistItem>, playlistId: Option<string>,
                                      offset: nat, perPage: nat): seq<Entry>
  {
    var page := PageOf(table, playlistId, offset, perPage);
    Head(playlistId, offset) + RowsOf(page.shown) +
      (if page.next.Some? then [NextEntry(AsWrittenLink(page.next.value))] else [])
  }

  /** `list_playlist_items` with the next-page element keeping the playlist. */
  function ListPlaylistItems(table: seq<PlaylistItem>, playlistId: Option<string>,
                             offset: nat, perPage: nat): seq<Entry>
  {
    var page := PageOf(table, playlistId, offset, perPage);
    Head(playlistId, offset) + RowsOf(page.shown) +
      (if page.next.Some? then [NextEntry(ForwardingLink(playlistId, page.next.value))] else [])
  }

  // ---------------------------------------------------------------------------
  // What a page shows

  lemma LayoutOfPage(table: seq<PlaylistItem>, playlistId: Option<string>, offset: nat, perPage: nat)
    ensures var page := PageOf(table, playlistId, offset, perPage);
            var tail := if page.next.Some? then [NextEntry(ForwardingLink(playlistId, page.next.value))] else [];
            ListPlaylistItems(table, playlistId, offset, perPage) == Head(playlistId, offset) + RowsOf(page.shown) + tail &&
            Layout(Head(playlistId, offset), RowsOf(page.shown), tail)
  {
  }

  /** "Add new item", carrying the playlist, only on the first page. */
  lemma ListPlaylistItemsShortcuts(table: seq<PlaylistItem>, playlistId: Option<string>, offset: nat, perPage: nat)
    ensures OfKind(ListPlaylistItems(table, playlistId, offset, perPage), Shortcut("Add new item")) ==
              (if offset < 1 then [AddEntry(playlistId)] else [])
    ensures Arg(AddEntry(playlistId).target, "playlist_id") == Some(OptVal(playlistId)) && !AddEntry(playlistId).isFolder
  {
    var page := PageOf(table, playlistId, offset, perPage);
    var tail := if page.next.Some? then [NextEntry(ForwardingLink(playlistId, page.next.value))] else [];
    LayoutOfPage(table, playlistId, offset, perPage);
    LayoutShortcut(Head(playlistId, offset), RowsOf(page.shown), tail, "Add new item");
  }

  /** Rows: at most a page of the playlist's items, in order, each playable,
      not a folder, and played from the item's URL. */
  lemma ListPlaylistItemsRows(table: seq<PlaylistItem>, playlistId: Option<string>, offset: nat, perPage: nat)
    ensures var rows := OfKind(ListPlaylistItems(table, playlistId, offset, perPage), Row);
            var w := Paging.Window(Members(table, playlistId), perPage, offset);
            |rows| == |w| <= perPage &&
            forall n :: 0 <= n < |w| ==>
              w[n].playlistId == playlistId &&
              rows[n].playable && !rows[n].isFolder &&
              rows[n].target.route == PlayVideoRoute &&
              Arg(rows[n].target, "page_url") == Some(PyStr(w[n].url))
  {
    var page := PageOf(table, playlistId, offset, perPage);
    var tail := if page.next.Some? then [NextEntry(ForwardingLink(playlistId, page.next.value))] else [];
    LayoutOfPage(table, playlistId, offset, perPage);
    LayoutRows(Head(playlistId, offset), RowsOf(page.shown), tail);
    var w := page.shown;
    forall n | 0 <= n < |w|
      ensures w[n].playlistId == playlistId
    {
      assert w[n] in Members(table, playlistId);
    }
  }

  // ---------------------------------------------------------------------------
  // Following next-page elements

  /** The playlist and offset `list_playlist_items` reads from a link (None
      and 0 when absent), or None when the link does not carry them as the
      handler's types require. */
  function ItemsQuery(l: Link): (r: Option<(Option<string>, nat)>)
    ensures r.Some? ==> l.route == ListPlaylistItemsRoute
  {
    if l.route != ListPlaylistItemsRoute then None
    else
      var p := match Arg(l, "playlist_id")
               case None => Some(None)
               case Some(PyNone) => Some(None)
               case Some(PyStr(s)) => Some(Some(s))
               case Some(_) => None;
      var o := match Arg(l, "offset")
               case None => Some(0)
               case Some(PyInt(i)) => if i >= 0 then Some(i) else None
               case Some(_) => None;
      if p.Some? && o.Some? then Some((p.value, o.value as nat)) else None
  }

  /** The playlist and offset a listing's next-page element reads back as,
      or None when the listing has none. */
  function NextQuery(es: seq<Entry>): Option<(Option<string>, nat)> {
    var nx := OfKind(es, Next);
    if nx == [] then None else ItemsQuery(nx[0].target)
  }

  lemma AsWrittenLinkReadsBack(offset: nat)
    ensures ItemsQuery(AsWrittenLink(offset)) == Some((None, offset))
  {
    var l := AsWrittenLink(offset);
    assert Arg(l, "offset") == Some(PyInt(offset));
    assert l.args[1..] == [];
    assert Arg(l, "playlist_id") == None;
  }

  lemma ForwardingLinkReadsBack(playlistId: Option<string>, offset: nat)
    ensures ItemsQuery(ForwardingLink(playlistId, offset)) == Some((playlistId, offset))
  {
    var l := ForwardingLink(playlistId, offset);
    assert Arg(l, "offset") == Some(PyInt(offset));
    assert l.args[1..] == [("playlist_id", OptVal(playlistId))];
    assert Arg(l, "playlist_id") == Some(OptVal(playlistId));
  }

  /** The query of a page laid out with the given tail. */
  lemma LayoutNextQuery(head: seq<Entry>, rows: seq<Entry>, tail: seq<Entry>)
    requires Layout(head, rows, tail)
    ensures NextQuery(head + rows + tail) == if tail == [] then None else ItemsQuery(tail[0].target)
  {
    LayoutNext(head, rows, tail);
  }

  lemma LayoutOfPageAsWritten(table: seq<PlaylistItem>, playlistId: Option<string>, offset: nat, perPage: nat)
    ensures var page := PageOf(table, playlistId, offset, perPage);
            var tail := if page.next.Some? then [NextEntry(AsWrittenLink(page.next.value))] else [];
            ListPlaylistItemsAsWritten(table, playlistId, offset, perPage) == Head(playlistId, offset) + RowsOf(page.shown) + tail &&
            Layout(Head(playlistId, offset), RowsOf(page.shown), tail)
  {
  }

  /** As written, the next-page element reads back with no playlist at all. */
  lemma AsWrittenNextDropsPlaylist(table: seq<PlaylistItem>, playlistId: Option<string>, offset: nat, perPage: nat)
    ensures NextQuery(ListPlaylistItemsAsWritten(table, playlistId, offset, perPage)) ==
              if |Members(table, playlistId)| > offset + perPage then Some((None, offset + perPage)) else None
  {
    var page := PageOf(table, playlistId, offset, perPage);
    var tail := if page.next.Some? then [NextEntry(AsWrittenLink(page.next.value))] else [];
    LayoutOfPageAsWritten(table, playlistId, offset, perPage);
    LayoutNextQuery(Head(playlistId, offset), RowsOf(page.shown), tail);
    AsWrittenLinkReadsBack(offset + perPage);
  }

  /** As written, the rows are still those of the page's window. */
  lemma AsWrittenRows(table: seq<PlaylistItem>, playlistId: Option<string>, offset: nat, perPage: nat)
    ensures OfKind(ListPlaylistItemsAsWritten(table, playlistId, offset, perPage), Row) ==
              RowsOf(Paging.Window(Members(table, playlistId), perPage, offset))
  {
    var page := PageOf(table, playlistId, offset, perPage);
    var tail := if page.next.Some? then [NextEntry(AsWrittenLink(page.next.value))] else [];
    LayoutOfPageAsWritten(table, playlistId, offset, perPage);
    LayoutRows(Head(playlistId, offset), RowsOf(page.shown), tail);
  }

  /** As written, a listing of a playlist with no saved items shows no rows. */
  lemma AsWrittenNoMembersNoRows(table: seq<PlaylistItem>, playlistId: Option<string>, offset: nat, perPage: nat)
    requires Members(table, playlistId) == []
    ensures OfKind(ListPlaylistItemsAsWritten(table, playlistId, offset, perPage), Row) == []
  {
    AsWrittenRows(table, playlistId, offset, perPage);
  }

  /** As written, a first page of one item shows the playlist's first item. */
  lemma AsWrittenFirstRow(table: seq<PlaylistItem>, playlistId: Option<string>)
    requires |Members(table, playlistId)| > 0
    ensures OfKind(ListPlaylistItemsAsWritten(table, playlistId, 0, 1), Row) == [ItemRow(Members(table, playlistId)[0])]
  {
    AsWrittenRows(table, playlistId, 0, 1);
  }

  /** Playlist `p` of the table `[a, b]` holds both items, and no item is
      outside every playlist. */
  lemma TwoItemMembers(a: PlaylistItem, b: PlaylistItem, p: string)
    requires a.playlistId == Some(p) && b.playlistId == Some(p)
    ensures Members([a, b], Some(p)) == [a, b]
    ensures Members([a, b], None) == []
  {
    var t := [a, b];
    assert t[1..] == [b] && [b][1..] == [];
    assert Members([b], Some(p)) == [b];
    assert Members([b], None) == [];
  }

  /** A playlist of two items shown one per page: following the next-page
      element as written opens an empty listing, so the second item is never
      shown. */
  lemma AsWrittenLosesSecondItem(a: PlaylistItem, b: PlaylistItem, p: string)
    requires a.playlistId == Some(p) && b.playlistId == Some(p) && a.url != b.url
    ensures var q := NextQuery(ListPlaylistItemsAsWritten([a, b], Some(p), 0, 1));
            q == Some((None, 1)) &&
            OfKind(ListPlaylistItemsAsWritten([a, b], q.value.0, q.value.1, 1), Row) == [] &&
            ItemRow(b) !in OfKind(ListPlaylistItemsAsWritten([a, b], Some(p), 0, 1), Row)
  {
    TwoItemMembers(a, b, p);
    AsWrittenSecondPageQuery([a, b], p);
    AsWrittenNoMembersNoRows([a, b], None, 1, 1);
    AsWrittenFirstRowOnly([a, b], a, b, p);
  }

  /** As written, the next-page element of a first page of one item, in a
      playlist of more, opens the items outside every playlist at offset 1. */
  lemma AsWrittenSecondPageQuery(t: seq<PlaylistItem>, p: string)
    requires |Members(t, Some(p))| > 1
    ensures NextQuery(ListPlaylistItemsAsWritten(t, Some(p), 0, 1)) == Some((None, 1))
  {
    var page := PageOf(t, Some(p), 0, 1);
    var tail := if page.next.Some? then [NextEntry(AsWrittenLink(page.next.value))] else [];
    assert page.next == Some(1);
    LayoutOfPageAsWritten(t, Some(p), 0, 1);
    LayoutNextQuery(Head(Some(p), 0), RowsOf(page.shown), tail);
    AsWrittenLinkReadsBack(1);
  }

  /** As written, a first page of one item of `[a, b]` does not show `b`. */
  lemma AsWrittenFirstRowOnly(t: seq<PlaylistItem>, a: PlaylistItem, b: PlaylistItem, p: string)
    requires Members(t, Some(p)) == [a, b] && a.url != b.url
    ensures ItemRow(b) !in OfKind(ListPlaylistItemsAsWritten(t, Some(p), 0, 1), Row)
  {
    AsWrittenFirstRow(t, Some(p));
    assert ItemRow(a).target.args[0].1 != ItemRow(b).target.args[0].1;
  }

  /** With the playlist forwarded, the next-page element reopens the same
      playlist `perPage` items further on, exactly when more items exist. */
  lemma PageNextQuery(table: seq<PlaylistItem>, playlistId: Option<string>, offset: nat, perPage: nat)
    ensures NextQuery(ListPlaylistItems(table, playlistId, offset, perPage)) ==
              if |Members(table, playlistId)| > offset + perPage then Some((playlistId, offset + perPage)) else None
  {
    var page := PageOf(table, playlistId, offset, perPage);
    var tail := if page.next.Some? then [NextEntry(ForwardingLink(playlistId, page.next.value))] else [];
    LayoutOfPage(table, playlistId, offset, perPage);
    LayoutNextQuery(Head(playlistId, offset), RowsOf(page.shown), tail);
    ForwardingLinkReadsBack(playlistId, offset + perPage);
  }

  /** The rows a user sees opening the listing at `offset` and then following
      each page's next-page element, read back from its link, until a page
      has none. */
  ghost function FollowRows(table: seq<PlaylistItem>, playlistId: Option<string>, offset: nat, perPage: nat): seq<Entry>
    requires perPage > 0
    decreases |Members(table, playlistId)| - offset
  {
    var es := ListPlaylistItems(table, playlistId, offset, perPage);
    PageNextQuery(table, playlistId, offset, perPage);
    OfKind(es, Row) +
      match NextQuery(es)
      case None => []
      case Some(q) => FollowRows(table, q.0, q.1, perPage)
  }

  lemma FollowRowsStep(table: seq<PlaylistItem>, playlistId: Option<string>, offset: nat, perPage: nat)
    requires perPage > 0
    ensures FollowRows(table, playlistId, offset, perPage) ==
              RowsOf(Paging.Window(Members(table, playlistId), perPage, offset)) +
              if |Members(table, playlistId)| > offset + perPage
              then FollowRows(table, playlistId, offset + perPage, perPage) else []
  {
    var page := PageOf(table, playlistId, offset, perPage);
    var tail := if page.next.Some? then [NextEntry(ForwardingLink(playlistId, page.next.value))] else [];
    LayoutOfPage(table, playlistId, offset, perPage);
    LayoutRows(Head(playlistId, offset), RowsOf(page.shown), tail);
    PageNextQuery(table, playlistId, offset, perPage);
  }

  lemma RowsOfSlice(all: seq<PlaylistItem>, perPage: nat, offset: nat)
    requires offset <= |all|
    ensures RowsOf(Paging.Window(all, perPage, offset)) == RowsOf(all)[offset..offset + Paging.Min(perPage, |all| - offset)]
  {
    var w := Paging.Window(all, perPage, offset);
    assert forall n :: 0 <= n < |w| ==> w[n] == all[offset + n];
  }

  lemma FollowRowsStepMore(table: seq<PlaylistItem>, playlistId: Option<string>, offset: nat, perPage: nat)
    requires perPage > 0 && |Members(table, playlistId)| > offset + perPage
    ensures FollowRows(table, playlistId, offset, perPage) ==
              RowsOf(Paging.Window(Members(table, playlistId), perPage, offset)) +
              FollowRows(table, playlistId, offset + perPage, perPage)
  {
    FollowRowsStep(table, playlistId, offset, perPage);
  }

  lemma RowsOfFullWindow(all: seq<PlaylistItem>, perPage: nat, offset: nat)
    requires |all| > offset + perPage
    ensures RowsOf(Paging.Window(all, perPage, offset)) == RowsOf(all)[offset..offset + perPage]
  {
    RowsOfSlice(all, perPage, offset);
  }

  lemma FollowRowsMore(table: seq<PlaylistItem>, playlistId: Option<string>, offset: nat, perPage: nat)
    requires perPage > 0 && |Members(table, playlistId)| > offset + perPage
    ensures FollowRows(table, playlistId, offset, perPage) ==
              RowsOf(Members(table, playlistId))[offset..offset + perPage] +
              FollowRows(table, playlistId, offset + perPage, perPage)
  {
    FollowRowsStepMore(table, playlistId, offset, perPage);
    RowsOfFullWindow(Members(table, playlistId), perPage, offset);
  }

  lemma FollowRowsLast(table: seq<PlaylistItem>, playlistId: Option<string>, offset: nat, perPage: nat)
    requires perPage > 0 && offset <= |Members(table, playlistId)| <= offset + perPage
    ensures FollowRows(table, playlistId, offset, perPage) == RowsOf(Members(table, playlistId))[offset..]
  {
    var all := Members(table, playlistId);
    var w := RowsOf(Paging.Window(all, perPage, offset));
    FollowRowsStep(table, playlistId, offset, perPage);
    assert FollowRows(table, playlistId, offset, perPage) == w + [];
    assert Paging.Min(perPage, |all| - offset) == |all| - offset;
    RowsOfSlice(all, perPage, offset);
    assert w == RowsOf(all)[offset..];
  }

  /** With the playlist forwarded, opening a playlist and following next-page
      elements plays every item of the playlist exactly once, in table order. */
  lemma {:induction false} FollowRowsCoversPlaylist(table: seq<PlaylistItem>, playlistId: Option<string>,
                                                    offset: nat, perPage: nat)
    requires perPage > 0 && offset <= |Members(table, playlistId)|
    ensures FollowRows(table, playlistId, offset, perPage) == RowsOf(Members(table, playlistId))[offset..]
    decreases |Members(table, playlistId)| - offset
  {
    if |Members(table, playlistId)| > offset + perPage {
      FollowRowsMore(table, playlistId, offset, perPage);
      FollowRowsCoversPlaylist(table, playlistId, offset + perPage, perPage);
      Paging.SliceSplit(RowsOf(Members(table, playlistId)), offset, offset + perPage);
    } else {
      FollowRowsLast(table, playlistId, offset, perPage);
    }
  }

  // ---------------------------------------------------------------------------
  // Adding an item

  /** `add_playlist_item`: the item saved when the prompt returned a URL
      (`id` is the key storage assigns), nothing when it was cancelled. */
  function AddPlaylistItem(prompt: Option<string>, playlistId: Option<string>, id: string): (r: Option<PlaylistItem>)
    ensures r.Some? <==> prompt.Some?
    ensures r.Some? ==> r.value.playlistId == playlistId && r.value.url == prompt.value
  {
    match prompt
    case None => None
    case Some(url) => Some(PlaylistItem(id, playlistId, url))
  }

  /** A saved item becomes the last item of its playlist, and the playlist's
      other items stay as they were. */
  lemma AddedItemIsListedLast(table: seq<PlaylistItem>, url: string, playlistId: Option<string>, id: string)
    ensures var i := AddPlaylistItem(Some(url), playlistId, id).value;
            Members(table + [i], playlistId) == Members(table, playlistId) + [i]
  {
    var i := AddPlaylistItem(Some(url), playlistId, id).value;
    MembersAppend(table, [i], playlistId);
    assert Members([i], playlistId) == [i];
  }

  lemma {:induction false} MembersAppend(a: seq<PlaylistItem>, b: seq<PlaylistItem>, playlistId: Option<string>)
    ensures Members(a + b, playlistId) == Members(a, playlistId) + Members(b, playlistId)
  {
    if a == [] {
      assert a + b == b;
    } else {
      assert (a + b)[0] == a[0];
      assert (a + b)[1..] == a[1..] + b;
      MembersAppend(a[1..], b, playlistId);
    }
  }
}

=== FILE: pages_playlists.dfy ===
/** The playlist listing of resources/lib/pages/playlists.py and its URL
    constructor for MANUAL playlists.

    `list_playlists` shows, in order: "Create playlist" (first page only),
    the Boosty shortcut (on every page, when enabled), the "Added" folder of
    items that belong to no playlist, one page of playlists, and a next-page
    element. */
module PagesPlaylists {
  import opened Wrappers
  import opened PyJson
  import opened Storage
  import opened Directory
  import Utils
  import Paging

  const ListPlaylistsRoute := "resources.lib.pages.playlists.list_playlists"
  const CreatePlaylistRoute := "resources.lib.pages.playlists.create_playlist"
  const EditPlaylistRoute := "resources.lib.pages.playlists.edit_playlist"
  const DeletePlaylistRoute := "resources.lib.pages.playlists.delete_playlist"
  const ListPlaylistItemsRoute := "resources.lib.pages.playlist_items.list_playlist_items"
  const AddPlaylistItemRoute := "resources.lib.pages.playlist_items.add_playlist_item"
  const SubscriptionsRoute := "resources.lib.pages.boosty.list_subscriptions"

  /** The page's own `url_construct`, keyed by playlist type. */
  type Constructors = Utils.UrlConstructor<PlaylistType, Playlist, Link>

  /** `get_items_url`: the playlist's items, titled after it. */
  function ItemsUrl(p: Playlist): Result<Link> {
    Ok(Link(ListPlaylistItemsRoute, [("playlist_id", PyStr(p.id)), ("title", PyStr(p.title))]))
  }

  /** The registry after the page registers MANUAL and nothing else. */
  function PlaylistConstructors(): (c: Constructors)
    ensures c.table.Keys == {Manual}
    ensures forall p: Playlist :: Utils.Call(c, Manual, p) == ItemsUrl(p)
  {
    Utils.Register(Utils.Empty(), Manual, ItemsUrl)
  }

  function CreateEntry(): Entry {
    ShortcutEntry("Create playlist", Link(CreatePlaylistRoute, []), false)
  }

  function BoostyEntry(): Entry {
    ShortcutEntry("Boosty", Link(SubscriptionsRoute, []), true)
  }

  /** "Added": the playlist-item listing with no playlist given. */
  function AddedEntry(): Entry {
    ShortcutEntry("Added", Link(ListPlaylistItemsRoute, [("title", PyStr("Added"))]), true)
  }

  function Head(offset: int, boostyEnabled: bool): seq<Entry> {
    (if offset < 1 then [CreateEntry()] else []) +
    (if boostyEnabled then [BoostyEntry()] else []) +
    [AddedEntry()]
  }

  /** Add source, Edit and Delete, each naming the playlist. */
  function PlaylistMenu(p: Playlist): seq<Link> {
    [Link(AddPlaylistItemRoute, [("playlist_id", PyStr(p.id))]),
     Link(EditPlaylistRoute, [("playlist_id", PyStr(p.id))]),
     Link(DeletePlaylistRoute, [("playlist_id", PyStr(p.id))])]
  }

  /** One playlist's row: a folder opening what its type's constructor builds. */
  function PlaylistRow(p: Playlist): (r: Result<Entry>)
    ensures r.Ok? <==> p.typeName == Manual
    ensures r.Err? ==> r.error == Utils.NotFound
  {
    var url :- Utils.Call(PlaylistConstructors(), p.typeName, p);
    Ok(Entry(Row, url, true, false, PlaylistMenu(p)))
  }

  /** Every playlist has the one registered type. */
  predicate AllManual(ps: seq<Playlist>) {
    forall n :: 0 <= n < |ps| ==> ps[n].typeName == Manual
  }

  function Rows(ps: seq<Playlist>): (r: Result<seq<Entry>>)
    ensures r.Ok? <==> AllManual(ps)
    ensures r.Ok? ==> |r.value| == |ps| && forall n :: 0 <= n < |ps| ==> r.value[n] == PlaylistRow(ps[n]).value
    ensures r.Err? ==> r.error == Utils.NotFound
  {
    MapAll(ps, PlaylistRow)
  }

  /** The link of `list_playlists` at an offset. */
  function PlaylistsLink(offset: int): Link {
    Link(ListPlaylistsRoute, [("offset", PyInt(offset))])
  }

  function NextOf(next: Option<nat>): seq<Entry> {
    match next
    case None => []
    case Some(o) => [NextEntry(PlaylistsLink(o))]
  }

  /** `list_playlists(items_per_page, offset)` over the saved playlists. */
  function ListPlaylists(table: seq<Playlist>, offset: nat, perPage: nat, boostyEnabled: bool): (r: Result<seq<Entry>>)
    ensures r.Ok? <==> AllManual(Paging.Window(table, perPage, offset))
    ensures r.Err? ==> r.error == Utils.NotFound
  {
    var page := Paging.LookAhead(table, perPage, offset);
    var rows :- Rows(page.shown);
    Ok(Head(offset, boostyEnabled) + rows + NextOf(page.next))
  }

  // ---------------------------------------------------------------------------
  // What a page shows

  lemma HeadAreShortcuts(offset: int, boostyEnabled: bool)
    ensures forall n :: 0 <= n < |Head(offset, boostyEnabled)| ==> Head(offset, boostyEnabled)[n].kind.Shortcut?
  {
    var c := if offset < 1 then [CreateEntry()] else [];
    var b := if boostyEnabled then [BoostyEntry()] else [];
    assert Head(offset, boostyEnabled) == c + b + [AddedEntry()];
  }

  lemma RowsAreRows(ps: seq<Playlist>)
    requires AllManual(ps)
    ensures forall n :: 0 <= n < |Rows(ps).value| ==> Rows(ps).value[n].kind == Row
  {
    forall n | 0 <= n < |ps|
      ensures Rows(ps).value[n].kind == Row
    {
      assert PlaylistRow(ps[n]).Ok?;
    }
  }

  lemma ListPlaylistsLayout(table: seq<Playlist>, offset: nat, perPage: nat, boostyEnabled: bool)
    requires ListPlaylists(table, offset, perPage, boostyEnabled).Ok?
    ensures var page := Paging.LookAhead(table, perPage, offset);
            var rows := Rows(page.shown).value;
            ListPlaylists(table, offset, perPage, boostyEnabled).value == Head(offset, boostyEnabled) + rows + NextOf(page.next) &&
            Layout(Head(offset, boostyEnabled), rows, NextOf(page.next))
  {
    var page := Paging.LookAhead(table, perPage, offset);
    HeadAreShortcuts(offset, boostyEnabled);
    RowsAreRows(page.shown);
  }

  /** The shortcuts of the head, by name, are those of its three parts. */
  lemma HeadParts(offset: int, boostyEnabled: bool, name: string)
    ensures OfKind(Head(offset, boostyEnabled), Shortcut(name)) ==
              OfKind(if offset < 1 then [CreateEntry()] else [], Shortcut(name)) +
              OfKind(if boostyEnabled then [BoostyEntry()] else [], Shortcut(name)) +
              OfKind([AddedEntry()], Shortcut(name))
  {
    var c := if offset < 1 then [CreateEntry()] else [];
    var b := if boostyEnabled then [BoostyEntry()] else [];
    OfKindAppend(c + b, [AddedEntry()], Shortcut(name));
    OfKindAppend(c, b, Shortcut(name));
  }

  lemma HeadCreate(offset: int, boostyEnabled: bool)
    ensures OfKind(Head(offset, boostyEnabled), Shortcut("Create playlist")) == (if offset < 1 then [CreateEntry()] else [])
  {
    var k := Shortcut("Create playlist");
    HeadParts(offset, boostyEnabled, "Create playlist");
    OfKindOptional(offset < 1, CreateEntry(), k);
    assert BoostyEntry().kind != k by { assert "Boosty"[0] != "Create playlist"[0]; }
    OfKindOptional(boostyEnabled, BoostyEntry(), k);
    assert AddedEntry().kind != k by { assert "Added"[0] != "Create playlist"[0]; }
    OfKindOptional(true, AddedEntry(), k);
  }

  lemma HeadBoosty(offset: int, boostyEnabled: bool)
    ensures OfKind(Head(offset, boostyEnabled), Shortcut("Boosty")) == (if boostyEnabled then [BoostyEntry()] else [])
  {
    var k := Shortcut("Boosty");
    HeadParts(offset, boostyEnabled, "Boosty");
    assert CreateEntry().kind != k by { assert "Boosty"[0] != "Create playlist"[0]; }
    OfKindOptional(offset < 1, CreateEntry(), k);
    OfKindOptional(boostyEnabled, BoostyEntry(), k);
    assert AddedEntry().kind != k by { assert "Added"[0] != "Boosty"[0]; }
    OfKindOptional(true, AddedEntry(), k);
  }

  lemma HeadAdded(offset: int, boostyEnabled: bool)
    ensures OfKind(Head(offset, boostyEnabled), Shortcut("Added")) == [AddedEntry()]
  {
    var k := Shortcut("Added");
    HeadParts(offset, boostyEnabled, "Added");
    assert CreateEntry().kind != k by { assert "Added"[0] != "Create playlist"[0]; }
    OfKindOptional(offset < 1, CreateEntry(), k);
    assert BoostyEntry().kind != k by { assert "Added"[0] != "Boosty"[0]; }
    OfKindOptional(boostyEnabled, BoostyEntry(), k);
    OfKindOptional(true, AddedEntry(), k);
  }

  lemma HeadShortcuts(offset: int, boostyEnabled: bool)
    ensures var h := Head(offset, boostyEnabled);
            OfKind(h, Shortcut("Create playlist")) == (if offset < 1 then [CreateEntry()] else []) &&
            OfKind(h, Shortcut("Boosty")) == (if boostyEnabled then [BoostyEntry()] else []) &&
            OfKind(h, Shortcut("Added")) == [AddedEntry()]
  {
    HeadCreate(offset, boostyEnabled);
    HeadBoosty(offset, boostyEnabled);
    HeadAdded(offset, boostyEnabled);
  }

  /** "Create playlist" only on the first page; Boosty on every page when
      enabled; "Added" on every page. */
  lemma ListPlaylistsShortcuts(table: seq<Playlist>, offset: nat, perPage: nat, boostyEnabled: bool)
    requires ListPlaylists(table, offset, perPage, boostyEnabled).Ok?
    ensures var es := ListPlaylists(table, offset, perPage, boostyEnabled).value;
            OfKind(es, Shortcut("Create playlist")) == (if offset < 1 then [CreateEntry()] else []) &&
            OfKind(es, Shortcut("Boosty")) == (if boostyEnabled then [BoostyEntry()] else []) &&
            OfKind(es, Shortcut("Added")) == [AddedEntry()]
  {
    var page := Paging.LookAhead(table, perPage, offset);
    var rows := Rows(page.shown).value;
    var h := Head(offset, boostyEnabled);
    ListPlaylistsLayout(table, offset, perPage, boostyEnabled);
    HeadShortcuts(offset, boostyEnabled);
    LayoutShortcut(h, rows, NextOf(page.next), "Create playlist");
    LayoutShortcut(h, rows, NextOf(page.next), "Boosty");
    LayoutShortcut(h, rows, NextOf(page.next), "Added");
  }

  /** Rows: one folder per playlist of the page, in order, at most a page of
      them, each opening that playlist's items and naming it in its menu. */
  lemma ListPlaylistsRows(table: seq<Playlist>, offset: nat, perPage: nat, boostyEnabled: bool)
    requires ListPlaylists(table, offset, perPage, boostyEnabled).Ok?
    ensures var rows := OfKind(ListPlaylists(table, offset, perPage, boostyEnabled).value, Row);
            var w := Paging.Window(table, perPage, offset);
            |rows| == |w| <= perPage &&
            forall n :: 0 <= n < |w| ==>
              w[n] == table[offset + n] &&
              rows[n].isFolder && !rows[n].playable &&
              rows[n].target.route == ListPlaylistItemsRoute &&
              Arg(rows[n].target, "playlist_id") == Some(PyStr(w[n].id)) &&
              |rows[n].menu| == 3 &&
              forall m :: 0 <= m < 3 ==> Arg(rows[n].menu[m], "playlist_id") == Some(PyStr(w[n].id))
  {
    var page := Paging.LookAhead(table, perPage, offset);
    var rows := Rows(page.shown).value;
    ListPlaylistsLayout(table, offset, perPage, boostyEnabled);
    LayoutRows(Head(offset, boostyEnabled), rows, NextOf(page.next));
    forall n | 0 <= n < |page.shown|
      ensures rows[n].isFolder && !rows[n].playable &&
              rows[n].target.route == ListPlaylistItemsRoute &&
              Arg(rows[n].target, "playlist_id") == Some(PyStr(page.shown[n].id)) &&
              |rows[n].menu| == 3 &&
              forall m :: 0 <= m < 3 ==> Arg(rows[n].menu[m], "playlist_id") == Some(PyStr(page.shown[n].id))
    {
      PlaylistRowNamesPlaylist(page.shown[n]);
    }
  }

  /** A playlist's row opens its items and names it in every menu action. */
  lemma PlaylistRowNamesPlaylist(p: Playlist)
    requires p.typeName == Manual
    ensures var e := PlaylistRow(p).value;
            e.isFolder && !e.playable && e.target.route == ListPlaylistItemsRoute &&
            Arg(e.target, "playlist_id") == Some(PyStr(p.id)) &&
            |e.menu| == 3 &&
            forall m :: 0 <= m < 3 ==> Arg(e.menu[m], "playlist_id") == Some(PyStr(p.id))
  {
    var e := PlaylistRow(p).value;
    assert e.target == ItemsUrl(p).value;
    assert e.menu == PlaylistMenu(p);
  }

  /** A page holding a playlist of another type fails with ValueError. */
  lemma UnregisteredTypeFails(table: seq<Playlist>, offset: nat, perPage: nat, boostyEnabled: bool, n: nat)
    requires n < |Paging.Window(table, perPage, offset)|
    requires Paging.Window(table, perPage, offset)[n].typeName != Manual
    ensures ListPlaylists(table, offset, perPage, boostyEnabled) == Err(Utils.NotFound)
  {
  }

  // ---------------------------------------------------------------------------
  // The next-page element

  /** The offset `list_playlists` reads from a link: 0 when absent, None when
      the link is for another handler or carries something else. */
  function PlaylistsQuery(l: Link): (r: Option<nat>)
    ensures r.Some? ==> l.route == ListPlaylistsRoute
  {
    if l.route != ListPlaylistsRoute then None
    else
      match Arg(l, "offset")
      case None => Some(0)
      case Some(PyInt(i)) => if i >= 0 then Some(i as nat) else None
      case Some(_) => None
  }

  /** The offset a next-page link carries is the one `list_playlists` reads back. */
  lemma PlaylistsLinkReadsBack(offset: nat)
    ensures PlaylistsQuery(PlaylistsLink(offset)) == Some(offset)
  {
    assert Arg(PlaylistsLink(offset), "offset") == Some(PyInt(offset));
  }

  /** A next-page element exactly when more playlists exist than this page
      reaches; it links to the listing `perPage` further on. */
  lemma ListPlaylistsNext(table: seq<Playlist>, offset: nat, perPage: nat, boostyEnabled: bool)
    requires ListPlaylists(table, offset, perPage, boostyEnabled).Ok?
    ensures var nx := OfKind(ListPlaylists(table, offset, perPage, boostyEnabled).value, Next);
            (nx != [] <==> |table| > offset + perPage) &&
            (nx != [] ==> nx == [NextEntry(PlaylistsLink(offset + perPage))])
  {
    var page := Paging.LookAhead(table, perPage, offset);
    ListPlaylistsLayout(table, offset, perPage, boostyEnabled);
    LayoutNext(Head(offset, boostyEnabled), Rows(page.shown).value, NextOf(page.next));
  }
}

=== FILE: pages_rutube.dfy ===
/** The Rutube pages of resources/lib/pages/rutube.py: a channel's videos
    (with Playlists and Shorts shortcuts on its first page), its playlists,
    one playlist's videos and its shorts. Each page asks the Rutube API for
    one page of a collection and offers a next-page element when the reply
    says `has_next`. */
module PagesRutube {
  import opened Wrappers
  import opened PyJson
  import opened Directory
  import RutubeClient

  const ChannelRoute := "resources.lib.pages.rutube.channel"
  const ListPlaylistsRoute := "resources.lib.pages.rutube.list_playlists"
  const ListPlaylistItemsRoute := "resources.lib.pages.rutube.list_playlist_items"
  const ListShortsRoute := "resources.lib.pages.rutube.list_shorts"
  const PlayVideoRoute := "resources.lib.main.play_video"

  /** The attributes `list_videos` reads from each video. */
  const VideoAttributes := ["video_url", "title", "description", "duration", "category", "thumbnail_url"]

  /** The attributes the playlist rows read. */
  const PlaylistAttributes := ["id", "title", "thumbnail_url"]

  predicate HasAll(m: RutubeClient.Model, names: seq<string>) {
    forall n :: 0 <= n < |names| ==> names[n] in m
  }

  /** Reads the listed attributes in order; the first missing one raises. */
  function Require(m: RutubeClient.Model, names: seq<string>): (r: Result<()>)
    ensures r.Ok? <==> HasAll(m, names)
    ensures r.Err? ==> r.error == AttributeError
  {
    if names == [] then Ok(())
    else
      var _ :- RutubeClient.Attr(m, names[0]);
      assert forall n :: 0 < n < |names| ==> names[n] == names[1..][n - 1];
      Require(m, names[1..])
  }

  /** One video of `list_videos`: played through the main play route by its
      page URL. */
  function VideoRow(v: RutubeClient.Model): (r: Result<Entry>)
    ensures r.Ok? <==> HasAll(v, VideoAttributes)
    ensures r.Ok? ==> "video_url" in v && r.value.kind == Row && r.value.playable && !r.value.isFolder &&
                      r.value.target == Link(PlayVideoRoute, [("page_url", v["video_url"])])
    ensures r.Err? ==> r.error == AttributeError
  {
    var _ :- Require(v, VideoAttributes);
    assert VideoAttributes[0] in v;
    Ok(Entry(Row, Link(PlayVideoRoute, [("page_url", v["video_url"])]), false, true, []))
  }

  /** One playlist: a folder opening its items by id. */
  function PlaylistRow(p: RutubeClient.Model): (r: Result<Entry>)
    ensures r.Ok? <==> HasAll(p, PlaylistAttributes)
    ensures r.Ok? ==> "id" in p && r.value.kind == Row && !r.value.playable && r.value.isFolder &&
                      r.value.target == Link(ListPlaylistItemsRoute, [("playlist_id", p["id"])])
    ensures r.Err? ==> r.error == AttributeError
  {
    var _ :- Require(p, PlaylistAttributes);
    assert PlaylistAttributes[0] in p;
    Ok(Entry(Row, Link(ListPlaylistItemsRoute, [("playlist_id", p["id"])]), true, false, []))
  }

  /** The link of a listing keyed by one id at a page. */
  function PageLink(route: string, key: string, id: PyVal, page: int): Link {
    Link(route, [(key, id), ("page", PyInt(page))])
  }

  /** Rows for every element of the collection, then a next-page element
      when it has a next page. */
  function Listing(col: RutubeClient.Collection, rowOf: RutubeClient.Model -> Result<Entry>, next: Link): (r: Result<seq<Entry>>)
    ensures r.Ok? <==> col.results.Some? && col.hasNext.Some? &&
                       forall n :: 0 <= n < |col.results.value| ==> rowOf(col.results.value[n]).Ok?
    ensures r.Err? ==> r.error == AttributeError || (col.results.Some? && exists n :: 0 <= n < |col.results.value| && rowOf(col.results.value[n]) == Err(r.error))
    ensures r.Ok? ==> var rows := MapAll(col.results.value, rowOf).value;
                      var tail := if col.hasNext.value then [NextEntry(next)] else [];
                      r.value == rows + tail
  {
    var ms :- RutubeClient.Iterate(col);
    var rows :- MapAll(ms, rowOf);
    var more :- RutubeClient.HasNext(col);
    Ok(rows + (if more then [NextEntry(next)] else []))
  }

  /** `Videos.list`, `Playlists.list`, ...: one page of a collection keyed by
      one id. */
  function Fetch(t: RutubeClient.Template, key: string, id: PyVal, page: int, session: RutubeClient.Session): Result<RutubeClient.Collection>
    requires key != "page"
  {
    RutubeClient.List(t, page, map[key := id], session)
  }

  function ChannelHead(channelId: string, page: int): seq<Entry> {
    if page < 2 then
      [ShortcutEntry("Playlists", Link(ListPlaylistsRoute, [("channel_id", PyStr(channelId))]), true),
       ShortcutEntry("Shorts", Link(ListShortsRoute, [("channel_id", PyStr(channelId))]), true)]
    else []
  }

  /** `channel(channel_id, page)`. */
  function Channel(session: RutubeClient.Session, channelId: string, page: int): (r: Result<seq<Entry>>)
    ensures r.Ok? ==> Fetch(RutubeClient.VideosPath, "person_id", PyStr(channelId), page, session).Ok?
    ensures Fetch(RutubeClient.VideosPath, "person_id", PyStr(channelId), page, session).Err? ==>
              r == Err(Fetch(RutubeClient.VideosPath, "person_id", PyStr(channelId), page, session).error)
  {
    var col :- Fetch(RutubeClient.VideosPath, "person_id", PyStr(channelId), page, session);
    var body :- Listing(col, VideoRow, PageLink(ChannelRoute, "channel_id", PyStr(channelId), page + 1));
    Ok(ChannelHead(channelId, page) + body)
  }

  /** `list_playlists(channel_id, page)`. */
  function ListPlaylists(session: RutubeClient.Session, channelId: string, page: int): (r: Result<seq<Entry>>)
    ensures r.Ok? ==> Fetch(RutubeClient.PlaylistsPath, "person_id", PyStr(channelId), page, session).Ok?
  {
    var col :- Fetch(RutubeClient.PlaylistsPath, "person_id", PyStr(channelId), page, session);
    Listing(col, PlaylistRow, PageLink(ListPlaylistsRoute, "channel_id", PyStr(channelId), page + 1))
  }

  /** `list_playlist_items(playlist_id, page)`. */
  function ListPlaylistItems(session: RutubeClient.Session, playlistId: int, page: int): (r: Result<seq<Entry>>)
    ensures r.Ok? ==> Fetch(RutubeClient.PlaylistItemsPath, "playlist_id", PyInt(playlistId), page, session).Ok?
  {
    var col :- Fetch(RutubeClient.PlaylistItemsPath, "playlist_id", PyInt(playlistId), page, session);
    Listing(col, VideoRow, PageLink(ListPlaylistItemsRoute, "playlist_id", PyInt(playlistId), page + 1))
  }

  /** `list_shorts(channel_id, page)`. */
  function ListShorts(session: RutubeClient.Session, channelId: string, page: int): (r: Result<seq<Entry>>)
    ensures r.Ok? ==> Fetch(RutubeClient.ShortsPath, "person_id", PyStr(channelId), page, session).Ok?
  {
    var col :- Fetch(RutubeClient.ShortsPath, "person_id", PyStr(channelId), page, session);
    Listing(col, VideoRow, PageLink(ListShortsRoute, "channel_id", PyStr(channelId), page + 1))
  }

  // ---------------------------------------------------------------------------
  // Properties

  /** What a listing's rows and next-page element are: one row per element,
      in order, and a next-page element exactly when the reply has a next
      page. */
  lemma ListingParts(col: RutubeClient.Collection, rowOf: RutubeClient.Model -> Result<Entry>, next: Link)
    requires Listing(col, rowOf, next).Ok?
    requires forall m :: rowOf(m).Ok? ==> rowOf(m).value.kind == Row
    ensures var es := Listing(col, rowOf, next).value;
            var rs := col.results.value;
            OfKind(es, Row) == MapAll(rs, rowOf).value &&
            |OfKind(es, Row)| == |rs| &&
            (forall n :: 0 <= n < |rs| ==> OfKind(es, Row)[n] == rowOf(rs[n]).value) &&
            OfKind(es, Next) == (if col.hasNext.value then [NextEntry(next)] else [])
  {
    var rows := MapAll(col.results.value, rowOf).value;
    var tail := if col.hasNext.value then [NextEntry(next)] else [];
    assert Layout([], rows, tail);
    assert [] + rows + tail == rows + tail;
    LayoutRows([], rows, tail);
    LayoutNext([], rows, tail);
  }

  /** The id and page a listing link reopens: the id as given, the page 1
      when absent. */
  function PageQuery(l: Link, route: string, key: string): (r: Option<(PyVal, int)>)
    ensures r.Some? ==> l.route == route
  {
    if l.route != route then None
    else
      match Arg(l, key)
      case None => None
      case Some(id) =>
        match Arg(l, "page")
        case None => Some((id, 1))
        case Some(PyInt(p)) => Some((id, p))
        case Some(_) => None
  }

  lemma PageLinkReadsBack(route: string, key: string, id: PyVal, page: int)
    requires key != "page"
    ensures PageQuery(PageLink(route, key, id, page), route, key) == Some((id, page))
  {
    var l := PageLink(route, key, id, page);
    ArgAt(l, 0, key);
    ArgAt(l, 1, "page");
  }

  lemma ChannelHeadShortcuts(channelId: string, page: int)
    ensures var h := ChannelHead(channelId, page);
            OfKind(h, Shortcut("Playlists")) ==
              (if page < 2 then [ShortcutEntry("Playlists", Link(ListPlaylistsRoute, [("channel_id", PyStr(channelId))]), true)] else []) &&
            OfKind(h, Shortcut("Shorts")) ==
              (if page < 2 then [ShortcutEntry("Shorts", Link(ListShortsRoute, [("channel_id", PyStr(channelId))]), true)] else [])
  {
    var h := ChannelHead(channelId, page);
    if page < 2 {
      assert h == [h[0]] + [h[1]];
      OfKindAppend([h[0]], [h[1]], Shortcut("Playlists"));
      OfKindAppend([h[0]], [h[1]], Shortcut("Shorts"));
    }
  }

  /** The channel's first page (page 1 or below) starts with the Playlists
      and Shorts folders of the same channel; later pages have neither. */
  lemma ChannelShortcuts(session: RutubeClient.Session, channelId: string, page: int)
    requires Channel(session, channelId, page).Ok?
    ensures var es := Channel(session, channelId, page).value;
            var pl := OfKind(es, Shortcut("Playlists"));
            var sh := OfKind(es, Shortcut("Shorts"));
            (pl != [] <==> page < 2) && (sh != [] <==> page < 2) &&
            (page < 2 ==> |pl| == 1 && |sh| == 1 && pl[0].isFolder && sh[0].isFolder &&
                          pl[0].target == Link(ListPlaylistsRoute, [("channel_id", PyStr(channelId))]) &&
                          sh[0].target == Link(ListShortsRoute, [("channel_id", PyStr(channelId))]))
  {
    var col := Fetch(RutubeClient.VideosPath, "person_id", PyStr(channelId), page, session).value;
    var next := PageLink(ChannelRoute, "channel_id", PyStr(channelId), page + 1);
    var rows := MapAll(col.results.value, VideoRow).value;
    var tail := if col.hasNext.value then [NextEntry(next)] else [];
    var h := ChannelHead(channelId, page);
    ChannelLayout(session, channelId, page);
    ChannelHeadShortcuts(channelId, page);
    LayoutShortcut(h, rows, tail, "Playlists");
    LayoutShortcut(h, rows, tail, "Shorts");
  }

  /** A successful channel page is its head, its rows and its tail. */
  lemma ChannelLayout(session: RutubeClient.Session, channelId: string, page: int)
    requires Channel(session, channelId, page).Ok?
    ensures var col := Fetch(RutubeClient.VideosPath, "person_id", PyStr(channelId), page, session).value;
            var next := PageLink(ChannelRoute, "channel_id", PyStr(channelId), page + 1);
            var rows := MapAll(col.results.value, VideoRow).value;
            var tail := if col.hasNext.value then [NextEntry(next)] else [];
            col.results.Some? && col.hasNext.Some? && MapAll(col.results.value, VideoRow).Ok? &&
            Channel(session, channelId, page).value == ChannelHead(channelId, page) + rows + tail &&
            Layout(ChannelHead(channelId, page), rows, tail)
  {
    var col := Fetch(RutubeClient.VideosPath, "person_id", PyStr(channelId), page, session).value;
    var next := PageLink(ChannelRoute, "channel_id", PyStr(channelId), page + 1);
    ChannelBody(session, channelId, page);
    ListingLayout(col, VideoRow, next, ChannelHead(channelId, page));
  }

  /** A successful channel page is its head followed by the listing of the
      fetched videos. */
  lemma ChannelBody(session: RutubeClient.Session, channelId: string, page: int)
    requires Channel(session, channelId, page).Ok?
    ensures var col := Fetch(RutubeClient.VideosPath, "person_id", PyStr(channelId), page, session).value;
            var l := Listing(col, VideoRow, PageLink(ChannelRoute, "channel_id", PyStr(channelId), page + 1));
            l.Ok? && Channel(session, channelId, page).value == ChannelHead(channelId, page) + l.value
  {
  }

  /** A successful listing after a head of shortcuts lays out as head, rows,
      tail. */
  lemma ListingLayout(col: RutubeClient.Collection, rowOf: RutubeClient.Model -> Result<Entry>, next: Link, head: seq<Entry>)
    requires Listing(col, rowOf, next).Ok?
    requires forall m :: rowOf(m).Ok? ==> rowOf(m).value.kind == Row
    requires forall n :: 0 <= n < |head| ==> head[n].kind.Shortcut?
    ensures var rows := MapAll(col.results.value, rowOf).value;
            var tail := if col.hasNext.value then [NextEntry(next)] else [];
            col.results.Some? && col.hasNext.Some? && MapAll(col.results.value, rowOf).Ok? &&
            head + Listing(col, rowOf, next).value == head + rows + tail &&
            Layout(head, rows, tail)
  {
    var rows := MapAll(col.results.value, rowOf).value;
    var tail := if col.hasNext.value then [NextEntry(next)] else [];
    assert Listing(col, rowOf, next).value == rows + tail;
    assert head + (rows + tail) == head + rows + tail;
  }

  /** The channel's rows are its videos of that page, in order, each played
      by its page URL; a next-page element appears exactly when the reply
      has a next page and reopens the same channel one page further. */
  lemma ChannelRowsAndNext(session: RutubeClient.Session, channelId: string, page: int)
    requires Channel(session, channelId, page).Ok?
    ensures var col := Fetch(RutubeClient.VideosPath, "person_id", PyStr(channelId), page, session).value;
            var es := Channel(session, channelId, page).value;
            var rows := OfKind(es, Row);
            var nx := OfKind(es, Next);
            col.results.Some? && |rows| == |col.results.value| &&
            (forall n :: 0 <= n < |rows| ==>
               rows[n].playable && !rows[n].isFolder && rows[n].target.route == PlayVideoRoute &&
               Arg(rows[n].target, "page_url") == Some(col.results.value[n]["video_url"])) &&
            (nx != [] <==> col.hasNext == Some(true)) &&
            (nx != [] ==> |nx| == 1 && PageQuery(nx[0].target, ChannelRoute, "channel_id") == Some((PyStr(channelId), page + 1)))
  {
    var col := Fetch(RutubeClient.VideosPath, "person_id", PyStr(channelId), page, session).value;
    var next := PageLink(ChannelRoute, "channel_id", PyStr(channelId), page + 1);
    var rows := MapAll(col.results.value, VideoRow).value;
    var tail := if col.hasNext.value then [NextEntry(next)] else [];
    var h := ChannelHead(channelId, page);
    ChannelLayout(session, channelId, page);
    LayoutRows(h, rows, tail);
    LayoutNext(h, rows, tail);
    forall n | 0 <= n < |rows|
      ensures Arg(rows[n].target, "page_url") == Some(col.results.value[n]["video_url"])
    {
      ArgAt(rows[n].target, 0, "page_url");
    }
    PageLinkReadsBack(ChannelRoute, "channel_id", PyStr(channelId), page + 1);
  }

  /** Playlist rows open each playlist of the page by its id; the next-page
      element reopens the same channel's playlists one page further. */
  lemma ListPlaylistsRowsAndNext(session: RutubeClient.Session, channelId: string, page: int)
    requires ListPlaylists(session, channelId, page).Ok?
    ensures var col := Fetch(RutubeClient.PlaylistsPath, "person_id", PyStr(channelId), page, session).value;
            var es := ListPlaylists(session, channelId, page).value;
            var rows := OfKind(es, Row);
            var nx := OfKind(es, Next);
            col.results.Some? && |rows| == |col.results.value| &&
            (forall n :: 0 <= n < |rows| ==>
               rows[n].isFolder && rows[n].target.route == ListPlaylistItemsRoute &&
               Arg(rows[n].target, "playlist_id") == Some(col.results.value[n]["id"])) &&
            (nx != [] <==> col.hasNext == Some(true)) &&
            (nx != [] ==> |nx| == 1 && PageQuery(nx[0].target, ListPlaylistsRoute, "channel_id") == Some((PyStr(channelId), page + 1)))
  {
    var col := Fetch(RutubeClient.PlaylistsPath, "person_id", PyStr(channelId), page, session).value;
    var next := PageLink(ListPlaylistsRoute, "channel_id", PyStr(channelId), page + 1);
    ListingParts(col, PlaylistRow, next);
    var rows := MapAll(col.results.value, PlaylistRow).value;
    forall n | 0 <= n < |rows|
      ensures Arg(rows[n].target, "playlist_id") == Some(col.results.value[n]["id"])
    {
      ArgAt(rows[n].target, 0, "playlist_id");
    }
    PageLinkReadsBack(ListPlaylistsRoute, "channel_id", PyStr(channelId), page + 1);
  }

  /** A playlist's rows are its videos of that page; the next-page element
      reopens the same playlist one page further. */
  lemma ListPlaylistItemsRowsAndNext(session: RutubeClient.Session, playlistId: int, page: int)
    requires ListPlaylistItems(session, playlistId, page).Ok?
    ensures var col := Fetch(RutubeClient.PlaylistItemsPath, "playlist_id", PyInt(playlistId), page, session).value;
            var es := ListPlaylistItems(session, playlistId, page).value;
            var rows := OfKind(es, Row);
            var nx := OfKind(es, Next);
            col.results.Some? && |rows| == |col.results.value| &&
            (forall n :: 0 <= n < |rows| ==>
               rows[n].playable && Arg(rows[n].target, "page_url") == Some(col.results.value[n]["video_url"])) &&
            (nx != [] <==> col.hasNext == Some(true)) &&
            (nx != [] ==> |nx| == 1 && PageQuery(nx[0].target, ListPlaylistItemsRoute, "playlist_id") == Some((PyInt(playlistId), page + 1)))
  {
    var col := Fetch(RutubeClient.PlaylistItemsPath, "playlist_id", PyInt(playlistId), page, session).value;
    var next := PageLink(ListPlaylistItemsRoute, "playlist_id", PyInt(playlistId), page + 1);
    ListingParts(col, VideoRow, next);
    var rows := MapAll(col.results.value, VideoRow).value;
    forall n | 0 <= n < |rows|
      ensures Arg(rows[n].target, "page_url") == Some(col.results.value[n]["video_url"])
    {
      ArgAt(rows[n].target, 0, "page_url");
    }
    PageLinkReadsBack(ListPlaylistItemsRoute, "playlist_id", PyInt(playlistId), page + 1);
  }

  /** Shorts list like the channel's videos, without shortcuts. */
  lemma ListShortsRowsAndNext(session: RutubeClient.Session, channelId: string, page: int)
    requires ListShorts(session, channelId, page).Ok?
    ensures var col := Fetch(RutubeClient.ShortsPath, "person_id", PyStr(channelId), page, session).value;
            var es := ListShorts(session, channelId, page).value;
            var rows := OfKind(es, Row);
            var nx := OfKind(es, Next);
            col.results.Some? && |rows| == |col.results.value| &&
            (forall n :: 0 <= n < |rows| ==>
               rows[n].playable && Arg(rows[n].target, "page_url") == Some(col.results.value[n]["video_url"])) &&
            (nx != [] <==> col.hasNext == Some(true)) &&
            (nx != [] ==> |nx| == 1 && PageQuery(nx[0].target, ListShortsRoute, "channel_id") == Some((PyStr(channelId), page + 1)))
  {
    var col := Fetch(RutubeClient.ShortsPath, "person_id", PyStr(channelId), page, session).value;
    var next := PageLink(ListShortsRoute, "channel_id", PyStr(channelId), page + 1);
    ListingParts(col, VideoRow, next);
    var rows := MapAll(col.results.value, VideoRow).value;
    forall n | 0 <= n < |rows|
      ensures Arg(rows[n].target, "page_url") == Some(col.results.value[n]["video_url"])
    {
      ArgAt(rows[n].target, 0, "page_url");
    }
    PageLinkReadsBack(ListShortsRoute, "channel_id", PyStr(channelId), page + 1);
  }

  /** The channel page sends exactly one request, for the channel's videos
      at that page: two sessions that answer it alike give the same page. */
  lemma ChannelAsksOnce(s1: RutubeClient.Session, s2: RutubeClient.Session, channelId: string, page: int)
    requires var path := "/video/person/" + Show(PyStr(channelId)) + "/";
             s1(path, map["page" := PyInt(page)]) == s2(path, map["page" := PyInt(page)])
    ensures Channel(s1, channelId, page) == Channel(s2, channelId, page)
  {
    RutubeClient.CollectionRequests(PyStr(channelId), page);
  }

  /** A video missing one of the attributes the page reads fails the whole
      listing with AttributeError. */
  lemma MissingAttributeFails(session: RutubeClient.Session, channelId: string, page: int, n: nat, name: string)
    requires Fetch(RutubeClient.VideosPath, "person_id", PyStr(channelId), page, session).Ok?
    requires var col := Fetch(RutubeClient.VideosPath, "person_id", PyStr(channelId), page, session).value;
             col.results.Some? && n < |col.results.value| &&
             name in VideoAttributes && name !in col.results.value[n]
    ensures Channel(session, channelId, page) == Err(AttributeError)
  {
  }
}

=== FILE: pages_youtube.dfy ===
/** The YouTube pages of resources/lib/pages/youtube.py: the URL constructors
    for the three YouTube item types, the channel, playlist and playlist-item
    listings with token-cursor paging, the API-error wrapper and the player
    link.

    The YouTube API is a parameter: `Feeds` answers one page of a playlist's
    videos or of a channel's playlists for a page size and a page token, or
    fails with the error the session raises. */
module PagesYouTube {
  import opened Wrappers
  import opened PyJson
  import opened Storage
  import opened Directory
  import ProvidersYouTube

  const ListChannelRoute := "resources.lib.pages.youtube.list_channel"
  const ListPlaylistsRoute := "resources.lib.pages.youtube.list_playlists"
  const ListPlaylistItemsRoute := "resources.lib.pages.youtube.list_playlist_items"
  const PlayVideoRoute := "resources.lib.pages.youtube.play_video"
  const ShortLinkPrefix := "https://youtu.be/"

  // ---------------------------------------------------------------------------
  // URL constructors

  /** `get_url_for_channel`: the channel menu, from the channel and upload
      playlist ids. */
  function ChannelUrl(item: Item): (r: Result<Link>)
    ensures r.Ok? <==> "channel_id" in item.entity.data && "upload_playlist_id" in item.entity.data
    ensures r.Ok? ==> r.value.route == ListChannelRoute &&
                      Arg(r.value, "channel_id") == Some(item.entity.data["channel_id"]) &&
                      Arg(r.value, "upload_playlist_id") == Some(item.entity.data["upload_playlist_id"])
    ensures "channel_id" !in item.entity.data ==> r == Err(KeyError("channel_id"))
  {
    var channelId :- DataValue(item, "channel_id");
    var uploads :- DataValue(item, "upload_playlist_id");
    var l := Link(ListChannelRoute, [("channel_id", channelId), ("upload_playlist_id", uploads),
                                     ("title", OptVal(item.entity.title))]);
    assert l.args[1..][0] == ("upload_playlist_id", uploads);
    Ok(l)
  }

  /** `get_url_for_playlist`: the playlist's videos. */
  function PlaylistUrl(item: Item): (r: Result<Link>)
    ensures r.Ok? <==> "playlist_id" in item.entity.data
    ensures r.Ok? ==> r.value.route == ListPlaylistItemsRoute &&
                      Arg(r.value, "playlist_id") == Some(item.entity.data["playlist_id"])
    ensures r.Err? ==> r.error == KeyError("playlist_id")
  {
    var playlistId :- DataValue(item, "playlist_id");
    Ok(Link(ListPlaylistItemsRoute, [("playlist_id", playlistId), ("title", OptVal(item.entity.title))]))
  }

  /** `get_url_for_video`: the player for the video id. */
  function VideoUrl(item: Item): (r: Result<Link>)
    ensures r.Ok? <==> "video_id" in item.entity.data
    ensures r.Ok? ==> r.value.route == PlayVideoRoute &&
                      Arg(r.value, "video_id") == Some(item.entity.data["video_id"])
    ensures r.Err? ==> r.error == KeyError("video_id")
  {
    var videoId :- DataValue(item, "video_id");
    Ok(Link(PlayVideoRoute, [("video_id", videoId)]))
  }

  /** Every item the YouTube adapter describes can be linked by the
      constructor of its type, and the link carries the ids the adapter
      stored: the constructors read only keys the adapter writes. */
  lemma AdapterItemsAreLinkable(url: string, parts: ProvidersYouTube.UrlParts, api: ProvidersYouTube.Api,
                                id: int, parentId: Option<int>)
    requires ProvidersYouTube.Adapter(url, parts, api).Ok?
    requires ProvidersYouTube.Adapter(url, parts, api).value.Some?
    ensures var e := ProvidersYouTube.Adapter(url, parts, api).value.value;
            var item := Item(id, parentId, e);
            (e.itemType == YouTubeChannel ==>
              ChannelUrl(item).Ok? && Arg(ChannelUrl(item).value, "channel_id") == Some(e.data["channel_id"])) &&
            (e.itemType == YouTubePlaylist ==>
              PlaylistUrl(item).Ok? && Arg(PlaylistUrl(item).value, "playlist_id") == Some(e.data["playlist_id"])) &&
            (e.itemType == YouTubeVideo ==>
              VideoUrl(item).Ok? && Arg(VideoUrl(item).value, "video_id") == Some(e.data["video_id"]))
  {
  }

  // ---------------------------------------------------------------------------
  // Fetched pages

  /** One page of a collection and the token of the page after it (None or
      '' when it is the last). */
  datatype Page<T> = Page(items: seq<T>, nextPage: Option<string>)

  /** `youtube_session.get_videos(playlist_id, limit, page_token)` and
      `get_playlists(channel_id, limit, page_token)`. */
  datatype Feeds = Feeds(
    videos: (string, int, string) -> Result<Page<ProvidersYouTube.YtVideo>>,
    playlists: (string, int, string) -> Result<Page<ProvidersYouTube.YtPlaylist>>)

  /** `catch_api_error`: a YouTubeApiError alerts its message and ends the
      directory as failed; other errors propagate. */
  function CatchApiError(r: Result<seq<Entry>>): (o: Result<Outcome<seq<Entry>>>)
    ensures r.Ok? ==> o == Ok(Completed(r.value))
    ensures r.Err? && r.error.YouTubeApiError? ==> o == Ok(Failed(r.error.message))
    ensures r.Err? && !r.error.YouTubeApiError? ==> o == Err(r.error)
  {
    match r
    case Ok(es) => Ok(Completed(es))
    case Err(YouTubeApiError(_, m)) => Ok(Failed(m))
    case Err(e) => Err(e)
  }

  /** Whether `list_videos` can describe a video: its duration fits a
      `timedelta` and its publication date parses. */
  predicate Listable(v: ProvidersYouTube.YtVideo) {
    ProvidersYouTube.Duration(v.durationText).Ok? && v.aired.Some?
  }

  /** One step of `list_videos`: reading `duration` and then `published` may
      raise; otherwise a playable, non-folder row that plays the video. */
  function VideoRow(v: ProvidersYouTube.YtVideo): (r: Result<Entry>)
    ensures r.Ok? <==> Listable(v)
    ensures r.Ok? ==> r.value.kind == Row && r.value.playable && !r.value.isFolder &&
                      r.value.target.route == PlayVideoRoute && Arg(r.value.target, "video_id") == Some(PyStr(v.id))
    ensures ProvidersYouTube.Duration(v.durationText).Err? ==> r == Err(OverflowError)
    ensures ProvidersYouTube.Duration(v.durationText).Ok? && v.aired.None? ==> r == Err(ProvidersYouTube.IsoFormatError)
  {
    var _ :- ProvidersYouTube.Duration(v.durationText);
    var _ :- ProvidersYouTube.Aired(v.aired);
    Ok(Entry(Row, Link(PlayVideoRoute, [("video_id", PyStr(v.id))]), false, true, []))
  }

  /** `list_videos(iterable)`: one row per video, in order, until the first
      video whose duration or date cannot be read raises. */
  function VideoRows(vs: seq<ProvidersYouTube.YtVideo>): (r: Result<seq<Entry>>)
    ensures r.Ok? <==> forall n :: 0 <= n < |vs| ==> Listable(vs[n])
    ensures r.Ok? ==> |r.value| == |vs| && forall n :: 0 <= n < |vs| ==> r.value[n] == VideoRow(vs[n]).value
    ensures r.Err? ==> exists n :: 0 <= n < |vs| && !Listable(vs[n]) && VideoRow(vs[n]) == Err(r.error) &&
                                   forall m :: 0 <= m < n ==> Listable(vs[m])
    ensures r.Err? ==> r.error == OverflowError || r.error == ProvidersYouTube.IsoFormatError
  {
    MapAll(vs, VideoRow)
  }

  /** The next-page element for a page whose token is `token`, built by `link`. */
  function NextOf(token: Option<string>, link: string -> Link): seq<Entry> {
    if Truthy(token) then [NextEntry(link(token.value))] else []
  }

  // ---------------------------------------------------------------------------
  // list_channel

  function PlaylistsEntry(channelId: string, title: string): Entry {
    ShortcutEntry("Playlists", Link(ListPlaylistsRoute, [("channel_id", PyStr(channelId)), ("title", PyStr(title + " - Playlists"))]), true)
  }

  /** The channel listing's own link for a page token. */
  function ChannelLink(channelId: string, uploads: string, perPage: int, title: string, token: string): Link {
    Link(ListChannelRoute, [("channel_id", PyStr(channelId)), ("upload_playlist_id", PyStr(uploads)),
                            ("items_per_page", PyInt(perPage)), ("next_page", PyStr(token)), ("title", PyStr(title))])
  }

  function ChannelNextLink(channelId: string, uploads: string, perPage: int, title: string): string -> Link {
    token => ChannelLink(channelId, uploads, perPage, title, token)
  }

  function ChannelHead(channelId: string, nextPage: string, title: string): seq<Entry> {
    if nextPage == "" then [PlaylistsEntry(channelId, title)] else []
  }

  /** The body of `list_channel(channel_id, upload_playlist_id,
      items_per_page, next_page, title)`. */
  function ChannelBody(feeds: Feeds, channelId: string, uploads: string, perPage: int,
                       nextPage: string, title: string): (r: Result<seq<Entry>>)
    ensures var f := feeds.videos(uploads, perPage, nextPage);
            (r.Ok? <==> f.Ok? && forall n :: 0 <= n < |f.value.items| ==> Listable(f.value.items[n])) &&
            (f.Err? ==> r == Err(f.error)) &&
            (f.Ok? && r.Err? ==> r.error == OverflowError || r.error == ProvidersYouTube.IsoFormatError)
  {
    var page :- feeds.videos(uploads, perPage, nextPage);
    var rows :- VideoRows(page.items);
    Ok(ChannelHead(channelId, nextPage, title) + rows +
       NextOf(page.nextPage, ChannelNextLink(channelId, uploads, perPage, title)))
  }

  /** `list_channel` inside `catch_api_error`. */
  function ListChannel(feeds: Feeds, channelId: string, uploads: string, perPage: int,
                       nextPage: string, title: string): (r: Result<Outcome<seq<Entry>>>)
    ensures var f := feeds.videos(uploads, perPage, nextPage);
            (r.Ok? && r.value.Completed? <==> f.Ok? && forall n :: 0 <= n < |f.value.items| ==> Listable(f.value.items[n])) &&
            (f.Err? && f.error.YouTubeApiError? ==> r == Ok(Failed(f.error.message))) &&
            (f.Err? && !f.error.YouTubeApiError? ==> r == Err(f.error)) &&
            (f.Ok? && (exists n :: 0 <= n < |f.value.items| && !Listable(f.value.items[n])) ==>
               r.Err? && (r.error == OverflowError || r.error == ProvidersYouTube.IsoFormatError))
  {
    CatchApiError(ChannelBody(feeds, channelId, uploads, perPage, nextPage, title))
  }

  /** What `list_channel` reads from a link: channel, uploads playlist, page
      token ('' when absent) and title ('' when absent). */
  function ChannelQuery(l: Link): (r: Option<(string, string, string, string)>)
    ensures r.Some? ==> l.route == ListChannelRoute
  {
    var c := Str(Arg(l, "channel_id"));
    var u := Str(Arg(l, "upload_playlist_id"));
    var n := StrOr(Arg(l, "next_page"), "");
    var t := StrOr(Arg(l, "title"), "");
    if l.route == ListChannelRoute && c.Some? && u.Some? && n.Some? && t.Some?
    then Some((c.value, u.value, n.value, t.value)) else None
  }

  /** A channel link whose four parameters are strings reads back as them. */
  lemma ChannelQueryOfArgs(l: Link, channelId: string, uploads: string, token: string, title: string)
    requires l.route == ListChannelRoute
    requires Arg(l, "channel_id") == Some(PyStr(channelId)) && Arg(l, "upload_playlist_id") == Some(PyStr(uploads))
    requires Arg(l, "next_page") == Some(PyStr(token)) && Arg(l, "title") == Some(PyStr(title))
    ensures ChannelQuery(l) == Some((channelId, uploads, token, title))
  {
  }

  lemma ChannelLinkReadsBack(channelId: string, uploads: string, perPage: int, title: string, token: string)
    ensures ChannelQuery(ChannelLink(channelId, uploads, perPage, title, token)) == Some((channelId, uploads, token, title))
  {
    var l := ChannelLink(channelId, uploads, perPage, title, token);
    assert DistinctKeys(l);
    ArgOfDistinct(l, 0);
    ArgOfDistinct(l, 1);
    ArgOfDistinct(l, 3);
    ArgOfDistinct(l, 4);
    ChannelQueryOfArgs(l, channelId, uploads, token, title);
  }

  /** A video whose duration overflows `timedelta` escapes `catch_api_error`
      as OverflowError when every video before it can be listed. */
  lemma OverflowEscapes(feeds: Feeds, channelId: string, uploads: string, perPage: int, nextPage: string, title: string, n: nat)
    requires feeds.videos(uploads, perPage, nextPage).Ok?
    requires var vs := feeds.videos(uploads, perPage, nextPage).value.items;
             n < |vs| && ProvidersYouTube.Duration(vs[n].durationText).Err? &&
             forall m :: 0 <= m < n ==> Listable(vs[m])
    ensures ListChannel(feeds, channelId, uploads, perPage, nextPage, title) == Err(OverflowError)
  {
    var vs := feeds.videos(uploads, perPage, nextPage).value.items;
    var rows := VideoRows(vs);
    assert !Listable(vs[n]);
    assert rows.Err?;
    var k :| 0 <= k < |vs| && !Listable(vs[k]) && VideoRow(vs[k]) == Err(rows.error) &&
             forall m :: 0 <= m < k ==> Listable(vs[m]);
    assert k == n;
  }

  lemma ChannelLayout(feeds: Feeds, channelId: string, uploads: string, perPage: int, nextPage: string, title: string)
    requires ChannelBody(feeds, channelId, uploads, perPage, nextPage, title).Ok?
    ensures var page := feeds.videos(uploads, perPage, nextPage).value;
            var rows := VideoRows(page.items).value;
            var tail := NextOf(page.nextPage, ChannelNextLink(channelId, uploads, perPage, title));
            ChannelBody(feeds, channelId, uploads, perPage, nextPage, title).value ==
              ChannelHead(channelId, nextPage, title) + rows + tail &&
            Layout(ChannelHead(channelId, nextPage, title), rows, tail)
  {
  }

  /** The channel page: "Playlists" only on the first page (no token), one
      playable non-folder row per fetched video of the uploads playlist, and a
      next-page element exactly when the fetched page has a token, reopening
      the same channel at that exact token. */
  lemma ListChannelEntries(feeds: Feeds, channelId: string, uploads: string, perPage: int, nextPage: string, title: string)
    requires ChannelBody(feeds, channelId, uploads, perPage, nextPage, title).Ok?
    ensures var page := feeds.videos(uploads, perPage, nextPage).value;
            var es := ChannelBody(feeds, channelId, uploads, perPage, nextPage, title).value;
            var rows := OfKind(es, Row);
            var nx := OfKind(es, Next);
            OfKind(es, Shortcut("Playlists")) == (if nextPage == "" then [PlaylistsEntry(channelId, title)] else []) &&
            |rows| == |page.items| &&
            (forall n :: 0 <= n < |rows| ==>
               rows[n].playable && !rows[n].isFolder && Arg(rows[n].target, "video_id") == Some(PyStr(page.items[n].id))) &&
            (nx != [] <==> Truthy(page.nextPage)) &&
            (nx != [] ==> |nx| == 1 && ChannelQuery(nx[0].target) == Some((channelId, uploads, page.nextPage.value, title)))
  {
    var page := feeds.videos(uploads, perPage, nextPage).value;
    var h := ChannelHead(channelId, nextPage, title);
    var rows := VideoRows(page.items).value;
    var tail := NextOf(page.nextPage, ChannelNextLink(channelId, uploads, perPage, title));
    ChannelLayout(feeds, channelId, uploads, perPage, nextPage, title);
    LayoutRows(h, rows, tail);
    LayoutNext(h, rows, tail);
    LayoutShortcut(h, rows, tail, "Playlists");
    if Truthy(page.nextPage) {
      ChannelLinkReadsBack(channelId, uploads, perPage, title, page.nextPage.value);
    }
  }

  // ---------------------------------------------------------------------------
  // list_playlists

  /** One step of the `list_playlists` loop: reading `published` may raise;
      otherwise a folder that opens the playlist's videos. */
  function PlaylistRow(p: ProvidersYouTube.YtPlaylist): (r: Result<Entry>)
    ensures r.Ok? <==> p.aired.Some?
    ensures r.Ok? ==> r.value.kind == Row && r.value.isFolder && !r.value.playable &&
                      r.value.target.route == ListPlaylistItemsRoute && Arg(r.value.target, "playlist_id") == Some(PyStr(p.id))
    ensures r.Err? ==> r.error == ProvidersYouTube.IsoFormatError
  {
    var _ :- ProvidersYouTube.Aired(p.aired);
    Ok(Entry(Row, Link(ListPlaylistItemsRoute, [("playlist_id", PyStr(p.id)), ("title", PyStr(p.title))]), true, false, []))
  }

  /** The rows of `list_playlists`: one per playlist, in order, until the
      first playlist whose date cannot be parsed raises. */
  function PlaylistRows(ps: seq<ProvidersYouTube.YtPlaylist>): (r: Result<seq<Entry>>)
    ensures r.Ok? <==> forall n :: 0 <= n < |ps| ==> ps[n].aired.Some?
    ensures r.Ok? ==> |r.value| == |ps| && forall n :: 0 <= n < |ps| ==> r.value[n] == PlaylistRow(ps[n]).value
    ensures r.Err? ==> r.error == ProvidersYouTube.IsoFormatError
  {
    MapAll(ps, PlaylistRow)
  }

  function PlaylistsLink(channelId: string, token: string): Link {
    Link(ListPlaylistsRoute, [("channel_id", PyStr(channelId)), ("next_page", PyStr(token))])
  }

  function PlaylistsNextLink(channelId: string): string -> Link {
    token => PlaylistsLink(channelId, token)
  }

  /** `list_playlists(channel_id, items_per_page, next_page)`. */
  function ListPlaylists(feeds: Feeds, channelId: string, perPage: int, nextPage: string): (r: Result<seq<Entry>>)
    ensures var f := feeds.playlists(channelId, perPage, nextPage);
            (r.Ok? <==> f.Ok? && forall n :: 0 <= n < |f.value.items| ==> f.value.items[n].aired.Some?) &&
            (f.Err? ==> r == Err(f.error)) &&
            (f.Ok? && r.Err? ==> r.error == ProvidersYouTube.IsoFormatError)
  {
    var page :- feeds.playlists(channelId, perPage, nextPage);
    var rows :- PlaylistRows(page.items);
    Ok(rows + NextOf(page.nextPage, PlaylistsNextLink(channelId)))
  }

  /** What `list_playlists` reads from a link: channel and page token. */
  function PlaylistsQuery(l: Link): (r: Option<(string, string)>)
    ensures r.Some? ==> l.route == ListPlaylistsRoute
  {
    var c := Str(Arg(l, "channel_id"));
    var n := StrOr(Arg(l, "next_page"), "");
    if l.route == ListPlaylistsRoute && c.Some? && n.Some? then Some((c.value, n.value)) else None
  }

  lemma PlaylistsLinkReadsBack(channelId: string, token: string)
    ensures PlaylistsQuery(PlaylistsLink(channelId, token)) == Some((channelId, token))
  {
    var l := PlaylistsLink(channelId, token);
    ArgAt(l, 0, "channel_id");
    ArgAt(l, 1, "next_page");
  }

  lemma PlaylistsLayout(feeds: Feeds, channelId: string, perPage: int, nextPage: string)
    requires ListPlaylists(feeds, channelId, perPage, nextPage).Ok?
    ensures var page := feeds.playlists(channelId, perPage, nextPage).value;
            var rows := PlaylistRows(page.items).value;
            var tail := NextOf(page.nextPage, PlaylistsNextLink(channelId));
            ListPlaylists(feeds, channelId, perPage, nextPage).value == [] + rows + tail &&
            Layout([], rows, tail)
  {
  }

  /** One folder per fetched playlist opening its videos, and a next-page
      element exactly when the page has a token, at that exact token. */
  lemma ListPlaylistsEntries(feeds: Feeds, channelId: string, perPage: int, nextPage: string)
    requires ListPlaylists(feeds, channelId, perPage, nextPage).Ok?
    ensures var page := feeds.playlists(channelId, perPage, nextPage).value;
            var es := ListPlaylists(feeds, channelId, perPage, nextPage).value;
            var rows := OfKind(es, Row);
            var nx := OfKind(es, Next);
            |rows| == |page.items| &&
            (forall n :: 0 <= n < |rows| ==>
               rows[n].isFolder && rows[n].target.route == ListPlaylistItemsRoute &&
               Arg(rows[n].target, "playlist_id") == Some(PyStr(page.items[n].id))) &&
            (nx != [] <==> Truthy(page.nextPage)) &&
            (nx != [] ==> |nx| == 1 && PlaylistsQuery(nx[0].target) == Some((channelId, page.nextPage.value)))
  {
    var page := feeds.playlists(channelId, perPage, nextPage).value;
    var rows := PlaylistRows(page.items).value;
    var tail := NextOf(page.nextPage, PlaylistsNextLink(channelId));
    PlaylistsLayout(feeds, channelId, perPage, nextPage);
    LayoutRows([], rows, tail);
    LayoutNext([], rows, tail);
    if Truthy(page.nextPage) {
      PlaylistsLinkReadsBack(channelId, page.nextPage.value);
    }
  }

  // ---------------------------------------------------------------------------
  // list_playlist_items

  function PlaylistItemsLink(playlistId: string, perPage: int, title: string, token: string): Link {
    Link(ListPlaylistItemsRoute, [("playlist_id", PyStr(playlistId)), ("items_per_page", PyInt(perPage)),
                                  ("next_page", PyStr(token)), ("title", PyStr(title))])
  }

  function PlaylistItemsNextLink(playlistId: string, perPage: int, title: string): string -> Link {
    token => PlaylistItemsLink(playlistId, perPage, title, token)
  }

  /** `list_playlist_items(playlist_id, items_per_page, next_page, title)`. */
  function ListPlaylistItems(feeds: Feeds, playlistId: string, perPage: int, nextPage: string, title: string): (r: Result<seq<Entry>>)
    ensures var f := feeds.videos(playlistId, perPage, nextPage);
            (r.Ok? <==> f.Ok? && forall n :: 0 <= n < |f.value.items| ==> Listable(f.value.items[n])) &&
            (f.Err? ==> r == Err(f.error)) &&
            (f.Ok? && r.Err? ==> r.error == OverflowError || r.error == ProvidersYouTube.IsoFormatError)
  {
    var page :- feeds.videos(playlistId, perPage, nextPage);
    var rows :- VideoRows(page.items);
    Ok(rows + NextOf(page.nextPage, PlaylistItemsNextLink(playlistId, perPage, title)))
  }

  /** What `list_playlist_items` reads from a link: playlist, page token and
      title (both '' when absent). */
  function PlaylistItemsQuery(l: Link): (r: Option<(string, string, string)>)
    ensures r.Some? ==> l.route == ListPlaylistItemsRoute
  {
    var p := Str(Arg(l, "playlist_id"));
    var n := StrOr(Arg(l, "next_page"), "");
    var t := StrOr(Arg(l, "title"), "");
    if l.route == ListPlaylistItemsRoute && p.Some? && n.Some? && t.Some?
    then Some((p.value, n.value, t.value)) else None
  }

  /** A playlist-items link whose three parameters are strings reads back
      as them. */
  lemma PlaylistItemsQueryOfArgs(l: Link, playlistId: string, token: string, title: string)
    requires l.route == ListPlaylistItemsRoute
    requires Arg(l, "playlist_id") == Some(PyStr(playlistId))
    requires Arg(l, "next_page") == Some(PyStr(token)) && Arg(l, "title") == Some(PyStr(title))
    ensures PlaylistItemsQuery(l) == Some((playlistId, token, title))
  {
  }

  lemma PlaylistItemsLinkReadsBack(playlistId: string, perPage: int, title: string, token: string)
    ensures PlaylistItemsQuery(PlaylistItemsLink(playlistId, perPage, title, token)) == Some((playlistId, token, title))
  {
    var l := PlaylistItemsLink(playlistId, perPage, title, token);
    assert DistinctKeys(l);
    ArgOfDistinct(l, 0);
    ArgOfDistinct(l, 2);
    ArgOfDistinct(l, 3);
    PlaylistItemsQueryOfArgs(l, playlistId, token, title);
  }

  lemma PlaylistItemsLayout(feeds: Feeds, playlistId: string, perPage: int, nextPage: string, title: string)
    requires ListPlaylistItems(feeds, playlistId, perPage, nextPage, title).Ok?
    ensures var page := feeds.videos(playlistId, perPage, nextPage).value;
            var rows := VideoRows(page.items).value;
            var tail := NextOf(page.nextPage, PlaylistItemsNextLink(playlistId, perPage, title));
            ListPlaylistItems(feeds, playlistId, perPage, nextPage, title).value == [] + rows + tail &&
            Layout([], rows, tail)
  {
  }

  /** One playable non-folder row per fetched video, and a next-page element
      exactly when the page has a token, reopening the same playlist at that
      exact token. */
  lemma ListPlaylistItemsEntries(feeds: Feeds, playlistId: string, perPage: int, nextPage: string, title: string)
    requires ListPlaylistItems(feeds, playlistId, perPage, nextPage, title).Ok?
    ensures var page := feeds.videos(playlistId, perPage, nextPage).value;
            var es := ListPlaylistItems(feeds, playlistId, perPage, nextPage, title).value;
            var rows := OfKind(es, Row);
            var nx := OfKind(es, Next);
            |rows| == |page.items| &&
            (forall n :: 0 <= n < |rows| ==>
               rows[n].playable && !rows[n].isFolder && Arg(rows[n].target, "video_id") == Some(PyStr(page.items[n].id))) &&
            (nx != [] <==> Truthy(page.nextPage)) &&
            (nx != [] ==> |nx| == 1 && PlaylistItemsQuery(nx[0].target) == Some((playlistId, page.nextPage.value, title)))
  {
    var page := feeds.videos(playlistId, perPage, nextPage).value;
    var rows := VideoRows(page.items).value;
    var tail := NextOf(page.nextPage, PlaylistItemsNextLink(playlistId, perPage, title));
    PlaylistItemsLayout(feeds, playlistId, perPage, nextPage, title);
    LayoutRows([], rows, tail);
    LayoutNext([], rows, tail);
    if Truthy(page.nextPage) {
      PlaylistItemsLinkReadsBack(playlistId, perPage, title, page.nextPage.value);
    }
  }

  // ---------------------------------------------------------------------------
  // play_video

  /** `play_video(video_id)`: the short link the browser opens. */
  function PlayVideo(videoId: string): (r: string)
    ensures |r| == |ShortLinkPrefix| + |videoId|
    ensures r[..|ShortLinkPrefix|] == ShortLinkPrefix && r[|ShortLinkPrefix|..] == videoId
  {
    ShortLinkPrefix + videoId
  }

  /** The opened link determines the video: different ids open different links. */
  lemma PlayVideoInjective(a: string, b: string)
    requires PlayVideo(a) == PlayVideo(b)
    ensures a == b
  {
    assert a == PlayVideo(a)[|ShortLinkPrefix|..];
  }
}

=== FILE: paging.dfy ===
/** Look-ahead pagination, as the item, playlist and playlist-item pages do
    it against storage: fetch one row more than a page holds, show at most a
    page, and offer a next page exactly when the extra row came back.

    The store is the sequence of rows the query selects, in the order the
    `select` returns them; `LIMIT l OFFSET o` is a window of it. */
module Paging {
  import opened Wrappers

  function Min(a: nat, b: nat): nat {
    if a <= b then a else b
  }

  /** `select(..., limit=limit, offset=offset)`. */
  function Window<T>(store: seq<T>, limit: nat, offset: nat): (w: seq<T>)
    ensures |w| <= limit
    ensures offset <= |store| ==> |w| == Min(limit, |store| - offset)
    ensures offset >= |store| ==> w == []
    ensures forall n :: 0 <= n < |w| ==> offset + n < |store| && w[n] == store[offset + n]
  {
    store[Min(offset, |store|)..Min(offset + limit, |store|)]
  }

  /** What one page shows and the offset its next-page element carries. */
  datatype Page<T> = Page(shown: seq<T>, next: Option<nat>)

  /** `select(limit=per_page + 1)`, `render_next_page = len(rows) > per_page`,
      `rows[:per_page]`, and `offset + per_page` for the next element. */
  function LookAhead<T>(store: seq<T>, perPage: nat, offset: nat): (p: Page<T>)
    ensures p.shown == Window(store, perPage, offset)
    ensures p.next.Some? <==> |store| > offset + perPage
    ensures p.next.Some? ==> p.next.value == offset + perPage
  {
    var fetched := Window(store, perPage + 1, offset);
    var shown := fetched[..Min(perPage, |fetched|)];
    assert shown == Window(store, perPage, offset);
    Page(shown, if |fetched| > perPage then Some(offset + perPage) else None)
  }

  /** The rows seen by following next-page elements from `offset` on. */
  function Walk<T>(store: seq<T>, perPage: nat, offset: nat): seq<T>
    requires perPage > 0
    decreases |store| - offset
  {
    var p := LookAhead(store, perPage, offset);
    p.shown + (if p.next.Some? then Walk(store, perPage, p.next.value) else [])
  }

  /** Paging from the first page shows every row once, in store order. */
  lemma {:induction false} WalkCoversStore<T>(store: seq<T>, perPage: nat, offset: nat)
    requires perPage > 0 && offset <= |store|
    ensures Walk(store, perPage, offset) == store[offset..]
    decreases |store| - offset
  {
    var p := LookAhead(store, perPage, offset);
    if p.next.Some? {
      WalkCoversStore(store, perPage, offset + perPage);
      assert p.shown == store[offset..offset + perPage];
      assert store[offset..] == store[offset..offset + perPage] + store[offset + perPage..];
    } else {
      assert p.shown == store[offset..];
    }
  }

  lemma SliceSplit<T>(s: seq<T>, i: nat, j: nat)
    requires i <= j <= |s|
    ensures s[i..] == s[i..j] + s[j..]
  {
  }

  /** With a page size of 0 nothing is shown and, while rows remain, the next
      element points back at the same offset, so paging never advances. */
  lemma ZeroPageSizeStalls<T>(store: seq<T>, offset: nat)
    requires offset < |store|
    ensures LookAhead(store, 0, offset) == Page([], Some(offset))
  {
  }
}

=== FILE: parsers.dfy ===
/** Open Graph / Twitter-card scraping (resources/lib/parsers.py).
    The HTML parsing itself is done by a library; the model takes the elements
    it would extract (the `<head><meta>` elements in document order, the first
    `<title>`, the first `<meta name="description">`) as input. */
module Parsers {
  import opened Wrappers

  /** A `(name, value)` pair; the value is None when the element had no text
      or no `content` attribute. */
  datatype Tag = Tag(name: string, value: Option<string>)

  /** A `MetaTagsCollection`: a tuple of tags in assembly order. */
  type MetaTags = seq<Tag>

  datatype MetaElem = MetaElem(property: Option<string>, content: Option<string>)

  /** What the HTML parser yields for one fetched page. */
  datatype Document = Document(
    headMetas: seq<MetaElem>,          // `.//head/meta`, document order
    titleElem: Option<Option<string>>, // `.//title`: present?, and its text
    descriptionElem: Option<MetaElem>) // `.//meta[@name="description"]`

  datatype Response = Response(status: int, document: Document)

  /** A tag `find` may return: named by one of the keys and with a truthy value. */
  predicate Qualifies(t: Tag, keys: seq<string>) {
    t.name in keys && Truthy(t.value)
  }

  /** `MetaTagsCollection.find(*keys, default=default)`. */
  function Find(tags: MetaTags, keys: seq<string>, default: Option<string>): (r: Option<string>)
    ensures (forall n :: 0 <= n < |tags| ==> !Qualifies(tags[n], keys)) ==> r == default
    ensures (exists n :: 0 <= n < |tags| && Qualifies(tags[n], keys)) ==>
              exists n :: 0 <= n < |tags| && Qualifies(tags[n], keys) && r == tags[n].value &&
                          forall q :: 0 <= q < n ==> !Qualifies(tags[q], keys)
  {
    if tags == [] then default
    else if Qualifies(tags[0], keys) then tags[0].value
    else
      var r := Find(tags[1..], keys, default);
      assert forall n :: 0 < n < |tags| ==> tags[n] == tags[1..][n - 1];
      r
  }

  /** `find` looks at the set of keys only: reordering or repeating them changes nothing. */
  lemma FindIgnoresKeyOrder(tags: MetaTags, keys1: seq<string>, keys2: seq<string>, default: Option<string>)
    requires forall k :: k in keys1 <==> k in keys2
    ensures Find(tags, keys1, default) == Find(tags, keys2, default)
  {
    assert forall t :: Qualifies(t, keys1) <==> Qualifies(t, keys2);
  }

  /** Whatever `find` returns is either a truthy value of a matching tag or the default. */
  lemma FindResult(tags: MetaTags, keys: seq<string>, default: Option<string>)
    ensures var r := Find(tags, keys, default);
            r == default || (Truthy(r) && exists n :: 0 <= n < |tags| && tags[n].name in keys && tags[n].value == r)
  {
  }

  /** The tag list `parse_ogg_tags` assembles from a parsed page. */
  function AssembleTags(doc: Document): MetaTags {
    PropertyTags(doc.headMetas)
    + (match doc.titleElem
       case None => []
       case Some(text) => [Tag("title", text)])
    + (match doc.descriptionElem
       case None => []
       case Some(e) => [Tag("description", e.content)])
  }

  /** `(property, content)` for every head meta element whose property is truthy. */
  function PropertyTags(metas: seq<MetaElem>): (tags: MetaTags)
    ensures |tags| <= |metas|
    ensures forall t :: t in tags <==> exists e :: e in metas && Truthy(e.property) && t == Tag(e.property.value, e.content)
  {
    if metas == [] then []
    else
      var rest := PropertyTags(metas[1..]);
      assert forall e :: e in metas <==> e == metas[0] || e in metas[1..];
      if Truthy(metas[0].property) then [Tag(metas[0].property.value, metas[0].content)] + rest else rest
  }

  /** Property tags keep document order: the tags of a split document are the
      tags of the first part followed by those of the second. */
  lemma {:induction false} PropertyTagsAppend(a: seq<MetaElem>, b: seq<MetaElem>)
    ensures PropertyTags(a + b) == PropertyTags(a) + PropertyTags(b)
  {
    if a == [] {
      assert a + b == b;
    } else {
      assert (a + b)[0] == a[0];
      assert (a + b)[1..] == a[1..] + b;
      PropertyTagsAppend(a[1..], b);
    }
  }

  /** Looking up in a concatenation: the first part wins whenever it has a match. */
  lemma {:induction false} FindAppend(a: MetaTags, b: MetaTags, keys: seq<string>, default: Option<string>)
    ensures (exists n :: 0 <= n < |a| && Qualifies(a[n], keys)) ==> Find(a + b, keys, default) == Find(a, keys, default)
    ensures (forall n :: 0 <= n < |a| ==> !Qualifies(a[n], keys)) ==> Find(a + b, keys, default) == Find(b, keys, default)
  {
    if a != [] {
      assert (a + b)[0] == a[0];
      assert (a + b)[1..] == a[1..] + b;
      FindAppend(a[1..], b, keys, default);
      if !Qualifies(a[0], keys) && exists n :: 0 <= n < |a| && Qualifies(a[n], keys) {
        var n :| 0 <= n < |a| && Qualifies(a[n], keys);
        assert a[1..][n - 1] == a[n];
      }
      if forall n :: 0 <= n < |a| ==> !Qualifies(a[n], keys) {
        assert forall n :: 0 <= n < |a[1..]| ==> a[1..][n] == a[n + 1];
      }
    } else {
      assert a + b == b;
    }
  }

  /** The page's `<title>` and description are appended after every property
      tag, so a usable `og:title` or `twitter:title` always beats `<title>`. */
  lemma TitleNeverShadowsProperties(doc: Document, default: Option<string>)
    requires exists e :: e in doc.headMetas && e.property in {Some("og:title"), Some("twitter:title")} && Truthy(e.content)
    ensures var keys := ["og:title", "twitter:title", "title"];
            Find(AssembleTags(doc), keys, default) == Find(PropertyTags(doc.headMetas), keys, default)
    ensures var r := Find(AssembleTags(doc), ["og:title", "twitter:title", "title"], default);
            exists e :: e in doc.headMetas && Truthy(e.property) && e.content == r
  {
    var keys := ["og:title", "twitter:title", "title"];
    var props := PropertyTags(doc.headMetas);
    var e :| e in doc.headMetas && e.property in {Some("og:title"), Some("twitter:title")} && Truthy(e.content);
    var t := Tag(e.property.value, e.content);
    assert t in props;
    var n :| 0 <= n < |props| && props[n] == t;
    assert Qualifies(props[n], keys);
    var rest := (match doc.titleElem case None => [] case Some(text) => [Tag("title", text)])
              + (match doc.descriptionElem case None => [] case Some(d) => [Tag("description", d.content)]);
    assert AssembleTags(doc) == props + rest;
    FindAppend(props, rest, keys, default);
    var r := Find(props, keys, default);
    var m :| 0 <= m < |props| && Qualifies(props[m], keys) && r == props[m].value;
    assert props[m] in props;
  }

  /** `parse_ogg_tags(url)` given the response to the page fetch:
      `raise_for_status` raises for 4xx and 5xx statuses only. */
  function ParseOggTags(resp: Response): (r: Result<MetaTags>)
    ensures 400 <= resp.status < 600 <==> r.Err?
    ensures r.Err? ==> r.error.ValidationError?
    ensures r.Ok? ==> r.value == AssembleTags(resp.document)
  {
    if 400 <= resp.status < 600 then Err(ValidationError("HTTP error for url"))
    else Ok(AssembleTags(resp.document))
  }
}

=== FILE: providers_base.dfy ===
/** `MediaProvider` (resources/lib/providers/base.py): turns the text a user
    pasted into the fields of a library item, by asking the registered
    adapters in order and backfilling what they leave empty from the page's
    Open Graph / Twitter-card tags. */
module ProvidersBase {
  import opened Wrappers
  import opened Storage
  import Text
  import Parsers

  /** A provider adapter: None when the URL is not the provider's, the resolved
      fields when it is, or the error the provider raised. The data it fetches
      is bound into the function value. */
  type Adapter = string -> Result<Option<Entity>>

  /** The registry's `_adapters`. */
  type Registry = seq<Adapter>

  /** The scraper: `parse_ogg_tags(url)`, with the page fetch bound in. */
  type Scraper = string -> Result<Parsers.MetaTags>

  /** Only text starting with `http://` or `https://` (case-sensitive) is a URL. */
  predicate IsUrl(s: string) {
    Text.StartsWith(s, "http://") || Text.StartsWith(s, "https://")
  }

  const TitleKeys: seq<string> := ["og:title", "twitter:title", "title"]
  const DescriptionKeys: seq<string> := ["og:description", "twitter:description"]
  const ImageKeys: seq<string> := ["og:image", "twitter:image"]

  /** What plain text becomes: a folder titled with the text. */
  function FolderEntity(title: string): Entity {
    Entity(Folder, true, Some(title), None, None, None, None, map[])
  }

  datatype Hit = Hit(index: nat, entity: Entity)

  /** Adapters are asked in registration order; the first that answers (with an
      entity or an error) ends the search and later adapters are not asked. */
  function FirstHit(adapters: Registry, url: string): (r: Result<Option<Hit>>)
    ensures r.Ok? && r.value.Some? ==>
              r.value.value.index < |adapters| &&
              adapters[r.value.value.index](url) == Ok(Some(r.value.value.entity)) &&
              forall j :: 0 <= j < r.value.value.index ==> adapters[j](url) == Ok(None)
    ensures r == Ok(None) <==> forall j :: 0 <= j < |adapters| ==> adapters[j](url) == Ok(None)
    ensures r.Err? ==> exists k :: 0 <= k < |adapters| && adapters[k](url) == Err(r.error) &&
                                   forall j :: 0 <= j < k ==> adapters[j](url) == Ok(None)
  {
    if adapters == [] then Ok(None)
    else
      match adapters[0](url)
      case Err(e) => Err(e)
      case Ok(Some(entity)) => Ok(Some(Hit(0, entity)))
      case Ok(None) =>
        var rest := FirstHit(adapters[1..], url);
        assert forall j :: 0 < j < |adapters| ==> adapters[j] == adapters[1..][j - 1];
        match rest
        case Err(e) => Err(e)
        case Ok(None) => Ok(None)
        case Ok(Some(h)) => Ok(Some(Hit(h.index + 1, h.entity)))
  }

  /** The fields an adapter left falsy, filled from the page's tags; `cover`
      and the adapter's `data` are left as the adapter set them. */
  function Backfill(e: Entity, meta: Parsers.MetaTags, url: string): (r: Entity)
    ensures r.itemType == e.itemType && r.isFolder == e.isFolder && r.cover == e.cover && r.data == e.data
    ensures Truthy(e.title) ==> r.title == e.title
    ensures !Truthy(e.title) ==> r.title == Parsers.Find(meta, TitleKeys, Some(url))
    ensures Truthy(e.description) ==> r.description == e.description
    ensures !Truthy(e.description) ==> r.description == Parsers.Find(meta, DescriptionKeys, None)
    ensures r.url == if Truthy(e.url) then e.url else Some(url)
    ensures Truthy(e.thumbnail) ==> r.thumbnail == e.thumbnail
    ensures !Truthy(e.thumbnail) ==> r.thumbnail == Parsers.Find(meta, ImageKeys, None)
  {
    e.(title := Or(e.title, Parsers.Find(meta, TitleKeys, Some(url))),
       description := Or(e.description, Parsers.Find(meta, DescriptionKeys, None)),
       url := Or(e.url, Some(url)),
       thumbnail := Or(e.thumbnail, Parsers.Find(meta, ImageKeys, None)))
  }

  /** No adapter claimed the URL: a playable link described only by its tags. */
  function Fallback(meta: Parsers.MetaTags, url: string): Entity {
    Entity(Video, false,
           Parsers.Find(meta, TitleKeys, Some(url)),
           Parsers.Find(meta, DescriptionKeys, None),
           Some(url),
           Parsers.Find(meta, ImageKeys, None),
           Parsers.Find(meta, ImageKeys, None),
           map[])
  }

  /** `MediaProvider.get_data(title_or_url)`. */
  function GetData(input: string, scrape: Scraper, adapters: Registry): (r: Result<Entity>)
    ensures !IsUrl(input) ==> r == Ok(FolderEntity(input))
    ensures IsUrl(input) && scrape(input).Err? ==> r == Err(scrape(input).error)
    ensures IsUrl(input) && scrape(input).Ok? ==>
              match FirstHit(adapters, input)
              case Err(e) => r == Err(e)
              case Ok(Some(h)) => r == Ok(Backfill(h.entity, scrape(input).value, input))
              case Ok(None) => r == Ok(Fallback(scrape(input).value, input))
  {
    if !IsUrl(input) then Ok(FolderEntity(input))
    else
      var meta :- scrape(input);
      var hit :- FirstHit(adapters, input);
      match hit
      case Some(h) => Ok(Backfill(h.entity, meta, input))
      case None => Ok(Fallback(meta, input))
  }

  /** `MediaProvider.create_item(title_or_url, parent_id)`; the new item's key
      is generated by storage and given here as `id`. */
  function CreateItem(input: string, parentId: Option<int>, id: int, scrape: Scraper, adapters: Registry): (r: Result<Item>)
    ensures r.Ok? <==> GetData(input, scrape, adapters).Ok?
    ensures r.Ok? ==> r.value.parentId == parentId && r.value.entity == GetData(input, scrape, adapters).value
  {
    var e :- GetData(input, scrape, adapters);
    Ok(Item(id, parentId, e))
  }

  /** `MediaProvider.register_adapter(adapter)`: appended after those already registered. */
  function RegisterAdapter(adapters: Registry, a: Adapter): (r: Registry)
    ensures |r| == |adapters| + 1 && r[|adapters|] == a
    ensures forall j :: 0 <= j < |adapters| ==> r[j] == adapters[j]
  {
    adapters + [a]
  }

  // ---------------------------------------------------------------------------
  // Properties of resolution

  /** A newly registered adapter is asked only when every earlier one declined. */
  lemma {:induction false} RegisteredLastIsAskedLast(adapters: Registry, a: Adapter, url: string)
    ensures FirstHit(adapters, url) != Ok(None) ==> FirstHit(RegisterAdapter(adapters, a), url) == FirstHit(adapters, url)
    ensures FirstHit(adapters, url) == Ok(None) ==>
              FirstHit(RegisterAdapter(adapters, a), url) ==
                (match a(url)
                 case Err(e) => Err(e)
                 case Ok(None) => Ok(None)
                 case Ok(Some(e)) => Ok(Some(Hit(|adapters|, e))))
  {
    var r := RegisterAdapter(adapters, a);
    if adapters != [] {
      assert r[0] == adapters[0];
      assert r[1..] == RegisterAdapter(adapters[1..], a);
      RegisteredLastIsAskedLast(adapters[1..], a, url);
    } else {
      assert r[1..] == [];
    }
  }

  /** A resolved URL always gets a non-empty title: the adapter's, a tag's, or the URL itself. */
  lemma ResolvedTitleIsTruthy(input: string, scrape: Scraper, adapters: Registry)
    requires IsUrl(input) && GetData(input, scrape, adapters).Ok?
    ensures Truthy(GetData(input, scrape, adapters).value.title)
  {
    var meta := scrape(input).value;
    Parsers.FindResult(meta, TitleKeys, Some(input));
  }

  /** Without an adapter match the item is a non-folder VIDEO pointing at the
      input, whose thumbnail and cover are the same image tag. */
  lemma UnclaimedUrlIsVideo(input: string, scrape: Scraper, adapters: Registry)
    requires IsUrl(input) && scrape(input).Ok?
    requires forall j :: 0 <= j < |adapters| ==> adapters[j](input) == Ok(None)
    ensures var r := GetData(input, scrape, adapters);
            r.Ok? && r.value.itemType == Video && !r.value.isFolder && r.value.url == Some(input) &&
            r.value.thumbnail == r.value.cover == Parsers.Find(scrape(input).value, ImageKeys, None) &&
            r.value.data == map[]
  {
  }
}

=== FILE: providers_boosty.dfy ===
/** The Boosty provider (resources/lib/providers/boosty.py): the adapter that
    classifies boosty.to URLs into profiles, posts and single videos, the
    choice of a downloadable file, and the two wrappers that turn Boosty
    errors into failed directories. The Boosty API answers are parameters. */
module ProvidersBoosty {
  import opened Wrappers
  import opened PyJson
  import opened Storage
  import Text
  import Regex
  import Directory

  const SitePrefix := "https://boosty.to"

  /** A video media entry: its id, length in seconds and preview image. */
  datatype Media = Media(id: string, duration: int, preview: Option<string>)

  /** A post: its title, its author's name, the `content` of each text block,
      and its video media in post order (`iter_media(media_type=VIDEO)`). */
  datatype Post = Post(title: string, userName: string, content: seq<string>, videos: seq<Media>)

  /** A blog profile, its description already reduced to text. */
  datatype Profile = Profile(
    ownerName: string, title: string, description: string, blogUrl: string,
    avatarUrl: Option<string>, coverUrl: Option<string>)

  /** The session's answers: post by (user, post), media by (user, post, media)
      together with its post, and the profile behind a URL. */
  datatype Api = Api(
    post: (string, string) -> Result<Post>,
    media: (string, string, string) -> Result<(Post, Media)>,
    profile: string -> Result<Profile>)

  // ---------------------------------------------------------------------------
  // Classification

  /** The named groups of the matched pattern; `media_id` only in a media URL. */
  datatype Ref = Ref(username: string, postId: string, mediaId: Option<string>)

  lemma BoostyPatternShapes()
    ensures Regex.NoLazy(Regex.BoostyPost) && Regex.Captures(Regex.BoostyPost) == 2
    ensures Regex.NoLazy(Regex.BoostyMedia) && Regex.Captures(Regex.BoostyMedia) == 3
  {
    var p := Regex.BoostyPost;
    assert p[1..][1..][1..][1..][1..] == [];
    var m := Regex.BoostyMedia;
    assert m[1..][1..][1..][1..][1..][1..][1..] == [];
  }

  /** `re.search(post pattern) or re.search(media pattern)` on `url + '/'`:
      the post pattern is tried first, and a match is used whatever it holds. */
  function ParseRef(u: string): (r: Option<Ref>)
    ensures Regex.Search(Regex.BoostyPost, u).Some? ==>
              var g := Regex.Search(Regex.BoostyPost, u).value.groups;
              |g| == 2 && r == Some(Ref(g[0], g[1], None))
    ensures Regex.Search(Regex.BoostyPost, u).None? && Regex.Search(Regex.BoostyMedia, u).Some? ==>
              var g := Regex.Search(Regex.BoostyMedia, u).value.groups;
              |g| == 3 && r == Some(Ref(g[0], g[1], Some(g[2])))
    ensures r.None? <==> Regex.Search(Regex.BoostyPost, u).None? && Regex.Search(Regex.BoostyMedia, u).None?
  {
    BoostyPatternShapes();
    Regex.SearchGroupCount(Regex.BoostyPost, u);
    Regex.SearchGroupCount(Regex.BoostyMedia, u);
    match Regex.Search(Regex.BoostyPost, u)
    case Some(m) => Some(Ref(m.groups[0], m.groups[1], None))
    case None =>
      match Regex.Search(Regex.BoostyMedia, u)
      case Some(m) => Some(Ref(m.groups[0], m.groups[1], Some(m.groups[2])))
      case None => None
  }

  /** The item for one media of a post, or for the post as a folder when no
      media id is given. */
  function MediaEntity(ref: Ref, post: Post, media: Media, mediaId: Option<string>): (e: Entity)
    ensures e.isFolder <==> mediaId.None?
    ensures e.itemType == if mediaId.None? then BoostyPost else BoostyVideo
    ensures e.data.Keys == if mediaId.None? then {"post_id", "username"}
                           else {"post_id", "username", "media_id", "duration"}
    ensures e.data["post_id"] == PyStr(ref.postId) && e.data["username"] == PyStr(ref.username)
    ensures mediaId.Some? ==> e.data["media_id"] == PyStr(mediaId.value) && e.data["duration"] == PyInt(media.duration)
    ensures e.thumbnail == e.cover == media.preview
  {
    var ids := map["post_id" := PyStr(ref.postId), "username" := PyStr(ref.username)];
    Entity(
      if mediaId.None? then BoostyPost else BoostyVideo,
      mediaId.None?,
      Some(post.title + " - " + post.userName),
      Some(Text.Join(" ", post.content)),
      None,
      media.preview, media.preview,
      if mediaId.None? then ids
      else ids["media_id" := PyStr(mediaId.value)]["duration" := PyInt(media.duration)])
  }

  /** `get_data(username, post_id, media_id)`. Without a media id the post is
      fetched: no video is an error, one video is that video (under its own
      id), two or more make the post a folder. With a media id the media is
      fetched directly. */
  function GetData(ref: Ref, api: Api): (r: Result<Entity>)
    ensures r.Ok? ==> "post_id" in r.value.data && "username" in r.value.data
    ensures r.Ok? ==> r.value.data["post_id"] == PyStr(ref.postId) && r.value.data["username"] == PyStr(ref.username)
    ensures r.Ok? ==> ("media_id" in r.value.data <==> !r.value.isFolder) &&
                      ("duration" in r.value.data <==> !r.value.isFolder)
    ensures ref.mediaId.Some? ==>
              var found := api.media(ref.username, ref.postId, ref.mediaId.value);
              (found.Err? ==> r == Err(found.error)) &&
              (found.Ok? ==> r.Ok? && r.value.itemType == BoostyVideo && !r.value.isFolder &&
                             r.value.data["media_id"] == PyStr(ref.mediaId.value))
    ensures ref.mediaId.None? ==>
              var found := api.post(ref.username, ref.postId);
              (found.Err? ==> r == Err(found.error)) &&
              (found.Ok? && |found.value.videos| == 0 ==> r.Err? && r.error.ValueError?) &&
              (found.Ok? && |found.value.videos| == 1 ==>
                 r.Ok? && r.value.itemType == BoostyVideo && !r.value.isFolder &&
                 r.value.data["media_id"] == PyStr(found.value.videos[0].id)) &&
              (found.Ok? && |found.value.videos| >= 2 ==>
                 r.Ok? && r.value.itemType == BoostyPost && r.value.isFolder)
  {
    match ref.mediaId
    case None =>
      var post :- api.post(ref.username, ref.postId);
      if |post.videos| == 0 then Err(ValueError("no media files in post"))
      else
        var media := post.videos[0];
        Ok(MediaEntity(ref, post, media, if |post.videos| >= 2 then None else Some(media.id)))
    case Some(mid) =>
      var found :- api.media(ref.username, ref.postId, mid);
      Ok(MediaEntity(ref, found.0, found.1, Some(mid)))
  }

  /** A profile URL: the blog as a folder, at its canonical address. */
  function ProfileEntity(p: Profile): (e: Entity)
    ensures e.itemType == BoostyProfile && e.isFolder
    ensures e.url == Some("https://boosty.to/" + p.blogUrl + "/")
    ensures e.data == map["username" := PyStr(p.blogUrl)]
  {
    Entity(BoostyProfile, true, Some(p.ownerName + " - " + p.title), Some(p.description),
           Some("https://boosty.to/" + p.blogUrl + "/"), p.avatarUrl, p.coverUrl,
           map["username" := PyStr(p.blogUrl)])
  }

  /** `adapter(url)`: None for other sites; a post or media URL goes through
      `get_data`, anything else on boosty.to is a profile. */
  function Adapter(url: string, api: Api): (r: Result<Option<Entity>>)
    ensures r == Ok(None) <==> !Text.StartsWith(url, SitePrefix)
    ensures Text.StartsWith(url, SitePrefix) && ParseRef(url + "/").Some? ==>
              var d := GetData(ParseRef(url + "/").value, api);
              (d.Ok? ==> r == Ok(Some(d.value))) && (d.Err? ==> r == Err(d.error))
    ensures Text.StartsWith(url, SitePrefix) && ParseRef(url + "/").None? ==>
              (api.profile(url).Ok? ==> r == Ok(Some(ProfileEntity(api.profile(url).value)))) &&
              (api.profile(url).Err? ==> r == Err(api.profile(url).error))
  {
    if !Text.StartsWith(url, SitePrefix) then Ok(None)
    else
      match ParseRef(url + "/")
      case Some(ref) =>
        var e :- GetData(ref, api);
        Ok(Some(e))
      case None =>
        var p :- api.profile(url);
        Ok(Some(ProfileEntity(p)))
  }

  /** Whatever the adapter returns for a Boosty URL carries the identity keys
      the Boosty URL constructors read: `username` always, `post_id` unless it
      is a profile, `media_id` exactly when it is a single video. */
  lemma AdapterIdentityKeys(url: string, api: Api)
    requires Adapter(url, api).Ok? && Adapter(url, api).value.Some?
    ensures var e := Adapter(url, api).value.value;
            "username" in e.data && e.data["username"].PyStr? &&
            (e.itemType == BoostyProfile || e.itemType == BoostyPost || e.itemType == BoostyVideo) &&
            (e.itemType != BoostyProfile ==> "post_id" in e.data && e.data["post_id"].PyStr?) &&
            (e.itemType == BoostyVideo <==> "media_id" in e.data) &&
            (e.itemType == BoostyVideo ==> e.data["media_id"].PyStr?)
  {
    var ref := ParseRef(url + "/");
    if ref.Some? {
      var d := GetData(ref.value, api);
      assert d.Ok?;
      match ref.value.mediaId
      case Some(mid) =>
      case None =>
        var post := api.post(ref.value.username, ref.value.postId).value;
        assert |post.videos| > 0;
    }
  }

  // ---------------------------------------------------------------------------
  // Choosing a file to download

  /** The library's video qualities; `OtherQuality` stands for any it adds. */
  datatype Quality = Sd144 | Sd240 | Sd360 | Sd480 | Hd | Fhd | Qhd | Uhd | Dash | Hls | OtherQuality(name: string)

  /** The downloader's quality names offered in the dialog. */
  datatype DownloadQuality = DlSd144 | DlSd240 | DlSd360 | DlSd480 | DlHd720 | DlFhd1080 | DlQhd1440 | DlUhd2160

  /** `yt_quality_map`: defined for the eight progressive qualities only. */
  function DownloadQualityOf(q: Quality): Option<DownloadQuality> {
    match q
    case Sd144 => Some(DlSd144)
    case Sd240 => Some(DlSd240)
    case Sd360 => Some(DlSd360)
    case Sd480 => Some(DlSd480)
    case Hd => Some(DlHd720)
    case Fhd => Some(DlFhd1080)
    case Qhd => Some(DlQhd1440)
    case Uhd => Some(DlUhd2160)
    case _ => None
  }

  /** The dialog's choices, one per allowed file in order; a quality missing
      from the map is a KeyError. */
  function Offered(files: seq<(Quality, string)>): (r: Result<seq<DownloadQuality>>)
    ensures r.Ok? <==> forall n :: 0 <= n < |files| ==> DownloadQualityOf(files[n].0).Some?
    ensures r.Ok? ==> |r.value| == |files| &&
                      forall n :: 0 <= n < |files| ==> Some(r.value[n]) == DownloadQualityOf(files[n].0)
    ensures r.Err? ==> r.error.KeyError?
  {
    if files == [] then Ok([])
    else
      match DownloadQualityOf(files[0].0)
      case None => Err(KeyError("quality"))
      case Some(q) =>
        var rest :- Offered(files[1..]);
        assert forall n :: 0 < n < |files| ==> files[n] == files[1..][n - 1];
        Ok([q] + rest)
  }

  /** `select_file_url`: `files` are the allowed (quality, url) pairs and
      `choice` the index the selection dialog returned (negative when
      cancelled). */
  function SelectFileUrl(files: seq<(Quality, string)>, choice: int): (r: Result<Option<string>>)
    ensures r.Ok? ==> forall n :: 0 <= n < |files| ==> files[n].0 != Dash && files[n].0 != Hls
    ensures (exists n :: 0 <= n < |files| && DownloadQualityOf(files[n].0).None?) ==> r.Err? && r.error.KeyError?
    ensures Offered(files).Ok? && choice < 0 ==> r == Ok(None)
    ensures Offered(files).Ok? && 0 <= choice < |files| ==> r == Ok(Some(files[choice].1))
  {
    var labels :- Offered(files);
    if choice < 0 then Ok(None)
    else if choice >= |files| then Err(IndexError)
    else Ok(Some(files[choice].1))
  }

  // ---------------------------------------------------------------------------
  // Error handling wrappers

  /** A handler's result as a wrapper sees it. */
  function Run<T>(r: Result<T>): (o: Result<Directory.Outcome<T>>)
    ensures r.Ok? ==> o == Ok(Directory.Completed(r.value))
    ensures r.Err? ==> o == Err(r.error)
  {
    match r
    case Ok(v) => Ok(Directory.Completed(v))
    case Err(e) => Err(e)
  }

  /** `catch_api_error`: a Boosty API error alerts its description, a Boosty
      library error its message, and both end the directory as failed; any
      other error propagates. */
  function CatchApiError<T>(r: Result<Directory.Outcome<T>>): (o: Result<Directory.Outcome<T>>)
    ensures r.Ok? ==> o == r
    ensures r.Err? && r.error.BoostyApiError? ==> o == Ok(Directory.Failed(r.error.description))
    ensures r.Err? && r.error.BoostyError? ==> o == Ok(Directory.Failed(r.error.msg))
    ensures r.Err? && !r.error.BoostyApiError? && !r.error.BoostyError? ==> o == r
  {
    match r
    case Err(BoostyApiError(d)) => Ok(Directory.Failed(d))
    case Err(BoostyError(m)) => Ok(Directory.Failed(m))
    case _ => r
  }

  /** `boosty_login`: with Boosty enabled the session authenticates first
      (`auth`); an AuthError alerts and ends the directory as failed without
      running the handler. Disabled, the handler runs unauthenticated. */
  function BoostyLogin<T>(enabled: bool, auth: Result<()>, handler: Result<T>): (o: Result<Directory.Outcome<T>>)
    ensures !enabled ==> o == Run(handler)
    ensures enabled && auth.Ok? ==> o == Run(handler)
    ensures enabled && auth.Err? && auth.error.AuthError? ==> o == Ok(Directory.Failed(auth.error.msg))
    ensures enabled && auth.Err? && !auth.error.AuthError? ==> o == Err(auth.error)
  {
    if !enabled then Run(handler)
    else match auth
      case Ok(_) => Run(handler)
      case Err(AuthError(m)) => Ok(Directory.Failed(m))
      case Err(e) => Err(e)
  }

  /** A failed login decides the outcome whatever the handler would do. */
  lemma LoginFailureSkipsHandler<T>(auth: Result<()>, h1: Result<T>, h2: Result<T>)
    requires auth.Err? && auth.error.AuthError?
    ensures BoostyLogin(true, auth, h1) == BoostyLogin(true, auth, h2)
    ensures BoostyLogin(true, auth, h1).Ok? && BoostyLogin(true, auth, h1).value.Failed?
  {
  }
}

=== FILE: providers_registry.dfy ===
/** The addon's media provider (resources/lib/providers/__init__.py): a
    `MediaProvider` with the Boosty adapter registered first and the Rutube
    adapter second. The YouTube adapter exists but is never registered, so
    YouTube links resolve like any other web page. */
module Providers {
  import opened Wrappers
  import opened Storage
  import Text
  import ProvidersBase
  import ProvidersBoosty
  import ProvidersRutube

  /** `media_provider` after its two `register_adapter` calls; the APIs the
      adapters talk to are bound into them. */
  function Registry(boosty: ProvidersBoosty.Api, rutube: ProvidersRutube.Api): (r: ProvidersBase.Registry)
    ensures |r| == 2
    ensures forall u :: r[0](u) == ProvidersBoosty.Adapter(u, boosty)
    ensures forall u :: r[1](u) == ProvidersRutube.Adapter(u, rutube)
  {
    var b: ProvidersBase.Adapter := u => ProvidersBoosty.Adapter(u, boosty);
    var rt: ProvidersBase.Adapter := u => ProvidersRutube.Adapter(u, rutube);
    ProvidersBase.RegisterAdapter(ProvidersBase.RegisterAdapter([], b), rt)
  }

  /** A Boosty link is answered by the Boosty adapter; Rutube is not asked. */
  lemma BoostyAnswersFirst(u: string, boosty: ProvidersBoosty.Api, rutube: ProvidersRutube.Api)
    requires Text.StartsWith(u, ProvidersBoosty.SitePrefix)
    ensures var a := ProvidersBoosty.Adapter(u, boosty);
            var h := ProvidersBase.FirstHit(Registry(boosty, rutube), u);
            (a.Err? ==> h == Err(a.error)) &&
            (a.Ok? ==> a.value.Some? && h == Ok(Some(ProvidersBase.Hit(0, a.value.value))))
  {
    var reg := Registry(boosty, rutube);
    assert reg[0](u) == ProvidersBoosty.Adapter(u, boosty);
    assert reg[1..] == [reg[1]];
  }

  /** A Rutube link is answered by the Rutube adapter, after Boosty declined. */
  lemma RutubeAnswersSecond(u: string, boosty: ProvidersBoosty.Api, rutube: ProvidersRutube.Api)
    requires Text.StartsWith(u, ProvidersRutube.SitePrefix)
    ensures var a := ProvidersRutube.Adapter(u, rutube);
            var h := ProvidersBase.FirstHit(Registry(boosty, rutube), u);
            (a.Err? ==> h == Err(a.error)) &&
            (a.Ok? ==> a.value.Some? && h == Ok(Some(ProvidersBase.Hit(1, a.value.value))))
  {
    var reg := Registry(boosty, rutube);
    assert u[8] == 'r';
    assert !Text.StartsWith(u, ProvidersBoosty.SitePrefix);
    assert reg[0](u) == Ok(None);
    assert reg[1](u) == ProvidersRutube.Adapter(u, rutube);
    assert reg[1..] == [reg[1]];
    assert reg[1..][1..] == [];
  }

  /** A YouTube watch link is not recognised by any registered adapter: it
      becomes a plain VIDEO item pointing at the link, not a YOUTUBE_VIDEO. */
  lemma YouTubeLinkIsPlainVideo(u: string, scrape: ProvidersBase.Scraper,
                                boosty: ProvidersBoosty.Api, rutube: ProvidersRutube.Api)
    requires Text.StartsWith(u, "https://www.youtube.com/") && scrape(u).Ok?
    ensures var r := ProvidersBase.GetData(u, scrape, Registry(boosty, rutube));
            r.Ok? && r.value.itemType == Video && !r.value.isFolder && r.value.url == Some(u)
  {
    var reg := Registry(boosty, rutube);
    assert u[8] == 'w';
    assert !Text.StartsWith(u, ProvidersBoosty.SitePrefix);
    assert !Text.StartsWith(u, ProvidersRutube.SitePrefix);
    assert reg[0](u) == Ok(None) && reg[1](u) == Ok(None);
    assert u[..8] == u[..24][..8];
    ProvidersBase.UnclaimedUrlIsVideo(u, scrape, reg);
  }
}

=== FILE: providers_rutube.dfy ===
/** The Rutube provider (resources/lib/providers/rutube.py): the adapter that
    classifies rutube.ru URLs, the collection cursor, and the choice of the
    stream and of the HLS variant to play. The API answers are parameters. */
module ProvidersRutube {
  import opened Wrappers
  import opened PyJson
  import opened Storage
  import Text
  import Regex
  import RutubeClient
  import Settings

  const VideoPrefix := "https://rutube.ru/video/"
  const PlaylistPrefix := "https://rutube.ru/plst/"
  const SitePrefix := "https://rutube.ru/"

  /** One entry of a `live_streams` list. */
  datatype Stream = Stream(isVideo: bool, isAudio: bool, url: string)

  /** A key of a JSON object: missing, present as `null`, or present as text. */
  datatype Field = Absent | Null | Text(text: string)

  /** `video_balancer`: its `m3u8` and `default` keys. */
  datatype Balancer = Balancer(m3u8: Field, default: Field)

  /** The value `dict.get` or `dict[...]` returns for a present key. */
  function FieldValue(f: Field): Option<string>
    requires !f.Absent?
  {
    if f.Text? then Some(f.text) else None
  }

  /** `/play/options/<id>`: `live_streams` as (stream type, streams) in the
      dictionary's order, and the balancer, each possibly absent. */
  datatype RtVideo = RtVideo(
    id: string, title: string, authorName: string, description: Option<string>,
    thumbnailUrl: Option<string>, durationMs: int,
    liveStreams: Option<seq<(string, seq<Stream>)>>, balancer: Option<Balancer>)

  /** `get_playlist_by_id`: the playlist with its author already fetched. */
  datatype RtPlaylist = RtPlaylist(
    id: int, title: string, authorName: string, description: Option<string>, thumbnailUrl: Option<string>)

  /** `get_user`: the profile, with `appearance.cover_image` possibly absent. */
  datatype RtUser = RtUser(
    id: int, name: string, description: Option<string>, avatarUrl: Option<string>, coverImage: Option<string>)

  /** The session's answers: video by id (None when the URL held none),
      playlist by id, user by id, and the raw text of a page. */
  datatype Api = Api(
    video: Option<string> -> Result<RtVideo>,
    playlist: int -> Result<RtPlaylist>,
    user: int -> Result<RtUser>,
    page: string -> Result<string>)

  // ---------------------------------------------------------------------------
  // Ids and arithmetic

  /** `get_playlist_id(url)`: the digits after `/plst/`; no slash needed after them. */
  function PlaylistId(url: string): (r: Result<int>)
    ensures Regex.ReSearch(Regex.PlaylistDigits, url).Some? ==>
              var g := Regex.ReSearch(Regex.PlaylistDigits, url).value;
              Text.AllDigits(g) && r == Ok(Text.DigitsValue(g) as int)
    ensures Regex.ReSearch(Regex.PlaylistDigits, url).None? ==> r.Err? && r.error.ValueError?
  {
    match Regex.ReSearch(Regex.PlaylistDigits, url)
    case Some(g) =>
      Regex.PlaylistDigitsDigits(url);
      Settings.ParseDigits(g);
      Settings.ParseInt(g)
    case None => Err(ValueError("not Rutube playlist"))
  }

  /** `get_channel_id(url)` here is `re_search(/channel/..) or re_search(body)`:
      the URL's digits win and the page is fetched only without them, which is
      exactly the client's `get_channel_id`. */
  lemma ChannelIdPrefersUrl(url: string, api: Api, other: string -> Result<string>)
    ensures Regex.ReSearch(Regex.ChannelDigits, url).Some? ==>
              RutubeClient.ChannelId(url, api.page) == RutubeClient.ChannelId(url, other)
    ensures Regex.ReSearch(Regex.ChannelDigits, url).None? && api.page(url).Ok? &&
            Regex.ReSearch(Regex.ChannelIdInBody, api.page(url).value).None? ==>
              RutubeClient.ChannelId(url, api.page).Err? && RutubeClient.ChannelId(url, api.page).error.ValueError?
  {
  }

  /** `math.ceil(ms / 1000)`. */
  function CeilSeconds(ms: int): (r: int)
    ensures 1000 * (r - 1) < ms <= 1000 * r
  {
    -((-ms) / 1000)
  }

  /** `Collection.next_page`: the following page while there is one, then
      back to the first page, and None for a single page. */
  function NextPage(page: int, hasNext: bool): (r: Option<int>)
    ensures hasNext ==> r == Some(page + 1)
    ensures !hasNext ==> (r.Some? <==> page > 1) && (r.Some? ==> r.value == 1)
  {
    if hasNext then Some(page + 1)
    else if page > 1 then Some(1)
    else None
  }

  /** The cursor never points at the page it was computed on, and following it
      from any page of a run of `last` pages reaches page 1 again. */
  lemma {:induction false} NextPageCycles(page: int, last: int)
    requires 1 <= page <= last
    ensures NextPage(page, page < last) != Some(page)
    ensures last > 1 ==> Reaches(page, last, last - page + 1)
    decreases last - page
  {
    if page < last {
      NextPageCycles(page + 1, last);
    }
  }

  /** Following the cursor `steps` times from `page`, with pages 1..last
      having a successor until `last`, lands on page 1. */
  ghost predicate Reaches(page: int, last: int, steps: nat)
    decreases steps
  {
    if steps == 0 then page == 1
    else
      var n := NextPage(page, page < last);
      n.Some? && Reaches(n.value, last, steps - 1)
  }

  // ---------------------------------------------------------------------------
  // The stream to play

  /** The first stream, in the given order, that carries both video and audio. */
  function FirstAv(streams: seq<Stream>): (r: Option<string>)
    ensures r.None? <==> forall n :: 0 <= n < |streams| ==> !(streams[n].isVideo && streams[n].isAudio)
    ensures r.Some? ==> exists n :: 0 <= n < |streams| && streams[n].isVideo && streams[n].isAudio &&
                                   streams[n].url == r.value &&
                                   forall m :: 0 <= m < n ==> !(streams[m].isVideo && streams[m].isAudio)
  {
    if streams == [] then None
    else if streams[0].isVideo && streams[0].isAudio then Some(streams[0].url)
    else
      var r := FirstAv(streams[1..]);
      assert forall n :: 0 < n < |streams| ==> streams[n] == streams[1..][n - 1];
      r
  }

  /** The streams of every type, in type order and then list order. */
  function Flatten(groups: seq<(string, seq<Stream>)>): (r: seq<Stream>)
    ensures forall g, n :: 0 <= g < |groups| && 0 <= n < |groups[g].1| ==> groups[g].1[n] in r
  {
    if groups == [] then []
    else
      var rest := Flatten(groups[1..]);
      assert forall g :: 0 < g < |groups| ==> groups[g] == groups[1..][g - 1];
      groups[0].1 + rest
  }

  /** `Video.url`: a live stream with video and audio first; then the
      balancer's `m3u8`, whose fallback `default` is looked up even when `m3u8`
      is present (a balancer without `default` raises KeyError); else None.
      A key present as `null` is returned as None, not passed over. */
  function VideoUrl(v: RtVideo): (r: Result<Option<string>>)
    ensures v.liveStreams.Some? && FirstAv(Flatten(v.liveStreams.value)).Some? ==>
              r == Ok(FirstAv(Flatten(v.liveStreams.value)))
    ensures (v.liveStreams.None? || FirstAv(Flatten(v.liveStreams.value)).None?) ==>
              match v.balancer
              case None => r == Ok(None)
              case Some(b) =>
                (b.default.Absent? ==> r == Err(KeyError("default"))) &&
                (!b.default.Absent? && b.m3u8.Text? ==> r == Ok(Some(b.m3u8.text))) &&
                (!b.default.Absent? && b.m3u8.Null? ==> r == Ok(None)) &&
                (b.m3u8.Absent? && b.default.Text? ==> r == Ok(Some(b.default.text))) &&
                (b.m3u8.Absent? && b.default.Null? ==> r == Ok(None))
  {
    var live := if v.liveStreams.Some? then FirstAv(Flatten(v.liveStreams.value)) else None;
    if live.Some? then Ok(live)
    else match v.balancer
      case None => Ok(None)
      case Some(b) =>
        if b.default.Absent? then Err(KeyError("default"))
        else if b.m3u8.Absent? then Ok(FieldValue(b.default))
        else Ok(FieldValue(b.m3u8))
  }

  // ---------------------------------------------------------------------------
  // The HLS variant to play (section 4.3.4.2 of RFC 8216: RESOLUTION)

  /** A variant stream of the master playlist: its RESOLUTION as (width,
      height) when the manifest gives one, and its URI. */
  datatype Variant = Variant(resolution: Option<(int, int)>, uri: string)

  /** Python's tuple order on (width, height). */
  predicate ResLe(a: (int, int), b: (int, int)) {
    a.0 < b.0 || (a.0 == b.0 && a.1 <= b.1)
  }

  predicate Resolved(vs: seq<Variant>) {
    forall n :: 0 <= n < |vs| ==> vs[n].resolution.Some?
  }

  predicate Fits(v: Variant, screen: (int, int))
    requires v.resolution.Some?
  {
    ResLe(v.resolution.value, screen)
  }

  /** Among `vs[..n]`, the index of the first of the largest variants that fit. */
  function BestIndex(vs: seq<Variant>, screen: (int, int), n: nat): (r: Option<nat>)
    requires Resolved(vs) && n <= |vs|
    ensures r.None? <==> forall k :: 0 <= k < n ==> !Fits(vs[k], screen)
    ensures r.Some? ==> r.value < n && Fits(vs[r.value], screen)
    ensures r.Some? ==> forall k :: 0 <= k < n && Fits(vs[k], screen) ==>
                          ResLe(vs[k].resolution.value, vs[r.value].resolution.value)
    ensures r.Some? ==> forall k :: 0 <= k < r.value && Fits(vs[k], screen) ==>
                          vs[k].resolution.value != vs[r.value].resolution.value
  {
    if n == 0 then None
    else
      var b := BestIndex(vs, screen, n - 1);
      var here := vs[n - 1];
      if Fits(here, screen) && (b.None? || !ResLe(here.resolution.value, vs[b.value].resolution.value))
      then Some(n - 1)
      else b
  }

  /** `best_quality_url` on a loaded master playlist: the variants that fit the
      screen, sorted largest first (a stable sort), and the first of them; when
      none fits, the first variant of the manifest, whatever its size. A
      variant without RESOLUTION cannot be compared (TypeError) and an empty
      manifest has no first variant (IndexError). */
  function BestVariant(vs: seq<Variant>, screen: (int, int)): (r: Result<string>)
    ensures !Resolved(vs) ==> r == Err(TypeError)
    ensures Resolved(vs) && vs == [] ==> r == Err(IndexError)
    ensures Resolved(vs) && vs != [] && (forall k :: 0 <= k < |vs| ==> !Fits(vs[k], screen)) ==>
              r == Ok(vs[0].uri)
    ensures Resolved(vs) && (exists k :: 0 <= k < |vs| && Fits(vs[k], screen)) ==>
              exists b :: 0 <= b < |vs| && r == Ok(vs[b].uri) && Fits(vs[b], screen) &&
                (forall k :: 0 <= k < |vs| && Fits(vs[k], screen) ==>
                   ResLe(vs[k].resolution.value, vs[b].resolution.value)) &&
                (forall k :: 0 <= k < b && Fits(vs[k], screen) ==>
                   vs[k].resolution.value != vs[b].resolution.value)
  {
    if !Resolved(vs) then Err(TypeError)
    else match BestIndex(vs, screen, |vs|)
      case Some(b) => Ok(vs[b].uri)
      case None => if vs == [] then Err(IndexError) else Ok(vs[0].uri)
  }

  /** The fallback is the first variant, not the largest one. */
  lemma FallbackIsFirstNotLargest()
    ensures BestVariant([Variant(Some((1280, 720)), "720"), Variant(Some((3840, 2160)), "2160")], (640, 360)) == Ok("720")
  {
    var vs := [Variant(Some((1280, 720)), "720"), Variant(Some((3840, 2160)), "2160")];
    assert !Fits(vs[0], (640, 360)) && !Fits(vs[1], (640, 360));
  }

  /** `Video.best_quality_url`: None without a stream URL, else the variant
      chosen from the master playlist `load` returns for that URL. */
  function BestQualityUrl(v: RtVideo, load: string -> seq<Variant>, screen: (int, int)): (r: Result<Option<string>>)
    ensures VideoUrl(v).Err? ==> r == Err(VideoUrl(v).error)
    ensures VideoUrl(v) == Ok(None) ==> r == Ok(None)
    ensures VideoUrl(v).Ok? && VideoUrl(v).value.Some? ==>
              var chosen := BestVariant(load(VideoUrl(v).value.value), screen);
              (chosen.Ok? ==> r == Ok(Some(chosen.value))) && (chosen.Err? ==> r == Err(chosen.error))
  {
    var url :- VideoUrl(v);
    match url
    case None => Ok(None)
    case Some(u) =>
      var best :- BestVariant(load(u), screen);
      Ok(Some(best))
  }

  // ---------------------------------------------------------------------------
  // The adapter

  /** `adapter(url)`: ordered prefix dispatch over rutube.ru URLs. The adapter
      sets no `url`, so the caller stores the pasted one. */
  function Adapter(url: string, api: Api): (r: Result<Option<Entity>>)
    ensures r == Ok(None) <==> !Text.StartsWith(url, SitePrefix)
    ensures r.Ok? && r.value.Some? ==> r.value.value.url.None?
  {
    PrefixesNest(url);
    if Text.StartsWith(url, VideoPrefix) then
      var v :- api.video(Regex.ReSearch(Regex.VideoSlug, url));
      Ok(Some(Entity(RutubeVideo, false, Some(v.authorName + " - " + v.title), v.description, None,
                     v.thumbnailUrl, v.thumbnailUrl,
                     map["video_id" := PyStr(v.id), "duration" := PyInt(CeilSeconds(v.durationMs))])))
    else if Text.StartsWith(url, PlaylistPrefix) then
      var id :- PlaylistId(url);
      var p :- api.playlist(id);
      Ok(Some(Entity(RutubePlaylist, true, Some(p.authorName + " - " + p.title), p.description, None,
                     p.thumbnailUrl, p.thumbnailUrl, map["playlist_id" := PyInt(p.id)])))
    else if Text.StartsWith(url, SitePrefix) then
      var id :- RutubeClient.ChannelId(url, api.page);
      var u :- api.user(id);
      Ok(Some(Entity(RutubeChannel, true, Some(u.name), u.description, None,
                     u.avatarUrl, u.coverImage, map["channel_id" := PyInt(u.id)])))
    else Ok(None)
  }

  /** A `/video/` URL is a non-folder video looked up by the slug between
      `/video/` and the next slash; its duration is whole seconds rounded up. */
  lemma AdapterVideo(url: string, api: Api)
    requires Text.StartsWith(url, VideoPrefix)
    ensures var found := api.video(Regex.ReSearch(Regex.VideoSlug, url));
            var r := Adapter(url, api);
            (found.Err? ==> r == Err(found.error)) &&
            (found.Ok? ==>
               var v := found.value;
               r.Ok? && r.value.Some? &&
               var e := r.value.value;
               e.itemType == RutubeVideo && !e.isFolder &&
               e.title == Some(v.authorName + " - " + v.title) &&
               e.thumbnail == e.cover == v.thumbnailUrl &&
               e.data.Keys == {"video_id", "duration"} && e.data["video_id"] == PyStr(v.id) &&
               e.data["duration"].PyInt? &&
               1000 * (e.data["duration"].i - 1) < v.durationMs <= 1000 * e.data["duration"].i)
  {
  }

  /** A `/plst/` URL is a folder playlist; without digits after `/plst/` it
      fails with the id extractor's ValueError. */
  lemma AdapterPlaylist(url: string, api: Api)
    requires !Text.StartsWith(url, VideoPrefix) && Text.StartsWith(url, PlaylistPrefix)
    ensures var r := Adapter(url, api);
            (PlaylistId(url).Err? ==> r.Err? && r.error.ValueError?) &&
            (PlaylistId(url).Ok? && api.playlist(PlaylistId(url).value).Ok? ==>
               var p := api.playlist(PlaylistId(url).value).value;
               r == Ok(Some(Entity(RutubePlaylist, true, Some(p.authorName + " - " + p.title), p.description,
                                   None, p.thumbnailUrl, p.thumbnailUrl, map["playlist_id" := PyInt(p.id)]))))
  {
  }

  /** Any other rutube.ru URL is a folder channel of the user `get_channel_id`
      finds; its thumbnail is the avatar and its cover the channel artwork. */
  lemma AdapterChannel(url: string, api: Api)
    requires Text.StartsWith(url, SitePrefix)
    requires !Text.StartsWith(url, VideoPrefix) && !Text.StartsWith(url, PlaylistPrefix)
    ensures var id := RutubeClient.ChannelId(url, api.page);
            var r := Adapter(url, api);
            (id.Err? ==> r == Err(id.error)) &&
            (id.Ok? && api.user(id.value).Ok? ==>
               var u := api.user(id.value).value;
               r.Ok? && r.value.Some? &&
               var e := r.value.value;
               e.itemType == RutubeChannel && e.isFolder && e.title == Some(u.name) &&
               e.thumbnail == u.avatarUrl && e.cover == u.coverImage &&
               e.data == map["channel_id" := PyInt(u.id)])
  {
  }

  /** The two more specific prefixes extend the site prefix and exclude each
      other, so the order of the tests decides: a video or playlist URL never
      reaches the channel branch. */
  lemma PrefixesNest(url: string)
    ensures Text.StartsWith(url, VideoPrefix) ==> Text.StartsWith(url, SitePrefix) && url[18] == 'v'
    ensures Text.StartsWith(url, PlaylistPrefix) ==> Text.StartsWith(url, SitePrefix) && url[18] == 'p'
  {
    if Text.StartsWith(url, VideoPrefix) {
      assert url[..|SitePrefix|] == VideoPrefix[..|SitePrefix|];
      assert url[18] == VideoPrefix[18];
    }
    if Text.StartsWith(url, PlaylistPrefix) {
      assert url[..|SitePrefix|] == PlaylistPrefix[..|SitePrefix|];
      assert url[18] == PlaylistPrefix[18];
    }
  }
}

=== FILE: providers_youtube.dfy ===
/** The YouTube provider (resources/lib/providers/youtube.py): the URL
    adapter, the resource/collection request rules of `YouTubeApi`, and the
    derived fields of the resource wrappers (duration, thumbnails, cover).

    URLs are taken already split by `urlparse`/`parse_qs` (`UrlParts`); API
    replies and the image download are fields of an `Api` value. */
module ProvidersYouTube {
  import opened Wrappers
  import opened Storage
  import opened PyJson
  import Text
  import Regex

  const BaseUrl: string := "https://www.youtube.com"
  const MaxResults: int := 50
  const Hosts: set<string> := {"www.youtube.com", "youtu.be", "youtube.com"}

  /** `urlparse(url)` with the query already through `parse_qs`: every key
      maps to the non-empty list of its non-blank values. */
  datatype UrlParts = UrlParts(netloc: string, path: string, query: map<string, seq<string>>)

  /** One entry of `snippet.thumbnails`: its key, height and URL. */
  datatype Thumb = Thumb(name: string, height: int, url: string)

  /** A video of `/videos` or `/playlistItems`. `aired` is
      `published.strftime('%Y-%m-%d %H:%M:%S')`, or None when
      `datetime.fromisoformat` cannot parse `snippet.publishedAt`. */
  datatype YtVideo = YtVideo(id: string, title: string, aired: Option<string>, durationText: string, thumbnails: seq<Thumb>)
  /** A playlist of `/playlists`, with `aired` as for a video. */
  datatype YtPlaylist = YtPlaylist(id: string, title: string, channelId: string, aired: Option<string>, thumbnails: seq<Thumb>)
  /** `banner` is `brandingSettings.image.bannerExternalUrl`, None when there is no `image`. */
  datatype YtChannel = YtChannel(id: string, title: string, thumbnails: seq<Thumb>, banner: Option<string>, uploads: string)

  /** A reply of the Data API: the error body of a failed request, or the
      page info's `totalResults` together with `items`. */
  datatype Reply<T> = Failure(code: int, message: string) | Listing(total: int, items: seq<T>)

  /** The filter `get_channel_by_id` / `get_channel_by_username` send to `/channels`. */
  datatype ChannelQuery = ById(id: Option<string>) | ForHandle(handle: string) | ForUsername(name: string)

  /** What the adapter fetches: the three resource endpoints, the image
      download (which returns the stored file's path) and the screen width. */
  datatype Api = Api(
    videos: Option<string> -> Reply<YtVideo>,
    playlists: string -> Reply<YtPlaylist>,
    channels: ChannelQuery -> Reply<YtChannel>,
    download: string -> string,
    screenWidth: int)

  // ---------------------------------------------------------------------------
  // Requests

  /** `_get_resource`: exactly one result is the resource; a failed request
      becomes a YouTubeApiError (the `catch_http_error` wrapper). */
  function GetResource<T>(reply: Reply<T>): (r: Result<T>)
    ensures r.Ok? <==> reply.Listing? && reply.total == 1 && |reply.items| > 0
    ensures r.Ok? ==> r.value == reply.items[0]
    ensures reply.Failure? ==> r == Err(YouTubeApiError(reply.code, reply.message))
    ensures reply.Listing? && reply.total == 1 && reply.items == [] ==> r == Err(IndexError)
    ensures reply.Listing? && reply.total > 1 ==> r == Err(MultipleObjectsFound)
    ensures reply.Listing? && reply.total < 1 ==> r == Err(ObjectNotFound)
  {
    match reply
    case Failure(code, message) => Err(YouTubeApiError(code, message))
    case Listing(total, items) =>
      if total == 1 then (if |items| > 0 then Ok(items[0]) else Err(IndexError))
      else if total > 1 then Err(MultipleObjectsFound)
      else Err(ObjectNotFound)
  }

  /** The paging parameters `_get_collection` adds to a request. */
  datatype PageParams = PageParams(maxResults: int, pageToken: string)

  function CollectionParams(limit: int, pageToken: string): (p: PageParams)
    ensures p.maxResults <= MaxResults
    ensures limit <= MaxResults ==> p.maxResults == limit
    ensures limit >= MaxResults ==> p.maxResults == MaxResults
    ensures p.pageToken == pageToken
  {
    PageParams(if limit > MaxResults then MaxResults else limit, pageToken)
  }

  /** `get_channel_by_username`: a leading `@` selects the handle filter. */
  function GetChannelByUsername(api: Api, username: Option<string>): (r: Result<YtChannel>)
    ensures username.None? ==> r == Err(AttributeError)
    ensures username.Some? && Text.StartsWith(username.value, "@") ==> r == GetResource(api.channels(ForHandle(username.value)))
    ensures username.Some? && !Text.StartsWith(username.value, "@") ==> r == GetResource(api.channels(ForUsername(username.value)))
  {
    match username
    case None => Err(AttributeError)
    case Some(u) => GetResource(api.channels(if Text.StartsWith(u, "@") then ForHandle(u) else ForUsername(u)))
  }

  // ---------------------------------------------------------------------------
  // Derived fields

  predicate UniqueNames(thumbs: seq<Thumb>) {
    forall i, j :: 0 <= i < j < |thumbs| ==> thumbs[i].name != thumbs[j].name
  }

  /** `_get_thumbnail(size)`: the URL of the entry keyed `size`, else ''.
      The source scans the entries sorted by height; since dictionary keys are
      unique the scan order does not matter (`ThumbnailOrderIrrelevant`), so
      the model scans them as given. */
  function ThumbnailUrl(thumbs: seq<Thumb>, size: string): (r: string)
    ensures (forall n :: 0 <= n < |thumbs| ==> thumbs[n].name != size) ==> r == ""
    ensures (exists n :: 0 <= n < |thumbs| && thumbs[n].name == size) ==>
              exists n :: 0 <= n < |thumbs| && thumbs[n].name == size && r == thumbs[n].url
  {
    if thumbs == [] then ""
    else if thumbs[0].name == size then thumbs[0].url
    else
      var r := ThumbnailUrl(thumbs[1..], size);
      assert forall n :: 0 < n < |thumbs| ==> thumbs[n] == thumbs[1..][n - 1];
      r
  }

  /** Any reordering of a thumbnail dictionary's entries, the height sort
      included, selects the same URL. */
  lemma ThumbnailOrderIrrelevant(a: seq<Thumb>, b: seq<Thumb>, size: string)
    requires UniqueNames(a) && multiset(a) == multiset(b)
    ensures ThumbnailUrl(a, size) == ThumbnailUrl(b, size)
  {
    if exists n :: 0 <= n < |a| && a[n].name == size {
      var n :| 0 <= n < |a| && a[n].name == size && ThumbnailUrl(a, size) == a[n].url;
      assert a[n] in multiset(b);
      var k :| 0 <= k < |b| && b[k].name == size && ThumbnailUrl(b, size) == b[k].url;
      assert b[k] in multiset(a);
      var j :| 0 <= j < |a| && a[j] == b[k];
      assert j == n;
    } else {
      forall k | 0 <= k < |b|
        ensures b[k].name != size
      {
        assert b[k] in multiset(a);
      }
    }
  }

  /** `Channel.cover`: the banner scaled to the screen width, or ''. */
  function ChannelCover(c: YtChannel, screenWidth: int): (r: string)
    ensures c.banner.None? <==> r == ""
    ensures c.banner.Some? ==> r == c.banner.value + "=s" + Text.ShowInt(screenWidth)
  {
    match c.banner
    case None => ""
    case Some(b) => b + "=s" + Text.ShowInt(screenWidth)
  }

  /** The `(\d+)<unit>` part at the front of `s`: its value and what follows,
      or 0 and `s` unchanged when `s` does not start with one. */
  function Component(s: string, unit: char): (r: (nat, string))
    ensures |r.1| <= |s|
  {
    var j := Text.DigitRunEnd(s, 0);
    assert s[0..j] == s[..j];
    if 0 < j < |s| && s[j] == unit then (Text.DigitsValue(s[..j]), s[j + 1..]) else (0, s)
  }

  const SecondsPerDay: nat := 86400

  /** Seconds of the `[nH][nM][nS]` designators at the front of `s`. */
  function TimeSeconds(s: string): nat {
    var hours := Component(s, 'H');
    var minutes := Component(hours.1, 'M');
    var seconds := Component(minutes.1, 'S');
    3600 * hours.0 + 60 * minutes.0 + seconds.0
  }

  /** The most days a `timedelta` holds; building a longer one raises
      OverflowError. */
  const MaxDeltaDays: nat := 999999999

  /** `Video.duration`: `PT[nH][nM][nS]` in seconds, through `timedelta.seconds`
      (so reduced modulo one day); 0 when the text does not start with `PT`;
      OverflowError when the designators add up to more days than a
      `timedelta` holds. */
  function Duration(text: string): (r: Result<nat>)
    ensures !Text.StartsWith(text, "PT") ==> r == Ok(0)
    ensures r.Ok? ==> r.value < SecondsPerDay
    ensures r.Err? ==> r.error == OverflowError
  {
    if !Text.StartsWith(text, "PT") then Ok(0)
    else
      var total := TimeSeconds(text[2..]);
      if total / SecondsPerDay > MaxDeltaDays then Err(OverflowError) else Ok(total % SecondsPerDay)
  }

  // ---------------------------------------------------------------------------
  // The adapter

  /** `qs[key]` as the adapter reads it: absent, the single value, or (for a
      repeated key) a list, which the model does not carry further. */
  function QueryValue(query: map<string, seq<string>>, key: string): (r: Result<Option<string>>)
    ensures key !in query ==> r == Ok(None)
    ensures key in query && |query[key]| == 1 ==> r == Ok(Some(query[key][0]))
  {
    if key !in query then Ok(None)
    else if |query[key]| == 1 then Ok(Some(query[key][0]))
    else if |query[key]| == 0 then Err(IndexError)
    else Err(Unsupported("repeated query parameter"))
  }

  /** An image URL as the adapter stores it: downloaded when non-empty. */
  function Stored(api: Api, u: string): string {
    if u != "" then api.download(u) else ""
  }

  predicate IsWatch(parts: UrlParts) {
    Text.StartsWith(parts.path, "/watch") || parts.netloc == "youtu.be"
  }

  predicate IsPlaylist(parts: UrlParts) {
    !IsWatch(parts) && Text.StartsWith(parts.path, "/playlist")
  }

  predicate IsChannel(parts: UrlParts) {
    !IsWatch(parts) && !Text.StartsWith(parts.path, "/playlist") &&
    (Text.StartsWith(parts.path, "/channel/") || Text.StartsWith(parts.path, "/@"))
  }

  function ChannelEntity(c: YtChannel, api: Api): (e: Entity)
    ensures e.itemType == YouTubeChannel && e.isFolder
    ensures e.data.Keys == {"channel_id", "upload_playlist_id"} && e.data["channel_id"] == PyStr(c.id)
    ensures e.url == Some(BaseUrl + "/channel/" + c.id)
  {
    Entity(YouTubeChannel, true, Some(c.title), None, Some(BaseUrl + "/channel/" + c.id),
           Some(Stored(api, ThumbnailUrl(c.thumbnails, "medium"))),
           Some(Stored(api, ChannelCover(c, api.screenWidth))),
           map["channel_id" := PyStr(c.id), "upload_playlist_id" := PyStr(c.uploads)])
  }

  /** `adapter(url)`. */
  function Adapter(url: string, parts: UrlParts, api: Api): (r: Result<Option<Entity>>)
    ensures parts.netloc !in Hosts ==> r == Ok(None)
    ensures r == Ok(None) <==> parts.netloc !in Hosts || (!IsWatch(parts) && !IsPlaylist(parts) && !IsChannel(parts))
    ensures r.Ok? && r.value.Some? ==>
              var e := r.value.value;
              (e.itemType == YouTubeVideo <==> IsWatch(parts)) &&
              (e.itemType == YouTubePlaylist <==> IsPlaylist(parts)) &&
              (e.itemType == YouTubeChannel <==> IsChannel(parts)) &&
              e.isFolder == !IsWatch(parts)
    ensures r.Ok? && r.value.Some? && IsWatch(parts) ==>
              var e := r.value.value;
              e.data.Keys == {"video_id", "duration", "aired"} &&
              e.url == Some(BaseUrl + "/watch?v=" + Show(e.data["video_id"])) &&
              e.data["duration"].PyInt? && 0 <= e.data["duration"].i < SecondsPerDay &&
              ("v" in parts.query ==> |parts.query["v"]| == 1 && e.data["video_id"] == PyStr(parts.query["v"][0])) &&
              ("v" !in parts.query ==> e.data["video_id"] == OptVal(Regex.ReSearch(Regex.FirstSegment, parts.path)))
    ensures r.Ok? && r.value.Some? && IsPlaylist(parts) ==>
              var e := r.value.value;
              e.data.Keys == {"channel_id", "playlist_id"} && e.url == Some(url) &&
              "list" in parts.query && |parts.query["list"]| == 1 &&
              e.data["playlist_id"] == PyStr(parts.query["list"][0])
    ensures r.Ok? && r.value.Some? && IsChannel(parts) ==>
              var e := r.value.value;
              e.data.Keys == {"channel_id", "upload_playlist_id"} && e.data["channel_id"].PyStr? &&
              e.url == Some(BaseUrl + "/channel/" + e.data["channel_id"].s)
    ensures parts.netloc in Hosts && IsPlaylist(parts) && "list" !in parts.query ==> r == Err(KeyError("list"))
  {
    if parts.netloc !in Hosts then Ok(None)
    else if IsWatch(parts) then WatchAdapter(parts, api)
    else if Text.StartsWith(parts.path, "/playlist") then PlaylistAdapter(url, parts, api)
    else ChannelAdapter(parts, api)
  }

  /** The ValueError `datetime.fromisoformat` raises on a date it cannot parse. */
  const IsoFormatError := ValueError("Invalid isoformat string")

  /** Reading `published` for its `strftime`: the formatted date, or the
      parse error. */
  function Aired(aired: Option<string>): (r: Result<string>)
    ensures r.Ok? <==> aired.Some?
    ensures aired.Some? ==> r.value == aired.value
    ensures aired.None? ==> r == Err(IsoFormatError)
  {
    match aired
    case Some(t) => Ok(t)
    case None => Err(IsoFormatError)
  }

  /** The `/watch` and `youtu.be` branch of `adapter`. */
  function WatchAdapter(parts: UrlParts, api: Api): (r: Result<Option<Entity>>)
    ensures r.Ok? ==> r.value.Some?
    ensures r.Ok? && r.value.Some? ==>
              var e := r.value.value;
              e.itemType == YouTubeVideo && !e.isFolder &&
              e.data.Keys == {"video_id", "duration", "aired"} &&
              e.url == Some(BaseUrl + "/watch?v=" + Show(e.data["video_id"])) &&
              e.data["duration"].PyInt? && 0 <= e.data["duration"].i < SecondsPerDay &&
              ("v" in parts.query ==> |parts.query["v"]| == 1 && e.data["video_id"] == PyStr(parts.query["v"][0])) &&
              ("v" !in parts.query ==> e.data["video_id"] == OptVal(Regex.ReSearch(Regex.FirstSegment, parts.path)))
    ensures QueryValue(parts.query, "v").Ok? ==>
              var v := QueryValue(parts.query, "v").value;
              var fetched := GetResource(api.videos(if v.Some? then v else Regex.ReSearch(Regex.FirstSegment, parts.path)));
              (fetched.Ok? && Duration(fetched.value.durationText).Err? ==> r == Err(OverflowError)) &&
              (fetched.Ok? && Duration(fetched.value.durationText).Ok? && fetched.value.aired.None? ==> r == Err(IsoFormatError))
  {
    var v :- QueryValue(parts.query, "v");
    WatchVideo(if v.Some? then v else Regex.ReSearch(Regex.FirstSegment, parts.path), api)
  }

  /** The `/watch` entity once the video id is chosen: fetch the video, then
      read its duration, then its publication date. */
  function WatchVideo(videoId: Option<string>, api: Api): (r: Result<Option<Entity>>)
    ensures r.Ok? ==> r.value.Some?
    ensures r.Ok? && r.value.Some? ==>
              var e := r.value.value;
              e.itemType == YouTubeVideo && !e.isFolder &&
              e.data.Keys == {"video_id", "duration", "aired"} &&
              e.data["video_id"] == OptVal(videoId) &&
              e.url == Some(BaseUrl + "/watch?v=" + Show(OptVal(videoId))) &&
              e.data["duration"].PyInt? && 0 <= e.data["duration"].i < SecondsPerDay
    ensures var fetched := GetResource(api.videos(videoId));
            (fetched.Ok? && Duration(fetched.value.durationText).Err? ==> r == Err(OverflowError)) &&
            (fetched.Ok? && Duration(fetched.value.durationText).Ok? && fetched.value.aired.None? ==> r == Err(IsoFormatError))
  {
    var obj :- GetResource(api.videos(videoId));
    var duration :- Duration(obj.durationText);
    var aired :- Aired(obj.aired);
    Ok(Some(Entity(YouTubeVideo, false, Some(obj.title), None,
                   Some(BaseUrl + "/watch?v=" + Show(OptVal(videoId))),
                   Some(Stored(api, ThumbnailUrl(obj.thumbnails, "standard"))),
                   Some(Stored(api, ThumbnailUrl(obj.thumbnails, "maxres"))),
                   map["video_id" := OptVal(videoId),
                       "duration" := PyInt(duration),
                       "aired" := PyStr(aired)])))
  }

  /** The `/playlist` branch of `adapter`: `qs['list']` must be present. */
  function PlaylistAdapter(url: string, parts: UrlParts, api: Api): (r: Result<Option<Entity>>)
    ensures r.Ok? ==> r.value.Some?
    ensures r.Ok? && r.value.Some? ==>
              var e := r.value.value;
              e.itemType == YouTubePlaylist && e.isFolder &&
              e.data.Keys == {"channel_id", "playlist_id"} && e.url == Some(url) &&
              "list" in parts.query && |parts.query["list"]| == 1 &&
              e.data["playlist_id"] == PyStr(parts.query["list"][0])
    ensures "list" !in parts.query ==> r == Err(KeyError("list"))
  {
    var l :- QueryValue(parts.query, "list");
    if l.None? then Err(KeyError("list"))
    else
      var obj :- GetResource(api.playlists(l.value));
      Ok(Some(Entity(YouTubePlaylist, true, Some(obj.title), None, Some(url),
                     Some(Stored(api, ThumbnailUrl(obj.thumbnails, "standard"))),
                     Some(Stored(api, ThumbnailUrl(obj.thumbnails, "maxres"))),
                     map["channel_id" := PyStr(obj.channelId), "playlist_id" := PyStr(l.value)])))
  }

  /** The `/channel/` and `/@handle` branches of `adapter`; any other path is
      not YouTube's to resolve. */
  function ChannelAdapter(parts: UrlParts, api: Api): (r: Result<Option<Entity>>)
    ensures r == Ok(None) <==> !Text.StartsWith(parts.path, "/channel/") && !Text.StartsWith(parts.path, "/@")
    ensures r.Ok? && r.value.Some? ==>
              var e := r.value.value;
              e.itemType == YouTubeChannel && e.isFolder &&
              e.data.Keys == {"channel_id", "upload_playlist_id"} && e.data["channel_id"].PyStr? &&
              e.url == Some(BaseUrl + "/channel/" + e.data["channel_id"].s)
  {
    if Text.StartsWith(parts.path, "/channel/") then
      var obj :- GetResource(api.channels(ById(Regex.ReSearch(Regex.ChannelSegment, parts.path))));
      Ok(Some(ChannelEntity(obj, api)))
    else if Text.StartsWith(parts.path, "/@") then
      var handle := Regex.ReSearch(Regex.HandleSegment, parts.path);
      var obj :- GetChannelByUsername(api, if handle.Some? then Some("@" + handle.value) else None);
      Ok(Some(ChannelEntity(obj, api)))
    else Ok(None)
  }

  // ---------------------------------------------------------------------------
  // Durations against ISO 8601 (section 4.4.3.2 of ISO 8601:2004)

  /** One `<n><unit>` designator, or nothing. */
  function Designator(o: Option<nat>, unit: char): string {
    match o
    case None => ""
    case Some(n) => Text.NatDigits(n) + [unit]
  }

  /** A time-only duration `PT[nH][nM][nS]`. */
  function IsoTime(h: Option<nat>, m: Option<nat>, s: Option<nat>): string {
    "PT" + (Designator(h, 'H') + (Designator(m, 'M') + Designator(s, 'S')))
  }

  lemma {:induction false} RunStops(t: string, i: nat, k: nat)
    requires i <= k < |t| && Text.AllDigits(t[i..k]) && !Text.IsDigit(t[k])
    ensures Text.DigitRunEnd(t, i) == k
    decreases k - i
  {
    if i < k {
      assert t[i..k][0] == t[i];
      assert t[i + 1..k] == t[i..k][1..];
      RunStops(t, i + 1, k);
    }
  }

  lemma ComponentHit(n: nat, unit: char, rest: string)
    requires !Text.IsDigit(unit)
    ensures Component(Text.NatDigits(n) + [unit] + rest, unit) == (n, rest)
  {
    var d := Text.NatDigits(n);
    var t := d + [unit] + rest;
    assert t[0..|d|] == d;
    RunStops(t, 0, |d|);
    assert t[..|d|] == d;
    assert t[|d| + 1..] == rest;
  }

  lemma ComponentMiss(n: nat, other: char, rest: string, unit: char)
    requires !Text.IsDigit(other) && other != unit
    ensures var t := Text.NatDigits(n) + [other] + rest; Component(t, unit) == (0, t)
  {
    var d := Text.NatDigits(n);
    var t := d + [other] + rest;
    assert t[0..|d|] == d;
    RunStops(t, 0, |d|);
  }

  lemma ComponentOfDesignator(o: Option<nat>, unit: char, rest: string)
    requires !Text.IsDigit(unit)
    requires o.None? ==> Component(rest, unit) == (0, rest)
    ensures Component(Designator(o, unit) + rest, unit) == (o.GetOr(0), rest)
  {
    if o.Some? {
      ComponentHit(o.value, unit, rest);
    } else {
      assert Designator(o, unit) + rest == rest;
    }
  }

  lemma SecondsStage(s: Option<nat>)
    ensures Component(Designator(s, 'S'), 'S') == (s.GetOr(0), "")
  {
    assert Designator(s, 'S') + "" == Designator(s, 'S');
    ComponentOfDesignator(s, 'S', "");
  }

  lemma MinutesStage(m: Option<nat>, s: Option<nat>)
    ensures Component(Designator(m, 'M') + Designator(s, 'S'), 'M') == (m.GetOr(0), Designator(s, 'S'))
  {
    if m.None? && s.Some? {
      ComponentMiss(s.value, 'S', "", 'M');
      assert Text.NatDigits(s.value) + ['S'] + "" == Designator(s, 'S');
    }
    ComponentOfDesignator(m, 'M', Designator(s, 'S'));
  }

  lemma HoursStage(h: Option<nat>, m: Option<nat>, s: Option<nat>)
    ensures var tail := Designator(m, 'M') + Designator(s, 'S');
            Component(Designator(h, 'H') + tail, 'H') == (h.GetOr(0), tail)
  {
    var tail := Designator(m, 'M') + Designator(s, 'S');
    if h.None? {
      if m.Some? {
        ComponentMiss(m.value, 'M', Designator(s, 'S'), 'H');
      } else if s.Some? {
        ComponentMiss(s.value, 'S', "", 'H');
        assert Text.NatDigits(s.value) + ['S'] + "" == tail;
      }
    }
    ComponentOfDesignator(h, 'H', tail);
  }

  lemma TimeSecondsOfDesignators(h: Option<nat>, m: Option<nat>, s: Option<nat>)
    ensures TimeSeconds(Designator(h, 'H') + (Designator(m, 'M') + Designator(s, 'S'))) ==
            3600 * h.GetOr(0) + 60 * m.GetOr(0) + s.GetOr(0)
  {
    HoursStage(h, m, s);
    MinutesStage(m, s);
    SecondsStage(s);
  }

  /** `PT` followed by time designators reads as their seconds modulo one
      day, unless they exceed what a `timedelta` holds. */
  lemma DurationAfterPT(t: string, body: string, x: nat)
    requires t == "PT" + body && TimeSeconds(body) == x
    ensures x / SecondsPerDay <= MaxDeltaDays ==> Duration(t) == Ok(x % SecondsPerDay)
    ensures x / SecondsPerDay > MaxDeltaDays ==> Duration(t) == Err(OverflowError)
  {
    assert t[..2] == "PT";
    assert t[2..] == body;
  }

  /** The length in seconds that a time-only ISO 8601 duration denotes; an
      omitted designator counts as zero. */
  function IsoSeconds(h: Option<nat>, m: Option<nat>, s: Option<nat>): nat {
    3600 * h.GetOr(0) + 60 * m.GetOr(0) + s.GetOr(0)
  }

  /** Every time-only ISO 8601 duration of at most `MaxDeltaDays` days is
      read as its number of seconds, reduced modulo one day; a longer one
      raises OverflowError. */
  lemma DurationOfIsoTime(h: Option<nat>, m: Option<nat>, s: Option<nat>)
    ensures IsoSeconds(h, m, s) / SecondsPerDay <= MaxDeltaDays ==>
              Duration(IsoTime(h, m, s)) == Ok(IsoSeconds(h, m, s) % SecondsPerDay)
    ensures IsoSeconds(h, m, s) / SecondsPerDay > MaxDeltaDays ==>
              Duration(IsoTime(h, m, s)) == Err(OverflowError)
  {
    var body := Designator(h, 'H') + (Designator(m, 'M') + Designator(s, 'S'));
    assert TimeSeconds(body) == IsoSeconds(h, m, s) by { TimeSecondsOfDesignators(h, m, s); }
    DurationAfterPT(IsoTime(h, m, s), body, IsoSeconds(h, m, s));
  }

  /** 24 000 000 000 hours are a billion days, one more than a `timedelta`
      holds, so reading the duration raises OverflowError. */
  lemma DurationOverflows()
    ensures Duration(IsoTime(Some(24000000000), None, None)) == Err(OverflowError)
  {
    DurationOfIsoTime(Some(24000000000), None, None);
  }

  /** A duration with a day part (`P1DT...`) is not matched and reads as 0. */
  lemma DayPartReadsZero(rest: string)
    ensures Duration("P1D" + rest) == Ok(0)
  {
    assert ("P1D" + rest)[1] == '1';
  }
}

=== FILE: pyjson.dfy ===
/** Python values that travel through plugin URLs, and the `json.dumps` /
    `json.loads` pair the router applies to them.

    The value domain is the one the addon passes around: None, booleans,
    integers and strings. `Loads` recognises the JSON texts that decode into
    that domain (null, true, false, integers, strings without escapes),
    surrounded by optional JSON whitespace. */
module PyJson {
  import opened Wrappers
  import Text

  datatype PyVal = PyNone | PyBool(b: bool) | PyInt(i: int) | PyStr(s: string)

  /** An optional string as the Python value it is (`None` or a str). */
  function OptVal(o: Option<string>): PyVal {
    match o
    case None => PyNone
    case Some(s) => PyStr(s)
  }

  /** Python's `str(v)`, as `%s` formatting and f-strings render it. */
  function Show(v: PyVal): string {
    match v
    case PyNone => "None"
    case PyBool(b) => if b then "True" else "False"
    case PyInt(i) => Text.ShowInt(i)
    case PyStr(s) => s
  }

  /** `json.dumps(v)` for the non-string values the router encodes. */
  function Dumps(v: PyVal): (t: string)
    requires !v.PyStr?
    ensures |t| > 0
  {
    match v
    case PyNone => "null"
    case PyBool(b) => if b then "true" else "false"
    case PyInt(i) => Text.ShowInt(i)
  }

  predicate IsJsonWs(c: char) {
    c == ' ' || c == '\t' || c == '\n' || c == '\r'
  }

  function TrimStart(t: string): (r: string)
    ensures |r| <= |t|
    ensures r == [] || !IsJsonWs(r[0])
  {
    if t != [] && IsJsonWs(t[0]) then TrimStart(t[1..]) else t
  }

  function TrimEnd(t: string): (r: string)
    ensures |r| <= |t|
    ensures r == [] || !IsJsonWs(r[|r| - 1])
  {
    if t != [] && IsJsonWs(t[|t| - 1]) then TrimEnd(t[..|t| - 1]) else t
  }

  /** Digits of a JSON integer: no leading zero unless the number is 0. */
  predicate JsonNatText(d: string) {
    |d| > 0 && Text.AllDigits(d) && (|d| > 1 ==> d[0] != '0')
  }

  predicate JsonIntText(t: string) {
    JsonNatText(t) || (|t| > 1 && t[0] == '-' && JsonNatText(t[1..]))
  }

  function JsonIntValue(t: string): int
    requires JsonIntText(t)
  {
    if JsonNatText(t) then Text.DigitsValue(t) else -(Text.DigitsValue(t[1..]) as int)
  }

  /** A JSON string literal without escape sequences or control characters. */
  predicate PlainJsonString(t: string) {
    |t| >= 2 && t[0] == '"' && t[|t| - 1] == '"' &&
    forall n :: 0 < n < |t| - 1 ==> t[n] != '"' && t[n] != '\\' && t[n] >= ' '
  }

  function LoadsCore(t: string): Option<PyVal> {
    if t == "null" then Some(PyNone)
    else if t == "true" then Some(PyBool(true))
    else if t == "false" then Some(PyBool(false))
    else if JsonIntText(t) then Some(PyInt(JsonIntValue(t)))
    else if PlainJsonString(t) then Some(PyStr(t[1..|t| - 1]))
    else None
  }

  /** `json.loads(t)`, None where it would raise (or decode outside the domain). */
  function Loads(t: string): Option<PyVal> {
    LoadsCore(TrimEnd(TrimStart(t)))
  }

  lemma {:induction false} NatDigitsIsJson(n: nat)
    ensures JsonNatText(Text.NatDigits(n))
  {
  }

  lemma {:induction false} TrimNoWs(t: string)
    requires t != [] && !IsJsonWs(t[0]) && !IsJsonWs(t[|t| - 1])
    ensures TrimEnd(TrimStart(t)) == t
  {
  }

  /** An integer's decimal text is JSON integer text denoting it. */
  lemma ShowIntIsJson(i: int)
    ensures var t := Text.ShowInt(i);
            JsonIntText(t) && JsonIntValue(t) == i && !IsJsonWs(t[0]) && !IsJsonWs(t[|t| - 1])
  {
    var t := Text.ShowInt(i);
    var d := Text.NatDigits(if i < 0 then -i else i);
    NatDigitsIsJson(if i < 0 then -i else i);
    assert Text.IsDigit(d[|d| - 1]);
    if i < 0 {
      assert t[1..] == d;
      assert t[|t| - 1] == d[|d| - 1];
    } else {
      assert Text.IsDigit(d[0]);
    }
  }

  lemma LoadsInt(i: int)
    ensures Loads(Text.ShowInt(i)) == Some(PyInt(i))
  {
    var t := Text.ShowInt(i);
    ShowIntIsJson(i);
    TrimNoWs(t);
    assert t[0] == '-' || Text.IsDigit(t[0]);
    assert t != "null" && t != "true" && t != "false" by {
      assert "null"[0] == 'n' && "true"[0] == 't' && "false"[0] == 'f';
    }
  }

  /** Decoding what `Dumps` produced gives the value back. */
  lemma {:induction false} LoadsDumps(v: PyVal)
    requires !v.PyStr?
    ensures Loads(Dumps(v)) == Some(v)
  {
    match v
    case PyNone =>
    case PyBool(b) =>
    case PyInt(i) => LoadsInt(i);
  }
}

=== FILE: regex.dfy ===
/** The `re_search(pattern, text)` helper the providers import: the first
    capture group of the leftmost match of `pattern` in `text`, or None
    (the behaviour `re.search(...).group(1)` has in resources/lib/rutube.py).

    Patterns are written in a small language that covers every pattern the
    providers use: literals, one-or-more runs of a character class (optionally
    captured) and a lazy `.*?`. Runs are matched greedily without giving
    characters back; for the well-formed patterns used here (a run is last or is
    followed by a literal whose first character lies outside the run's class)
    that is exactly what a backtracking engine finds, which `Complete` proves. */
module Regex {
  import opened Wrappers
  import Text

  datatype CharClass = NotSlash | Digit

  predicate InClass(c: char, k: CharClass) {
    match k
    case NotSlash => c != '/'
    case Digit => Text.IsDigit(c)
  }

  datatype Token =
    | Lit(text: string)
    | Run(cls: CharClass, capture: bool)  // `[^/]+` or `\d+`, inside `( )` when `capture`
    | LazyAny                              // `.*?`: as few non-newline characters as possible

  type Pattern = seq<Token>

  datatype Match = Match(end: nat, groups: seq<string>)

  predicate AllIn(s: string, i: nat, j: nat, k: CharClass)
    requires i <= j <= |s|
  {
    forall n :: i <= n < j ==> InClass(s[n], k)
  }

  predicate NoNewline(s: string, i: nat, j: nat)
    requires i <= j <= |s|
  {
    forall n :: i <= n < j ==> s[n] != '\n'
  }

  /** End of the longest run of class `k` starting at `i`. */
  function RunEnd(s: string, i: nat, k: CharClass): (j: nat)
    requires i <= |s|
    ensures i <= j <= |s| && AllIn(s, i, j, k)
    ensures j < |s| ==> !InClass(s[j], k)
    decreases |s| - i
  {
    if i < |s| && InClass(s[i], k) then RunEnd(s, i + 1, k) else i
  }

  /** What a backtracking engine means by "p matches s from position i, ending
      at m.end with groups m.groups": any run length, any lazy skip. */
  ghost predicate Accepts(p: Pattern, s: string, i: nat, m: Match)
    requires i <= |s|
    decreases |p|
  {
    if p == [] then m == Match(i, [])
    else match p[0]
      case Lit(w) =>
        i + |w| <= |s| && s[i..i + |w|] == w && Accepts(p[1..], s, i + |w|, m)
      case Run(k, cap) =>
        exists j :: i < j <= |s| && AllIn(s, i, j, k) &&
          if cap then |m.groups| > 0 && m.groups[0] == s[i..j] && Accepts(p[1..], s, j, Match(m.end, m.groups[1..]))
          else Accepts(p[1..], s, j, m)
      case LazyAny =>
        exists j :: i <= j <= |s| && NoNewline(s, i, j) && Accepts(p[1..], s, j, m)
  }

  /** Matching at a fixed start position, as the engine runs it. */
  function MatchAt(p: Pattern, s: string, i: nat): (r: Option<Match>)
    requires i <= |s|
    ensures r.Some? ==> i <= r.value.end <= |s|
    decreases |p|, 1, 0
  {
    if p == [] then Some(Match(i, []))
    else match p[0]
      case Lit(w) =>
        if i + |w| <= |s| && s[i..i + |w|] == w then MatchAt(p[1..], s, i + |w|) else None
      case Run(k, cap) =>
        var j := RunEnd(s, i, k);
        if j == i then None
        else
          (match MatchAt(p[1..], s, j)
           case None => None
           case Some(m) => Some(Match(m.end, if cap then [s[i..j]] + m.groups else m.groups)))
      case LazyAny =>
        LazyFrom(p[1..], s, i, i)
  }

  /** `.*?` followed by `rest`: the shortest skip from `start` after which `rest` matches. */
  function LazyFrom(rest: Pattern, s: string, start: nat, i: nat): (r: Option<Match>)
    requires start <= i <= |s| && NoNewline(s, start, i)
    ensures r.Some? ==> i <= r.value.end <= |s|
    decreases |rest| + 1, 0, |s| - i
  {
    match MatchAt(rest, s, i)
    case Some(m) => Some(m)
    case None => if i < |s| && s[i] != '\n' then LazyFrom(rest, s, start, i + 1) else None
  }

  predicate MatchesAt(p: Pattern, s: string, i: nat)
    requires i <= |s|
  {
    MatchAt(p, s, i).Some?
  }

  function FirstGroup(m: Match): Option<string> {
    if |m.groups| > 0 then Some(m.groups[0]) else None
  }

  /** `re.search`: the match at the leftmost position where the pattern matches. */
  function SearchFrom(p: Pattern, s: string, i: nat): (r: Option<Match>)
    requires i <= |s| + 1
    ensures r.Some? <==> exists n :: i <= n <= |s| && MatchesAt(p, s, n)
    ensures r.Some? ==> exists n :: i <= n <= |s| && MatchAt(p, s, n) == r &&
                                   forall q :: i <= q < n ==> !MatchesAt(p, s, q)
    decreases |s| + 1 - i
  {
    if i > |s| then None
    else if MatchesAt(p, s, i) then MatchAt(p, s, i)
    else SearchFrom(p, s, i + 1)
  }

  function Search(p: Pattern, s: string): Option<Match> {
    SearchFrom(p, s, 0)
  }

  /** `re_search(pattern, text)`: group 1 of the first match, or None. */
  function ReSearch(p: Pattern, s: string): (r: Option<string>)
    ensures r.Some? ==> exists n :: 0 <= n <= |s| && MatchesAt(p, s, n) &&
                                   r == FirstGroup(MatchAt(p, s, n).value) &&
                                   forall q :: 0 <= q < n ==> !MatchesAt(p, s, q)
    ensures (forall n :: 0 <= n <= |s| ==> !MatchesAt(p, s, n)) ==> r.None?
  {
    match Search(p, s)
    case None => None
    case Some(m) => FirstGroup(m)
  }

  // ---------------------------------------------------------------------------
  // Agreement with the backtracking reading

  /** Every match the engine reports is a match of the pattern. */
  lemma {:induction false} Sound(p: Pattern, s: string, i: nat)
    requires i <= |s| && MatchesAt(p, s, i)
    ensures Accepts(p, s, i, MatchAt(p, s, i).value)
    decreases |p|, 1, 0
  {
    if p != [] {
      match p[0]
      case Lit(w) =>
        Sound(p[1..], s, i + |w|);
      case Run(k, cap) =>
        var j := RunEnd(s, i, k);
        Sound(p[1..], s, j);
        var m := MatchAt(p, s, i).value;
        if cap {
          assert m.groups[1..] == MatchAt(p[1..], s, j).value.groups;
        }
      case LazyAny =>
        LazySound(p[1..], s, i, i);
    }
  }

  lemma {:induction false} LazySound(rest: Pattern, s: string, start: nat, i: nat)
    requires start <= i <= |s| && NoNewline(s, start, i)
    requires LazyFrom(rest, s, start, i).Some?
    ensures exists j :: start <= j <= |s| && NoNewline(s, start, j) &&
                        Accepts(rest, s, j, LazyFrom(rest, s, start, i).value)
    decreases |rest| + 1, 0, |s| - i
  {
    match MatchAt(rest, s, i)
    case Some(m) =>
      Sound(rest, s, i);
    case None =>
      LazySound(rest, s, start, i + 1);
  }

  /** Every literal is non-empty and every run is either last or followed by a
      literal whose first character its class cannot absorb; no lazy token. */
  predicate WellFormed(p: Pattern) {
    forall n :: 0 <= n < |p| ==> TokenOk(p, n)
  }

  predicate TokenOk(p: Pattern, n: nat)
    requires n < |p|
  {
    match p[n]
    case Lit(w) => |w| > 0
    case LazyAny => false
    case Run(k, _) => n + 1 == |p| || (p[n + 1].Lit? && |p[n + 1].text| > 0 && !InClass(p[n + 1].text[0], k))
  }

  /** A well-formed pattern that can match from `i` is found by the engine at `i`. */
  lemma {:induction false} Complete(p: Pattern, s: string, i: nat, m: Match)
    requires i <= |s| && WellFormed(p) && Accepts(p, s, i, m)
    ensures MatchesAt(p, s, i)
    decreases |p|
  {
    if p != [] {
      assert WellFormed(p[1..]) by {
        forall n | 0 <= n < |p[1..]|
          ensures TokenOk(p[1..], n)
        {
          assert TokenOk(p, n + 1);
        }
      }
      assert TokenOk(p, 0);
      match p[0]
      case Lit(w) =>
        Complete(p[1..], s, i + |w|, m);
      case LazyAny =>
        assert false;
      case Run(k, cap) =>
        var j :| i < j <= |s| && AllIn(s, i, j, k) &&
          if cap then |m.groups| > 0 && m.groups[0] == s[i..j] && Accepts(p[1..], s, j, Match(m.end, m.groups[1..]))
          else Accepts(p[1..], s, j, m);
        var e := RunEnd(s, i, k);
        assert e >= j;
        var m' := if cap then Match(m.end, m.groups[1..]) else m;
        if |p| == 1 {
          assert MatchesAt(p[1..], s, e);
        } else {
          var w := p[1].text;
          assert p[1..][0] == p[1];
          assert j + |w| <= |s| && s[j..j + |w|] == w;
          assert s[j] == w[0];
          assert !InClass(s[j], k);
          assert e == j;
          Complete(p[1..], s, j, m');
        }
    }
  }

  // ---------------------------------------------------------------------------
  // The patterns the providers search with

  /** `/video/([^/]+)/` */
  const VideoSlug: Pattern := [Lit("/video/"), Run(NotSlash, true), Lit("/")]
  /** `/channel/(\d+)` */
  const ChannelDigits: Pattern := [Lit("/channel/"), Run(Digit, true)]
  /** `/plst/(\d+)` */
  const PlaylistDigits: Pattern := [Lit("/plst/"), Run(Digit, true)]
  /** `/plst/(\d+)/` */
  const PlaylistDigitsSlash: Pattern := [Lit("/plst/"), Run(Digit, true), Lit("/")]
  /** `"channel_id":.*?(\d+)` */
  const ChannelIdInBody: Pattern := [Lit("\"channel_id\":"), LazyAny, Run(Digit, true)]
  /** `/([^/]+)` */
  const FirstSegment: Pattern := [Lit("/"), Run(NotSlash, true)]
  /** `/channel/([^/]+)` */
  const ChannelSegment: Pattern := [Lit("/channel/"), Run(NotSlash, true)]
  /** `/(@[^/]+)` with the `@` moved out of the group: the group always starts
      with the literal `@`, so the handle is "@" + group. */
  const HandleSegment: Pattern := [Lit("/@"), Run(NotSlash, true)]
  /** `/(?P<username>[^/]+)/posts/(?P<post_id>[^/]+)/` */
  const BoostyPost: Pattern := [Lit("/"), Run(NotSlash, true), Lit("/posts/"), Run(NotSlash, true), Lit("/")]
  /** `/(?P<username>[^/]+)/media/all/(?P<post_id>[^/]+)/(?P<media_id>[^/]+)/` */
  const BoostyMedia: Pattern :=
    [Lit("/"), Run(NotSlash, true), Lit("/media/all/"), Run(NotSlash, true), Lit("/"), Run(NotSlash, true), Lit("/")]

  lemma ProviderPatternsWellFormed()
    ensures WellFormed(VideoSlug) && WellFormed(ChannelDigits) && WellFormed(PlaylistDigits)
    ensures WellFormed(PlaylistDigitsSlash) && WellFormed(FirstSegment) && WellFormed(ChannelSegment)
    ensures WellFormed(HandleSegment) && WellFormed(BoostyPost) && WellFormed(BoostyMedia)
  {
  }

  // ---------------------------------------------------------------------------
  // What the captured groups contain

  /** A match of `<literal>(<run>)...` captures a non-empty run of the class. */
  lemma LitRunGroup(w: string, k: CharClass, rest: Pattern, s: string, i: nat)
    requires i <= |s| && MatchesAt([Lit(w), Run(k, true)] + rest, s, i)
    ensures var g := FirstGroup(MatchAt([Lit(w), Run(k, true)] + rest, s, i).value);
            g.Some? && |g.value| > 0 && AllIn(g.value, 0, |g.value|, k)
  {
    var p := [Lit(w), Run(k, true)] + rest;
    assert p[0] == Lit(w);
    assert p[1..][0] == Run(k, true) && p[1..][1..] == rest;
    var j := RunEnd(s, i + |w|, k);
    var g := s[i + |w|..j];
    assert forall n :: 0 <= n < |g| ==> g[n] == s[i + |w| + n];
  }

  /** `re_search` with such a pattern returns a non-empty run of the class. */
  lemma SearchLitRunGroup(w: string, k: CharClass, rest: Pattern, s: string)
    requires ReSearch([Lit(w), Run(k, true)] + rest, s).Some?
    ensures var g := ReSearch([Lit(w), Run(k, true)] + rest, s).value;
            |g| > 0 && AllIn(g, 0, |g|, k)
  {
    var p := [Lit(w), Run(k, true)] + rest;
    var n :| 0 <= n <= |s| && MatchesAt(p, s, n) && ReSearch(p, s) == FirstGroup(MatchAt(p, s, n).value);
    LitRunGroup(w, k, rest, s, n);
  }

  /** `.*?(<run>)`: whatever skip succeeds, the group is a non-empty run. */
  lemma {:induction false} LazyRunGroup(k: CharClass, s: string, start: nat, i: nat)
    requires start <= i <= |s| && NoNewline(s, start, i)
    requires LazyFrom([Run(k, true)], s, start, i).Some?
    ensures var g := FirstGroup(LazyFrom([Run(k, true)], s, start, i).value);
            g.Some? && |g.value| > 0 && AllIn(g.value, 0, |g.value|, k)
    decreases |s| - i
  {
    var p := [Run(k, true)];
    assert p[0] == Run(k, true) && p[1..] == [];
    match MatchAt(p, s, i)
    case Some(m) =>
      var j := RunEnd(s, i, k);
      var g := s[i..j];
      assert forall n :: 0 <= n < |g| ==> g[n] == s[i + n];
    case None =>
      LazyRunGroup(k, s, start, i + 1);
  }

  /** The digits found after `"channel_id":` are a non-empty decimal numeral. */
  lemma ChannelIdInBodyDigits(s: string)
    requires ReSearch(ChannelIdInBody, s).Some?
    ensures var g := ReSearch(ChannelIdInBody, s).value; |g| > 0 && Text.AllDigits(g)
  {
    var p := ChannelIdInBody;
    var w := "\"channel_id\":";
    var n :| 0 <= n <= |s| && MatchesAt(p, s, n) && ReSearch(p, s) == FirstGroup(MatchAt(p, s, n).value);
    assert p[0] == Lit(w) && p[1..][0] == LazyAny && p[1..][1..] == [Run(Digit, true)];
    LazyRunGroup(Digit, s, n + |w|, n + |w|);
    AllInDigits(ReSearch(p, s).value);
  }

  /** The group of `/channel/(\d+)` is a non-empty decimal numeral. */
  lemma ChannelDigitsDigits(s: string)
    requires ReSearch(ChannelDigits, s).Some?
    ensures var g := ReSearch(ChannelDigits, s).value; |g| > 0 && Text.AllDigits(g)
  {
    assert ChannelDigits == [Lit("/channel/"), Run(Digit, true)] + [];
    SearchLitRunGroup("/channel/", Digit, [], s);
    AllInDigits(ReSearch(ChannelDigits, s).value);
  }

  /** The groups of `/plst/(\d+)` and `/plst/(\d+)/` are non-empty decimal numerals. */
  lemma PlaylistDigitsDigits(s: string)
    ensures ReSearch(PlaylistDigits, s).Some? ==>
              var g := ReSearch(PlaylistDigits, s).value; |g| > 0 && Text.AllDigits(g)
    ensures ReSearch(PlaylistDigitsSlash, s).Some? ==>
              var g := ReSearch(PlaylistDigitsSlash, s).value; |g| > 0 && Text.AllDigits(g)
  {
    assert PlaylistDigits == [Lit("/plst/"), Run(Digit, true)] + [];
    assert PlaylistDigitsSlash == [Lit("/plst/"), Run(Digit, true)] + [Lit("/")];
    if ReSearch(PlaylistDigits, s).Some? {
      SearchLitRunGroup("/plst/", Digit, [], s);
      AllInDigits(ReSearch(PlaylistDigits, s).value);
    }
    if ReSearch(PlaylistDigitsSlash, s).Some? {
      SearchLitRunGroup("/plst/", Digit, [Lit("/")], s);
      AllInDigits(ReSearch(PlaylistDigitsSlash, s).value);
    }
  }

  lemma AllInDigits(g: string)
    requires AllIn(g, 0, |g|, Digit)
    ensures Text.AllDigits(g)
  {
  }

  /** How many groups a pattern captures. */
  function Captures(p: Pattern): nat {
    if p == [] then 0
    else (if p[0].Run? && p[0].capture then 1 else 0) + Captures(p[1..])
  }

  predicate NoLazy(p: Pattern) {
    forall n :: 0 <= n < |p| ==> !p[n].LazyAny?
  }

  /** A match of a pattern without `.*?` has one group per capturing run. */
  lemma {:induction false} GroupCount(p: Pattern, s: string, i: nat)
    requires i <= |s| && NoLazy(p) && MatchesAt(p, s, i)
    ensures |MatchAt(p, s, i).value.groups| == Captures(p)
    decreases |p|
  {
    if p != [] {
      assert NoLazy(p[1..]) by {
        assert forall n :: 0 <= n < |p[1..]| ==> p[1..][n] == p[n + 1];
      }
      assert !p[0].LazyAny?;
      match p[0]
      case Lit(w) => GroupCount(p[1..], s, i + |w|);
      case Run(k, cap) => GroupCount(p[1..], s, RunEnd(s, i, k));
    }
  }

  /** `re.search` of such a pattern yields a match with one group per capturing run. */
  lemma SearchGroupCount(p: Pattern, s: string)
    requires NoLazy(p)
    ensures Search(p, s).Some? ==> |Search(p, s).value.groups| == Captures(p)
  {
    if Search(p, s).Some? {
      var n :| 0 <= n <= |s| && MatchAt(p, s, n) == Search(p, s);
      GroupCount(p, s, n);
    }
  }
}

=== FILE: rutube_client.dfy ===
/** The Rutube web-API client the Rutube pages use (resources/lib/rutube.py):
    id extraction from page URLs and the paginated collections, whose path
    is a template filled from the keyword arguments. The HTTP session is a
    parameter: a page fetch, and a listing request answered with a status
    and a decoded body. */
module RutubeClient {
  import opened Wrappers
  import opened PyJson
  import Text
  import Regex
  import Settings

  // ---------------------------------------------------------------------------
  // Ids in URLs

  /** `get_channel_id(url)`: the digits after `/channel/` in the URL; only when
      there are none is the page fetched and searched for `"channel_id":`
      followed (lazily) by digits. */
  function ChannelId(url: string, fetch: string -> Result<string>): (r: Result<int>)
    ensures Regex.ReSearch(Regex.ChannelDigits, url).Some? ==>
              var g := Regex.ReSearch(Regex.ChannelDigits, url).value;
              Text.AllDigits(g) && r == Ok(Text.DigitsValue(g) as int)
    ensures Regex.ReSearch(Regex.ChannelDigits, url).None? && fetch(url).Err? ==> r == Err(fetch(url).error)
    ensures Regex.ReSearch(Regex.ChannelDigits, url).None? && fetch(url).Ok? ==>
              var found := Regex.ReSearch(Regex.ChannelIdInBody, fetch(url).value);
              (found.None? ==> r.Err? && r.error.ValueError?) &&
              (found.Some? ==> Text.AllDigits(found.value) && r == Ok(Text.DigitsValue(found.value) as int))
  {
    match Regex.ReSearch(Regex.ChannelDigits, url)
    case Some(g) =>
      Regex.ChannelDigitsDigits(url);
      Settings.ParseDigits(g);
      Settings.ParseInt(g)
    case None =>
      var body :- fetch(url);
      match Regex.ReSearch(Regex.ChannelIdInBody, body)
      case Some(g) =>
        Regex.ChannelIdInBodyDigits(body);
        Settings.ParseDigits(g);
        Settings.ParseInt(g)
      case None => Err(ValueError("not Rutube channel"))
  }

  /** A URL naming its channel needs no fetch: any two page fetchers agree. */
  lemma ChannelIdWithoutFetch(url: string, f: string -> Result<string>, g: string -> Result<string>)
    requires Regex.ReSearch(Regex.ChannelDigits, url).Some?
    ensures ChannelId(url, f) == ChannelId(url, g) && ChannelId(url, f).Ok?
  {
  }

  /** `get_playlist_id(url)`: the digits of `/plst/<digits>/`, slash required. */
  function PlaylistId(url: string): (r: Result<int>)
    ensures Regex.ReSearch(Regex.PlaylistDigitsSlash, url).Some? ==>
              var g := Regex.ReSearch(Regex.PlaylistDigitsSlash, url).value;
              Text.AllDigits(g) && r == Ok(Text.DigitsValue(g) as int)
    ensures Regex.ReSearch(Regex.PlaylistDigitsSlash, url).None? ==> r.Err? && r.error.ValueError?
  {
    match Regex.ReSearch(Regex.PlaylistDigitsSlash, url)
    case Some(g) =>
      Regex.PlaylistDigitsDigits(url);
      Settings.ParseDigits(g);
      Settings.ParseInt(g)
    case None => Err(ValueError("not Rutube playlist"))
  }

  // ---------------------------------------------------------------------------
  // Path templates

  /** A collection's `_path` as `string.Formatter().parse` splits it. */
  datatype Part = Literal(text: string) | Field(name: string)

  type Template = seq<Part>

  /** The field names in template order. */
  function Fields(t: Template): (f: seq<string>)
    ensures |f| <= |t|
  {
    if t == [] then []
    else (if t[0].Field? then [t[0].name] else []) + Fields(t[1..])
  }

  function FieldSet(t: Template): set<string> {
    set n | n in Fields(t)
  }

  predicate Distinct(f: seq<string>) {
    forall i, j :: 0 <= i < j < |f| ==> f[i] != f[j]
  }

  lemma DistinctCons(n: string, f: seq<string>)
    ensures Distinct([n] + f) <==> n !in f && Distinct(f)
  {
    var g := [n] + f;
    assert forall j :: 0 <= j < |f| ==> g[j + 1] == f[j];
    if Distinct(g) {
      forall i, j | 0 <= i < j < |f|
        ensures f[i] != f[j]
      {
        assert g[i + 1] != g[j + 1];
      }
      forall j | 0 <= j < |f|
        ensures f[j] != n
      {
        assert g[0] != g[j + 1];
      }
    }
  }

  predicate Provides(kwargs: map<string, PyVal>, t: Template) {
    forall n :: n in Fields(t) ==> n in kwargs
  }

  /** Reference reading of `_path.format(**values)`: literals kept, each field
      replaced by `str` of its value. */
  function Render(t: Template, values: map<string, PyVal>): string
    requires Provides(values, t)
  {
    if t == [] then ""
    else match t[0]
      case Literal(s) => s + Render(t[1..], values)
      case Field(n) => Show(values[n]) + Render(t[1..], values)
  }

  lemma {:induction false} RenderAgrees(t: Template, a: map<string, PyVal>, b: map<string, PyVal>)
    requires Provides(a, t) && Provides(b, t)
    requires forall n :: n in Fields(t) ==> a[n] == b[n]
    ensures Render(t, a) == Render(t, b)
  {
    if t != [] {
      assert Fields(t) == (if t[0].Field? then [t[0].name] else []) + Fields(t[1..]);
      RenderAgrees(t[1..], a, b);
    }
  }

  /** Pops every field named in the template from `kwargs`, in template order,
      and substitutes it: the path and the keyword arguments left over. A field
      that is missing, or named a second time after being popped, is a KeyError. */
  function Fill(t: Template, kwargs: map<string, PyVal>): (r: Result<(string, map<string, PyVal>)>)
    ensures r.Ok? <==> Distinct(Fields(t)) && Provides(kwargs, t)
    ensures r.Ok? ==> r.value.0 == Render(t, kwargs)
    ensures r.Ok? ==> r.value.1 == kwargs - FieldSet(t)
    ensures r.Err? ==> r.error.KeyError?
    decreases |t|
  {
    if t == [] then Ok(("", kwargs))
    else
      var f := Fields(t[1..]);
      assert Fields(t) == (if t[0].Field? then [t[0].name] else []) + f;
      match t[0]
      case Literal(s) =>
        assert Fields(t) == f;
        assert Provides(kwargs, t) <==> Provides(kwargs, t[1..]);
        var rest :- Fill(t[1..], kwargs);
        Ok((s + rest.0, rest.1))
      case Field(n) =>
        if n !in kwargs then Err(KeyError(n))
        else
          var left := kwargs - {n};
          DistinctCons(n, f);
          var rest :- Fill(t[1..], left);
          RenderAgrees(t[1..], left, kwargs);
          Ok((Show(kwargs[n]) + rest.0, rest.1))
  }

  // ---------------------------------------------------------------------------
  // Collections

  /** The four collections and their path templates. */
  const PlaylistsPath: Template := [Literal("/playlist/user/"), Field("person_id"), Literal("/")]
  const PlaylistItemsPath: Template := [Literal("/playlist/custom/"), Field("playlist_id"), Literal("/videos/")]
  const VideosPath: Template := [Literal("/video/person/"), Field("person_id"), Literal("/")]
  const ShortsPath: Template :=
    [Literal("/video/person/"), Field("person_id"), Literal("/?client=wdp&origin__type=rshorts")]

  /** One element of `results`; attributes by name. */
  type Model = map<string, PyVal>

  /** `Collection(**response.json())`: the attributes the pages read, each
      possibly absent. Iterating it yields `results` in order. */
  datatype Collection = Collection(results: Option<seq<Model>>, hasNext: Option<bool>)

  /** `iter(collection)`: one Model per element of `results`, in order; a
      reply without `results` raises AttributeError. */
  function Iterate(c: Collection): (r: Result<seq<Model>>)
    ensures r.Ok? <==> c.results.Some?
    ensures r.Ok? ==> |r.value| == |c.results.value| &&
                      forall n :: 0 <= n < |r.value| ==> r.value[n] == c.results.value[n]
    ensures r.Err? ==> r.error == AttributeError
  {
    match c.results
    case None => Err(AttributeError)
    case Some(rs) => Ok(rs)
  }

  /** `collection.has_next`. */
  function HasNext(c: Collection): (r: Result<bool>)
    ensures r.Ok? <==> c.hasNext.Some?
    ensures r.Ok? ==> r.value == c.hasNext.value
    ensures r.Err? ==> r.error == AttributeError
  {
    match c.hasNext
    case None => Err(AttributeError)
    case Some(b) => Ok(b)
  }

  /** `model.<name>`: a missing attribute raises AttributeError. */
  function Attr(m: Model, name: string): (r: Result<PyVal>)
    ensures r.Ok? <==> name in m
    ensures r.Ok? ==> r.value == m[name]
    ensures r.Err? ==> r.error == AttributeError
  {
    if name in m then Ok(m[name]) else Err(AttributeError)
  }

  /** The session's answer to `get(path, params=...)`. */
  datatype Reply = Reply(status: int, body: Collection)

  type Session = (string, map<string, PyVal>) -> Reply

  /** The request `list(page, **kwargs)` sends: the filled path, and `page`
      with the keyword arguments the path did not consume. */
  function Request(t: Template, page: int, kwargs: map<string, PyVal>): (r: Result<(string, map<string, PyVal>)>)
    requires "page" !in kwargs
    ensures r.Ok? <==> Fill(t, kwargs).Ok?
    ensures r.Err? ==> r.error.KeyError?
    ensures r.Ok? ==> r.value.0 == Render(t, kwargs)
    ensures r.Ok? ==> r.value.1.Keys == (kwargs.Keys - FieldSet(t)) + {"page"}
    ensures r.Ok? ==> r.value.1["page"] == PyInt(page)
    ensures r.Ok? ==> forall n :: n in r.value.1 && n != "page" ==> n in kwargs && r.value.1[n] == kwargs[n]
    ensures r.Ok? ==> forall n :: n in Fields(t) ==> n !in r.value.1
  {
    var filled :- Fill(t, kwargs);
    Ok((filled.0, filled.1["page" := PyInt(page)]))
  }

  /** `Collection.list(page, **kwargs)`: an error status (400 to 599) raises
      before the body is looked at. */
  function List(t: Template, page: int, kwargs: map<string, PyVal>, session: Session): (r: Result<Collection>)
    requires "page" !in kwargs
    ensures Request(t, page, kwargs).Err? ==> r == Err(Request(t, page, kwargs).error)
    ensures Request(t, page, kwargs).Ok? ==>
              var q := Request(t, page, kwargs).value;
              var reply := session(q.0, q.1);
              (400 <= reply.status < 600 ==> r == Err(HttpError(reply.status))) &&
              (!(400 <= reply.status < 600) ==> r == Ok(reply.body))
  {
    var q :- Request(t, page, kwargs);
    var reply := session(q.0, q.1);
    if 400 <= reply.status < 600 then Err(HttpError(reply.status)) else Ok(reply.body)
  }

  /** An error reply's body never matters. */
  lemma ErrorStatusIgnoresBody(t: Template, page: int, kwargs: map<string, PyVal>, s1: Session, s2: Session)
    requires "page" !in kwargs && Request(t, page, kwargs).Ok?
    requires var q := Request(t, page, kwargs).value;
             s1(q.0, q.1).status == s2(q.0, q.1).status && 400 <= s1(q.0, q.1).status < 600
    ensures List(t, page, kwargs, s1) == List(t, page, kwargs, s2) && List(t, page, kwargs, s1).Err?
  {
  }

  /** Each collection is listed by the one id its template names; the person
      or playlist id lands in the path and only `page` is sent as a parameter. */
  lemma CollectionRequests(id: PyVal, page: int)
    ensures Request(VideosPath, page, map["person_id" := id]) ==
              Ok(("/video/person/" + Show(id) + "/", map["page" := PyInt(page)]))
    ensures Request(PlaylistItemsPath, page, map["playlist_id" := id]) ==
              Ok(("/playlist/custom/" + Show(id) + "/videos/", map["page" := PyInt(page)]))
    ensures Request(PlaylistsPath, page, map["person_id" := id]).Ok?
    ensures Request(ShortsPath, page, map["person_id" := id]).Ok?
    ensures Request(VideosPath, page, map[]) == Err(KeyError("person_id"))
  {
    VideosRequest(id, page);
    PlaylistItemsRequest(id, page);
    assert Fields(PlaylistsPath) == ["person_id"];
    assert Fields(ShortsPath) == ["person_id"];
  }

  /** The uploads of one person: the id is rendered into the path. */
  lemma VideosRequest(id: PyVal, page: int)
    ensures Request(VideosPath, page, map["person_id" := id]) ==
              Ok(("/video/person/" + Show(id) + "/", map["page" := PyInt(page)]))
  {
    assert Fields(VideosPath) == ["person_id"];
    assert VideosPath[1..] == [Field("person_id"), Literal("/")];
    assert VideosPath[1..][1..] == [Literal("/")];
    var v := map["person_id" := id];
    assert Render(VideosPath[1..][1..], v) == "/" + Render([], v);
    assert Render(VideosPath[1..], v) == Show(id) + "/";
    assert Render(VideosPath, v) == "/video/person/" + Show(id) + "/";
    assert v - FieldSet(VideosPath) == map[];
  }

  /** The items of one playlist: the id is rendered into the path. */
  lemma PlaylistItemsRequest(id: PyVal, page: int)
    ensures Request(PlaylistItemsPath, page, map["playlist_id" := id]) ==
              Ok(("/playlist/custom/" + Show(id) + "/videos/", map["page" := PyInt(page)]))
  {
    assert Fields(PlaylistItemsPath) == ["playlist_id"];
    assert PlaylistItemsPath[1..] == [Field("playlist_id"), Literal("/videos/")];
    assert PlaylistItemsPath[1..][1..] == [Literal("/videos/")];
    var p := map["playlist_id" := id];
    assert Render(PlaylistItemsPath[1..][1..], p) == "/videos/" + Render([], p);
    assert Render(PlaylistItemsPath[1..], p) == Show(id) + "/videos/";
    assert Render(PlaylistItemsPath, p) == "/playlist/custom/" + Show(id) + "/videos/";
    assert p - FieldSet(PlaylistItemsPath) == map[];
  }

}

=== FILE: settings.dfy ===
/** Addon settings (resources/lib/settings.py). Kodi stores every setting as
    text; the model gives the installed addons' settings as a map. */
module Settings {
  import opened Wrappers
  import Text

  /** Settings of every installed addon, by addon id. */
  type Addons = map<string, map<string, string>>

  /** `get_string(key, addon_id)`: the named addon's setting, or the current
      addon's when `addon_id` is None. Kodi answers '' for an unknown key and
      refuses to open an addon that is not installed. */
  function GetString(addons: Addons, current: string, key: string, addonId: Option<string>): (r: Result<string>)
    ensures var id := if addonId.Some? then addonId.value else current;
            (id in addons <==> r.Ok?) &&
            (r.Ok? ==> r.value == (if key in addons[id] then addons[id][key] else ""))
  {
    var id := match addonId case Some(a) => a case None => current;
    if id !in addons then Err(RuntimeError("unknown addon id"))
    else Ok(if key in addons[id] then addons[id][key] else "")
  }

  /** `configparser.ConfigParser.BOOLEAN_STATES`. */
  const BooleanStates: map<string, bool> :=
    map["1" := true, "yes" := true, "true" := true, "on" := true,
        "0" := false, "no" := false, "false" := false, "off" := false]

  /** The conversion `get_boolean` applies to the setting text: the table's
      verdict for the eight known spellings, Python truthiness otherwise. */
  function TextToBool(value: string): bool {
    if value in BooleanStates then BooleanStates[value] else value != ""
  }

  lemma TextToBoolTable(value: string)
    ensures TextToBool(value) <==>
              value in {"1", "yes", "true", "on"} ||
              (value !in {"0", "no", "false", "off"} && value != "")
    ensures TextToBool("False") && TextToBool("No") && !TextToBool("")
  {
  }

  function GetBoolean(addons: Addons, current: string, key: string, addonId: Option<string>): (r: Result<bool>)
    ensures r.Ok? <==> GetString(addons, current, key, addonId).Ok?
    ensures r.Ok? ==> r.value == TextToBool(GetString(addons, current, key, addonId).value)
  {
    var s :- GetString(addons, current, key, addonId);
    Ok(TextToBool(s))
  }

  // ---------------------------------------------------------------------------
  // `int(text)` as `get_int` applies it

  /** The characters `int()` strips from both ends: the six ASCII whitespace
      characters, and the non-ASCII characters `str.isspace()` accepts (the
      Unicode spaces and line and paragraph separators). The ASCII separators
      0x1c-0x1f pass `str.isspace()` but are not stripped. */
  predicate IsPyWs(c: char) {
    c == ' ' || c == '\t' || c == '\n' || c == '\r' ||
    c as int == 0x0b || c as int == 0x0c ||
    c as int == 0x85 || c as int == 0xa0 || c as int == 0x1680 ||
    0x2000 <= c as int <= 0x200a || c as int == 0x2028 || c as int == 0x2029 ||
    c as int == 0x202f || c as int == 0x205f || c as int == 0x3000
  }

  function Strip(s: string): (r: string)
    ensures |r| <= |s|
    ensures r == [] || (!IsPyWs(r[0]) && !IsPyWs(r[|r| - 1]))
  {
    if s == [] then s
    else if IsPyWs(s[0]) then Strip(s[1..])
    else if IsPyWs(s[|s| - 1]) then Strip(s[..|s| - 1])
    else s
  }

  /** Digits, with single underscores allowed between two digits ("1_000"). */
  predicate IntBody(b: string) {
    |b| > 0 && Text.IsDigit(b[0]) && Text.IsDigit(b[|b| - 1]) &&
    (forall n :: 0 <= n < |b| ==> Text.IsDigit(b[n]) || b[n] == '_') &&
    NoDoubleUnderscore(b)
  }

  /** No two underscores in a row. */
  predicate NoDoubleUnderscore(b: string) {
    |b| < 2 || (!(b[0] == '_' && b[1] == '_') && NoDoubleUnderscore(b[1..]))
  }

  function DropUnderscores(b: string): (d: string)
    requires forall n :: 0 <= n < |b| ==> Text.IsDigit(b[n]) || b[n] == '_'
    ensures Text.AllDigits(d)
    ensures Text.AllDigits(b) ==> d == b
  {
    if b == [] then []
    else (if b[0] == '_' then [] else [b[0]]) + DropUnderscores(b[1..])
  }

  /** `int(text)`: surrounding whitespace, an optional sign, then the digits. */
  function ParseInt(text: string): (r: Result<int>)
    ensures r.Err? ==> r.error.ValueError?
  {
    ParseStripped(Strip(text))
  }

  /** The sign and digits once whitespace is gone. */
  function ParseStripped(t: string): (r: Result<int>)
    ensures r.Err? ==> r.error.ValueError?
  {
    if |t| > 0 && (t[0] == '+' || t[0] == '-') && IntBody(t[1..]) then
      var v: int := Text.DigitsValue(DropUnderscores(t[1..]));
      Ok(if t[0] == '-' then -v else v)
    else if IntBody(t) then Ok(Text.DigitsValue(DropUnderscores(t)))
    else Err(ValueError("invalid literal for int()"))
  }

  lemma StripUnchanged(s: string)
    requires s != [] && !IsPyWs(s[0]) && !IsPyWs(s[|s| - 1])
    ensures Strip(s) == s
  {
  }

  lemma DigitsAreIntBody(d: string)
    requires |d| > 0 && Text.AllDigits(d)
    ensures IntBody(d) && DropUnderscores(d) == d
  {
    assert Text.IsDigit(d[0]) && Text.IsDigit(d[|d| - 1]);
    DigitsHaveNoUnderscores(d);
  }

  lemma {:induction false} DigitsHaveNoUnderscores(d: string)
    requires Text.AllDigits(d)
    ensures NoDoubleUnderscore(d)
  {
    if |d| >= 2 {
      assert Text.IsDigit(d[0]);
      DigitsHaveNoUnderscores(d[1..]);
    }
  }

  /** `int(d)` of a plain decimal numeral is its value. */
  lemma ParseDigits(d: string)
    requires |d| > 0 && Text.AllDigits(d)
    ensures ParseInt(d) == Ok(Text.DigitsValue(d) as int)
  {
    DigitsAreIntBody(d);
    assert !IsPyWs(d[0]) && !IsPyWs(d[|d| - 1]);
    StripUnchanged(d);
    assert !(d[0] == '+' || d[0] == '-');
  }

  lemma ParseSignedBody(t: string)
    requires |t| > 0 && t[0] == '-' && IntBody(t[1..])
    ensures ParseStripped(t) == Ok(-(Text.DigitsValue(DropUnderscores(t[1..])) as int))
  {
  }

  lemma ParseSigned(d: string)
    requires |d| > 0 && Text.AllDigits(d)
    ensures ParseStripped("-" + d) == Ok(-(Text.DigitsValue(d) as int))
  {
    var t := "-" + d;
    assert t[1..] == d;
    DigitsAreIntBody(d);
    ParseSignedBody(t);
  }

  /** `int("-" + d)` of a decimal numeral is its negated value. */
  lemma ParseNegative(d: string)
    requires |d| > 0 && Text.AllDigits(d)
    ensures ParseInt("-" + d) == Ok(-(Text.DigitsValue(d) as int))
  {
    var s := "-" + d;
    assert s[0] == '-' && s[|s| - 1] == d[|d| - 1];
    assert Text.IsDigit(d[|d| - 1]);
    StripUnchanged(s);
    ParseSigned(d);
  }

  /** `int(str(i)) == i`. */
  lemma {:induction false} ParseShowInt(i: int)
    ensures ParseInt(Text.ShowInt(i)) == Ok(i)
  {
    if i < 0 {
      ParseNegative(Text.NatDigits(-i));
    } else {
      ParseDigits(Text.NatDigits(i));
    }
  }

  /** `int("\xa0" + d + "\u3000") == int(d)`: a no-break space before and an
      ideographic space after the numeral are stripped like ASCII blanks. */
  lemma ParseStripsUnicodeSpaces(d: string)
    requires |d| > 0 && Text.AllDigits(d)
    ensures ParseInt([0xa0 as char] + d + [0x3000 as char]) == Ok(Text.DigitsValue(d) as int)
  {
    var s := [0xa0 as char] + d + [0x3000 as char];
    var t := d + [0x3000 as char];
    assert s[1..] == t;
    assert t[..|t| - 1] == d;
    assert Text.IsDigit(d[0]) && Text.IsDigit(d[|d| - 1]);
    assert Strip(t) == Strip(d) by {
      assert t[0] == d[0] && t[|t| - 1] == 0x3000 as char;
    }
    assert Strip(s) == Strip(t);
    ParseDigits(d);
  }

  /** `int("\x1c" + d)` raises ValueError: the separators 0x1c-0x1f are
      whitespace to `str.isspace()`, but `int()` keeps them. */
  lemma ParseKeepsSeparators(c: char, d: string)
    requires 0x1c <= c as int <= 0x1f && |d| > 0 && Text.AllDigits(d)
    ensures ParseInt([c] + d) == Err(ValueError("invalid literal for int()"))
  {
    var s := [c] + d;
    assert s[|s| - 1] == d[|d| - 1] && Text.IsDigit(d[|d| - 1]);
    StripUnchanged(s);
    ParseRejects(s, 0);
  }

  /** `int(text)` raises ValueError for blank text. */
  lemma ParseBlank(text: string)
    requires Strip(text) == []
    ensures ParseInt(text).Err? && ParseInt(text).error.ValueError?
  {
  }

  /** `int(text)` raises ValueError when the stripped text holds a character
      that is neither a digit, an underscore, nor a leading sign. */
  lemma ParseRejects(text: string, k: nat)
    requires k < |Strip(text)| && !Text.IsDigit(Strip(text)[k]) && Strip(text)[k] != '_'
    requires k > 0 || (Strip(text)[0] != '+' && Strip(text)[0] != '-')
    ensures ParseInt(text).Err? && ParseInt(text).error.ValueError?
  {
    var t := Strip(text);
    assert !IntBody(t);
    if k > 0 {
      assert t[1..][k - 1] == t[k];
      assert !IntBody(t[1..]);
    }
  }

  /** `get_int(key, addon_id)`. */
  function GetInt(addons: Addons, current: string, key: string, addonId: Option<string>): (r: Result<int>)
    ensures GetString(addons, current, key, addonId).Err? ==> r.Err? && r.error.RuntimeError?
    ensures GetString(addons, current, key, addonId).Ok? ==> r == ParseInt(GetString(addons, current, key, addonId).value)
  {
    var s :- GetString(addons, current, key, addonId);
    ParseInt(s)
  }
}

=== FILE: storage.dfy ===
/** The record types the pages and providers import from `..storage`
    (`Item`, `ItemType`, `Playlist`, `PlaylistType`, `PlaylistItem`). Their
    definitions are not part of this model; they are declared here with the
    fields the modelled code reads. */
module Storage {
  import opened Wrappers
  import opened PyJson

  datatype ItemType =
    | Folder | Video
    | YouTubeChannel | YouTubePlaylist | YouTubeVideo
    | RutubeChannel | RutubePlaylist | RutubeVideo
    | BoostyProfile | BoostyPost | BoostyVideo

  /** The dictionary `MediaProvider.get_data` returns (and an adapter fills in).
      A key the dictionary lacks reads as None. `data` is the provider's
      identity bag, persisted with the item and read back by URL constructors. */
  datatype Entity = Entity(
    itemType: ItemType,
    isFolder: bool,
    title: Option<string>,
    description: Option<string>,
    url: Option<string>,
    thumbnail: Option<string>,
    cover: Option<string>,
    data: map<string, PyVal>)

  /** A saved library entry: `Item(parent_id=..., **data)` plus its key. */
  datatype Item = Item(id: int, parentId: Option<int>, entity: Entity)

  datatype PlaylistType = Manual | OtherPlaylistType(name: string)

  datatype Playlist = Playlist(id: string, title: string, typeName: PlaylistType)

  datatype PlaylistItem = PlaylistItem(id: string, playlistId: Option<string>, url: string)

  /** `item.data[key]`: a missing key raises KeyError. */
  function DataValue(item: Item, key: string): (r: Result<PyVal>)
    ensures r.Ok? <==> key in item.entity.data
    ensures r.Ok? ==> r.value == item.entity.data[key]
    ensures r.Err? ==> r.error == KeyError(key)
  {
    if key in item.entity.data then Ok(item.entity.data[key]) else Err(KeyError(key))
  }
}

=== FILE: text.dfy ===
/** String helpers: prefixes, ASCII decimal digits and their conversion to and
    from integers. Python's `\d` and `int()` also accept non-ASCII decimal
    digits; this model keeps to '0'..'9'. */
module Text {

  predicate StartsWith(s: string, prefix: string) {
    |prefix| <= |s| && s[..|prefix|] == prefix
  }

  predicate IsDigit(c: char) {
    '0' <= c <= '9'
  }

  predicate AllDigits(s: string) {
    forall i :: 0 <= i < |s| ==> IsDigit(s[i])
  }

  function DigitValue(c: char): nat
    requires IsDigit(c)
  {
    (c as int) - ('0' as int)
  }

  function DigitChar(d: nat): (c: char)
    requires d < 10
    ensures IsDigit(c) && DigitValue(c) == d
  {
    ('0' as int + d) as char
  }

  /** Value of a string of decimal digits, most significant first. */
  function DigitsValue(s: string): nat
    requires AllDigits(s)
  {
    if s == [] then 0 else DigitsValue(s[..|s| - 1]) * 10 + DigitValue(s[|s| - 1])
  }

  /** Shortest decimal spelling of `n` ("0" for zero, no leading zeros). */
  function NatDigits(n: nat): (s: string)
    ensures |s| > 0 && AllDigits(s)
    ensures DigitsValue(s) == n
    ensures |s| > 1 ==> s[0] != '0'
  {
    if n < 10 then [DigitChar(n)]
    else
      var prefix := NatDigits(n / 10);
      var s := prefix + [DigitChar(n % 10)];
      assert s[..|s| - 1] == prefix;
      s
  }

  /** Python's `str(i)` for an integer. */
  function ShowInt(i: int): (s: string)
    ensures |s| > 0
  {
    if i < 0 then "-" + NatDigits(-i) else NatDigits(i)
  }

  /** `sep.join(parts)`. */
  function Join(sep: string, parts: seq<string>): string {
    if parts == [] then ""
    else if |parts| == 1 then parts[0]
    else parts[0] + sep + Join(sep, parts[1..])
  }

  /** Index of the end of the maximal run of digits starting at `i`. */
  function DigitRunEnd(s: string, i: nat): (j: nat)
    requires i <= |s|
    ensures i <= j <= |s|
    ensures AllDigits(s[i..j])
    ensures j < |s| ==> !IsDigit(s[j])
    decreases |s| - i
  {
    if i < |s| && IsDigit(s[i]) then DigitRunEnd(s, i + 1) else i
  }
}

=== FILE: url_registry.dfy ===
/** The item URL constructor as the running addon holds it: resources/lib/pages/items.py
    creates it with FOLDER and VIDEO, and importing resources/lib/pages/youtube.py
    and resources/lib/pages/boosty.py adds the three YouTube and the three
    Boosty types. No page registers a Rutube type. */
module UrlRegistry {
  import opened Wrappers
  import opened Storage
  import opened Directory
  import Text
  import Utils
  import Paging
  import PagesItems
  import PagesYouTube
  import PagesBoosty
  import ProvidersBase
  import ProvidersBoosty
  import ProvidersRutube
  import Providers

  /** The constructor after every page module has registered its types. */
  function Constructors(): (c: PagesItems.Constructors)
    ensures c.table.Keys == {Folder, Video, YouTubeChannel, YouTubePlaylist, YouTubeVideo,
                             BoostyProfile, BoostyPost, BoostyVideo}
    ensures c.table[Folder] == PagesItems.FolderUrl && c.table[Video] == PagesItems.VideoUrl
    ensures c.table[YouTubeChannel] == PagesYouTube.ChannelUrl && c.table[YouTubePlaylist] == PagesYouTube.PlaylistUrl &&
            c.table[YouTubeVideo] == PagesYouTube.VideoUrl
    ensures c.table[BoostyProfile] == PagesBoosty.ProfileUrl && c.table[BoostyPost] == PagesBoosty.PostUrl &&
            c.table[BoostyVideo] == PagesBoosty.MediaUrl
  {
    var base := PagesItems.BaseConstructors();
    var y1 := Utils.Register(base, YouTubeChannel, PagesYouTube.ChannelUrl);
    var y2 := Utils.Register(y1, YouTubePlaylist, PagesYouTube.PlaylistUrl);
    var y3 := Utils.Register(y2, YouTubeVideo, PagesYouTube.VideoUrl);
    var b1 := Utils.Register(y3, BoostyProfile, PagesBoosty.ProfileUrl);
    var b2 := Utils.Register(b1, BoostyPost, PagesBoosty.PostUrl);
    Utils.Register(b2, BoostyVideo, PagesBoosty.MediaUrl)
  }

  /** The registered table written out at once. */
  function Table(): map<ItemType, Item -> Result<Link>> {
    map[Folder := PagesItems.FolderUrl, Video := PagesItems.VideoUrl,
        YouTubeChannel := PagesYouTube.ChannelUrl, YouTubePlaylist := PagesYouTube.PlaylistUrl,
        YouTubeVideo := PagesYouTube.VideoUrl,
        BoostyProfile := PagesBoosty.ProfileUrl, BoostyPost := PagesBoosty.PostUrl, BoostyVideo := PagesBoosty.MediaUrl]
  }

  /** The registrations in import order leave exactly this table. */
  lemma ConstructorsTable()
    ensures Constructors().table == Table()
  {
    var c := Constructors();
    assert c.table.Keys == Table().Keys;
  }

  /** The Rutube types have no constructor: asking for one raises ValueError. */
  lemma RutubeTypesUnregistered(i: Item)
    requires i.entity.itemType == RutubeChannel || i.entity.itemType == RutubePlaylist || i.entity.itemType == RutubeVideo
    ensures Utils.Call(Constructors(), i.entity.itemType, i) == Err(Utils.NotFound)
  {
    UnregisteredCall(i.entity.itemType, i);
  }

  lemma UnregisteredCall(t: ItemType, i: Item)
    requires t !in Table()
    ensures Utils.Call(Constructors(), t, i) == Err(Utils.NotFound)
  {
    ConstructorsTable();
  }

  lemma BoostyPrefixIsUrl(input: string)
    requires Text.StartsWith(input, ProvidersBoosty.SitePrefix)
    ensures ProvidersBase.IsUrl(input)
  {
    assert input[..8] == ProvidersBoosty.SitePrefix[..8];
  }

  lemma RutubePrefixIsUrl(input: string)
    requires Text.StartsWith(input, ProvidersRutube.SitePrefix)
    ensures ProvidersBase.IsUrl(input)
  {
    assert input[..8] == ProvidersRutube.SitePrefix[..8];
  }

  /** The entity the media provider resolves a link to, when it is the
      adapter's: backfilling keeps the adapter's type and data. */
  lemma ResolvedByAdapter(input: string, scrape: ProvidersBase.Scraper, adapters: ProvidersBase.Registry, hit: ProvidersBase.Hit)
    requires ProvidersBase.IsUrl(input) && scrape(input).Ok?
    requires ProvidersBase.FirstHit(adapters, input) == Ok(Some(hit))
    ensures var r := ProvidersBase.GetData(input, scrape, adapters);
            r.Ok? && r.value.itemType == hit.entity.itemType && r.value.data == hit.entity.data &&
            r.value.isFolder == hit.entity.isFolder
  {
  }

  /** Every item the addon creates from a boosty.to link can be listed: the
      constructor registered for its type succeeds on it. */
  lemma BoostyItemsAreListable(input: string, parentId: Option<int>, id: int, scrape: ProvidersBase.Scraper,
                               boosty: ProvidersBoosty.Api, rutube: ProvidersRutube.Api)
    requires Text.StartsWith(input, ProvidersBoosty.SitePrefix)
    requires ProvidersBase.CreateItem(input, parentId, id, scrape, Providers.Registry(boosty, rutube)).Ok?
    ensures var i := ProvidersBase.CreateItem(input, parentId, id, scrape, Providers.Registry(boosty, rutube)).value;
            Utils.Call(Constructors(), i.entity.itemType, i).Ok?
  {
    var reg := Providers.Registry(boosty, rutube);
    var i := ProvidersBase.CreateItem(input, parentId, id, scrape, reg).value;
    BoostyPrefixIsUrl(input);
    Providers.BoostyAnswersFirst(input, boosty, rutube);
    var a := ProvidersBoosty.Adapter(input, boosty);
    assert a.Ok?;
    ResolvedByAdapter(input, scrape, reg, ProvidersBase.Hit(0, a.value.value));
    PagesBoosty.AdapterItemsAreLinkable(input, boosty, id, parentId);
    ProvidersBoosty.AdapterIdentityKeys(input, boosty);
    var e := a.value.value;
    assert i.entity.itemType == e.itemType && i.entity.data == e.data;
    assert PagesBoosty.ProfileUrl(i) == PagesBoosty.ProfileUrl(Item(id, parentId, e)) by {
      assert DataValue(i, "username") == DataValue(Item(id, parentId, e), "username");
    }
  }

  /** Whatever the Rutube adapter resolves is of a Rutube type. */
  lemma RutubeAdapterTypes(url: string, api: ProvidersRutube.Api)
    requires ProvidersRutube.Adapter(url, api).Ok? && ProvidersRutube.Adapter(url, api).value.Some?
    ensures var t := ProvidersRutube.Adapter(url, api).value.value.itemType;
            t == RutubeChannel || t == RutubePlaylist || t == RutubeVideo
  {
  }

  /** An item the addon creates from a rutube.ru link has no constructor, so
      a folder page that shows it fails with ValueError instead of listing. */
  lemma RutubeItemsBreakListing(input: string, id: int, scrape: ProvidersBase.Scraper,
                                boosty: ProvidersBoosty.Api, rutube: ProvidersRutube.Api,
                                table: seq<Item>, folderId: Option<int>, offset: nat, perPage: nat, boostyEnabled: bool)
    requires Text.StartsWith(input, ProvidersRutube.SitePrefix)
    requires ProvidersBase.CreateItem(input, folderId, id, scrape, Providers.Registry(boosty, rutube)).Ok?
    requires ProvidersBase.CreateItem(input, folderId, id, scrape, Providers.Registry(boosty, rutube)).value in
             Paging.Window(PagesItems.Children(table, folderId), perPage, offset)
    ensures PagesItems.ListItems(Constructors(), table, folderId, offset, perPage, boostyEnabled).Err?
  {
    var reg := Providers.Registry(boosty, rutube);
    var i := ProvidersBase.CreateItem(input, folderId, id, scrape, reg).value;
    RutubePrefixIsUrl(input);
    Providers.RutubeAnswersSecond(input, boosty, rutube);
    var a := ProvidersRutube.Adapter(input, rutube);
    assert a.Ok?;
    ResolvedByAdapter(input, scrape, reg, ProvidersBase.Hit(1, a.value.value));
    RutubeAdapterTypes(input, rutube);
    RutubeTypesUnregistered(i);
    var w := Paging.Window(PagesItems.Children(table, folderId), perPage, offset);
    var n :| 0 <= n < |w| && w[n] == i;
    assert !PagesItems.ItemRow(Constructors(), w[n]).Ok?;
  }
}

=== FILE: utils.dfy ===
/** `URLConstructor` (resources/lib/utils.py): a registry from a type name to
    the function that builds a plugin URL for an object of that type. */
module Utils {
  import opened Wrappers

  /** The registry's `_map`. Registered functions may themselves fail
      (a constructor reading a missing `data` key raises KeyError). */
  datatype UrlConstructor<K(==), !A, R> = UrlConstructor(table: map<K, A -> Result<R>>)

  function Empty<K(==), A, R>(): UrlConstructor<K, A, R> {
    UrlConstructor(map[])
  }

  /** `register(type_name)(func)`: a later registration under the same name replaces the earlier one. */
  function Register<K(==), A, R>(c: UrlConstructor<K, A, R>, typeName: K, f: A -> Result<R>): (c': UrlConstructor<K, A, R>)
    ensures c'.table.Keys == c.table.Keys + {typeName}
    ensures c'.table[typeName] == f
    ensures forall k :: k in c.table && k != typeName ==> c'.table[k] == c.table[k]
  {
    UrlConstructor(c.table[typeName := f])
  }

  /** The error `url_construct` raises for a type name nobody registered. */
  const NotFound := ValueError("URL constructor not found")

  /** `url_construct(type_name, arg)`. */
  function Call<K(==), A, R>(c: UrlConstructor<K, A, R>, typeName: K, arg: A): (r: Result<R>)
    ensures typeName !in c.table ==> r == Err(NotFound)
    ensures typeName in c.table ==> r == c.table[typeName](arg)
  {
    if typeName !in c.table then Err(NotFound)
    else c.table[typeName](arg)
  }

  /** Registering twice under one name: calls reach only the second function. */
  lemma ReRegisterReplaces<K, A, R>(c: UrlConstructor<K, A, R>, typeName: K, f: A -> Result<R>, g: A -> Result<R>, arg: A)
    ensures Call(Register(Register(c, typeName, f), typeName, g), typeName, arg) == g(arg)
  {
  }

  /** Registering one name leaves every other name's behaviour as it was. */
  lemma RegisterKeepsOthers<K, A, R>(c: UrlConstructor<K, A, R>, typeName: K, f: A -> Result<R>, other: K, arg: A)
    requires other != typeName
    ensures Call(Register(c, typeName, f), other, arg) == Call(c, other, arg)
  {
  }
}

=== FILE: wrappers.dfy ===
/** Option, Result and the error taxonomy shared by every module of the model.
    The Python source signals failure by raising exceptions; here each raise
    becomes an `Err` carrying the exception class it would have raised. */
module Wrappers {

  datatype Option<+T> = None | Some(value: T) {
    function GetOr(default: T): T {
      match this
      case Some(v) => v
      case None => default
    }
  }

  /** The exception classes the modelled code raises or lets propagate. */
  datatype Error =
    | ValueError(msg: string)
    | KeyError(key: string)
    | IndexError
    | TypeError
    | AttributeError
    | ValidationError(msg: string)
    | HttpError(status: int)
    | MultipleObjectsFound
    | ObjectNotFound
    | YouTubeApiError(code: int, message: string)
    | AuthError(msg: string)
    | BoostyApiError(description: string)
    | BoostyError(msg: string)
    | RuntimeError(msg: string)
    | ZeroDivisionError
    | OverflowError
    | Unsupported(msg: string)

  datatype Result<+T> = Ok(value: T) | Err(error: Error) {
    predicate IsFailure() { Err? }

    function PropagateFailure<U>(): Result<U>
      requires Err?
    {
      Err(error)
    }

    function Extract(): T
      requires Ok?
    {
      value
    }
  }

  /** Python truthiness of an optional string: None and '' are false. */
  predicate Truthy(o: Option<string>) {
    o.Some? && o.value != ""
  }

  /** Python's `a or b` on optional strings. */
  function Or(a: Option<string>, b: Option<string>): Option<string> {
    if Truthy(a) then a else b
  }
}
